=== FILE: README.md ===
# LR1121 example firmware — decision and encoding core in Dafny

This project models the small decision and encoding routines of the Makerfabs
LR1121/LR11xx example firmware and proves properties about them.

| module | file | what it models |
|---|---|---|
| `Bytes` | bytes.dfy | byte, 16-bit and 32-bit integers with explicit wrap-around; big-endian 16-bit and 32-bit serialisation; two-digit upper-case hex |
| `Irq` | irq.dfy | the radio interrupt dispatcher (`apps_common_lr11xx_irq_process`), the interrupt latch set by `radio_on_dio_irq`, the oversize guard of `apps_common_lr11xx_receive`, the DBPSK ramp-time selection |
| `Per` | per.dfy | the packet-error-rate test: transmitter payload and rolling counter, receiver statistics per radio event |
| `Bridge` | bridge.dfy | the UART-to-radio bridge: UART byte callback, main-loop consume step, `send_string_to_mos`, the radio handlers' re-arm policy |
| `Dht` | dht.dfy | the DHT11 driver: bit and byte assembly from line samples with wait timeouts, and the five-byte frame with its checksum |
| `App` | app.dfy | the LoRaWAN sensor application: sensor retries, uplink frame layout, `send_frame`, TX-done bookkeeping, the button branch, the button debounce |
| `Boot` | boot.dfy | the LR1121 bootloader commands: opcode/offset/word encoding with a decoder, version reply, splitting a firmware image into flash chunks, and the write loop that stops at the first failure |
| `Utilities` | utilities.dfy | the debug formatters: hex dump, credential lines, status words, region names, and the region query |

Hardware calls are modelled as parameters. This covers the chip's status word, the received payload, the line samples of the DHT11, the modem's replies and the chip's statuses for each flash chunk. Every formatter is a pure function from data to the text it prints. Most formatters also have a parser, and a round-trip lemma shows that the printed text determines the data.

Global variables of the C code become fields of immutable records. Each callback and each main-loop step becomes one transition function over such a record. Unsigned C integers are `int` newtypes, and each increment states its wrap-around explicitly. Status words and masks are `bv8` and `bv32`.

## Model

| member | source | states |
|---|---|---|
| Bytes.Be16 | example/LoRaWAN/lr1121/radio/Src/lr1121_bootloader.c:139-142 | a 16-bit value is sent as two bytes, high byte first: the bytes weigh 256 and 1 |
| Bytes.FromBe16 | example/LoRaWAN/lr1121/radio/Src/lr1121_bootloader.c:158-163 | assembling two bytes high-first gives the value whose big-endian encoding is exactly those bytes |
| Bytes.Be16RoundTrip | example/LoRaWAN/lr1121/radio/Src/lr1121_bootloader.c:158-163 | decoding an encoded 16-bit value gives it back |
| Bytes.Be32 | example/LoRaWAN/lr1121/radio/Src/lr1121_bootloader.c:181-198 | a 32-bit offset or word is sent as four bytes: the first carries bits 31-24 and the last bits 7-0 |
| Bytes.Be32RoundTrip | example/LoRaWAN/lr1121/radio/Src/lr1121_bootloader.c:181-198 | the four big-endian bytes of a 32-bit value determine it |
| Bytes.FromBe32RoundTrip | example/LoRaWAN/lr1121/radio/Src/lr1121_bootloader.c:181-198 | every four bytes are the encoding of exactly one 32-bit value, so the encoding is onto |
| Bytes.HexDigit | example/LoRaWAN/User/apps_utilities.c:89-97 | the digit printed for a nibble reads back as that nibble |
| Bytes.Hex2 | example/LoRaWAN/User/apps_utilities.c:89-97 | `%02X` prints two characters: the high nibble, then the low nibble |
| Bytes.Hex2RoundTrip | example/LoRaWAN/User/apps_utilities.c:89-97 | parsing the two hex characters of a byte gives the byte back |
| Bytes.Hex2Injective | example/LoRaWAN/User/apps_utilities.c:89-97 | two different bytes never print the same two characters |
| Irq.FiresNeedsTrigger | example/Work_with_MOS/lr11xx/common/apps_common.c:592-711 | a callback fires only if its own interrupt bit is in the filtered word |
| Irq.FilteredHas | example/Work_with_MOS/lr11xx/common/apps_common.c:586 | a bit is in the filtered word iff the chip raised it and the mask subscribes it |
| Irq.TestMatchesTable | example/Work_with_MOS/lr11xx/common/apps_common.c:592-711 | each test emits at most one callback, and it emits exactly the callbacks of its own row whose condition holds |
| Irq.TestsMatchTable | example/Work_with_MOS/lr11xx/common/apps_common.c:592-711 | the first n tests emit exactly the firing callbacks of rows below n, in row order |
| Irq.Dispatch | example/Work_with_MOS/lr11xx/common/apps_common.c:586-711 | a callback is invoked iff its firing condition holds for the status word ANDed with the mask |
| Irq.DispatchInOrder | example/Work_with_MOS/lr11xx/common/apps_common.c:592-711 | callbacks come out in the fixed order tx-done, preamble, header error, sync word, RX group, CAD group, timeout, timestamp, Wi-Fi, GNSS; none appears twice |
| Irq.DispatchNeedsSubscription | example/Work_with_MOS/lr11xx/common/apps_common.c:586-711 | every invoked callback's bit was both raised by the chip and subscribed |
| Irq.RxGroupExactlyOne | example/Work_with_MOS/lr11xx/common/apps_common.c:628-653 | with RX-done filtered in, exactly one of CRC error, FSK length error and RX done fires, with CRC taking precedence over FSK length |
| Irq.SecondaryBitsAloneAreSilent | example/Work_with_MOS/lr11xx/common/apps_common.c:628-675 | CRC or FSK-length errors without RX-done fire nothing, and CAD-detected without CAD-done fires nothing |
| Irq.CadGroupExactlyOne | example/Work_with_MOS/lr11xx/common/apps_common.c:656-675 | with CAD-done filtered in, exactly one of detected and undetected fires, chosen by the CAD-detected bit |
| Irq.UnsubscribedErrorsDoNotSuppressRxDone | example/Work_with_MOS/lr11xx/common/apps_common.c:586-653 | an unsubscribed CRC or length error bit cannot turn a subscribed RX-done into an error callback |
| Irq.ChipRaise | example/Work_with_MOS/lr11xx/common/apps_common.c:580 | bits the chip raises are added to the pending status word that the next pass reads and clears; already pending bits stay, and the latch is left alone |
| Irq.OnDioIrq | example/Work_with_MOS/lr11xx/common/apps_common.c:892-895 | the rising-edge interrupt only sets the latch |
| Irq.Process | example/Work_with_MOS/lr11xx/common/apps_common.c:569-716 | with the latch clear a pass does nothing; with it set, the latch is cleared first, then the status is read and cleared, then the dispatched callbacks run |
| Irq.ProcessCallsExactlyTable | example/Work_with_MOS/lr11xx/common/apps_common.c:569-716 | a pass invokes a callback iff the dispatch table selects it for the status word read in that pass |
| Irq.Invocations | example/Work_with_MOS/lr11xx/common/apps_common.c:592-711 | the handler calls of a pass are exactly the selected callbacks, one call each, in the order selected |
| Irq.InvocationsMembership | example/Work_with_MOS/lr11xx/common/apps_common.c:592-711 | a callback is invoked iff it is in the dispatched list |
| Irq.LaterEventsAreHandledNextPass | example/Work_with_MOS/lr11xx/common/apps_common.c:572-580 | an interrupt that arrives after a pass sets the latch again, and the next pass sees exactly the bits raised since |
| Irq.Receive | example/Work_with_MOS/lr11xx/common/apps_common.c:529-545 | the reported size is always returned; an oversize payload leaves the buffer untouched; otherwise the payload is copied to the front and the rest is kept |
| Irq.RefusedPayloadLeavesNoTrace | example/Work_with_MOS/lr11xx/common/apps_common.c:529-545 | a payload too large for the buffer changes nothing a later reception can see, and receiving the same payload twice leaves the same buffer as receiving it once |
| Irq.SelectDbpskRamp | example/Work_with_MOS/lr11xx/common/apps_common.c:510-524 | the 100 bps and 600 bps ramps are chosen exactly at those bit rates, the default ramp otherwise |
| Per.InitialBuffer | example/LoRa/lr11xx/apps/lora/main_per.c:104-114 | the transmit buffer has the payload length and counter byte 0 |
| Per.Template | example/LoRa/lr11xx/apps/lora/main_per.c:104-112 | the expected tail is the bytes 1, 2, …, PAYLOAD_LENGTH-1 |
| Per.TransmitterOnTxDone | example/LoRa/lr11xx/apps/lora/main_per.c:148-160 | TX done increments the counter byte modulo 256, keeps the rest of the payload, and transmits again |
| Per.TransmittedPayloads | example/LoRa/lr11xx/apps/lora/main_per.c:104-160 | the n-th transmitted payload carries n mod 256 followed by the template |
| Per.ReceiverInit | example/LoRa/lr11xx/apps/lora/main_per.c:51-64 | the receiver starts unsynchronised, with a buffer of the payload length |
| Per.Gap | example/LoRa/lr11xx/apps/lora/main_per.c:177 | the counter gap is the difference of the two counter bytes modulo 256 |
| Per.AcceptPacket | example/LoRa/lr11xx/apps/lora/main_per.c:173-192 | a packet whose tail differs from the template changes nothing. A matching one synchronises the rolling counter on its counter byte; the first only sets the flag, a later one adds 1 to nb_ok and the counter gap to per_index (both 16-bit), warning of gap-1 missed packets exactly when the gap exceeds 1. The buffer and the error counters are kept |
| Per.GapAcrossWrap | example/LoRa/lr11xx/apps/lora/main_per.c:177-183 | from counter 250 to counter 3 the gap is 9 |
| Per.OnRxDone | example/LoRa/lr11xx/apps/lora/main_per.c:165-198 | the buffer is what the receive guard leaves. If its tail differs from the template, no counter changes. The first match only synchronises. Later matches add 1 to nb_ok and the gap to per_index, and warn of gap-1 missed packets exactly when the gap exceeds 1. Receive is always re-armed |
| Per.StaleBufferCountedAsValid | example/LoRa/lr11xx/apps/lora/main_per.c:171-173 | as written, an oversize or one-byte packet is counted as a valid packet because of the previous packet left in the buffer |
| Per.OnRxDoneChecked | example/LoRa/lr11xx/apps/lora/main_per.c:165-198 | with the size checked, only a packet of the configured length that matches the template changes the statistics; for such packets it agrees with the code as written |
| Per.OnReceptionFailure | example/LoRa/lr11xx/apps/lora/main_per.c:203-240 | timeout, CRC error and length error each count only their own counter, and only once synchronised; nothing else changes; receive is re-armed |
| Per.FailureStep | example/LoRa/lr11xx/apps/lora/main_per.c:203-240 | one failure callback keeps the receiver's invariant and counts itself: only its own 16-bit counter grows by one, and only once synchronised |
| Per.CountedThenCounted | example/LoRa/lr11xx/apps/lora/main_per.c:203-240 | the failures counted over a first callback and then over the rest are the failures counted over the whole sequence, each counter wrapping at 65536 |
| Per.FailureRunCounts | example/LoRa/lr11xx/apps/lora/main_per.c:203-240 | over any sequence of failure callbacks with no RX or TX done, each failure counter grows by the number of its own callbacks modulo 65536, the good-packet count, PER index and rolling counter stay put, and before synchronisation nothing changes |
| Per.FirstPacketOnlySynchronises | example/LoRa/lr11xx/apps/lora/main_per.c:186-190 | the first matching packet sets the flag and the rolling counter, whatever counter it carries, and leaves nb_ok and per_index alone |
| Per.SynchronisedAccept | example/LoRa/lr11xx/apps/lora/main_per.c:175-184 | once synchronised, a matching packet advances the statistics by the counter gap |
| Per.ReceivingTransmitterStream | example/LoRa/lr11xx/apps/lora/main_per.c:148-198 | a receiver synchronised on packet m that next hears the transmitter's packet m+k (0 < k < 256) adds k to per_index and reports k-1 missed packets |
| Per.ReceiverHandle | example/LoRa/lr11xx/apps/lora/main_per.c:148-240 | each RX outcome callback re-arms receive with the same timeout, RX done going through the size-checked handler; TX done, compiled into the receiver too, bumps the counter byte modulo 256, keeps the rest of the buffer and the statistics, and starts a transmission; other callbacks change nothing and issue no command |
| Per.ReceiverRun | example/LoRa/lr11xx/apps/lora/main_per.c:148-240 | a sequence of callbacks re-arms receive iff it contains an RX outcome, starts a transmission iff it contains TX done, and issues no other command |
| Per.ReceiverPassRearms | example/LoRa/lr11xx/apps/lora/main_per.c:23-26 | with the PER mask, a dispatcher pass re-arms receive iff the filtered word has RX done or timeout, always with the same timeout, and starts a transmission iff it has TX done |
| Per.RxOutcomeDispatched | example/Work_with_MOS/lr11xx/common/apps_common.c:628-678 | the dispatcher emits an RX outcome callback iff RX done or timeout is in the filtered word |
| Bridge.UartInit | example/Work_with_MOS/lr11xx/apps/lora/main.c:28-30 | the UART buffer starts empty and within bounds |
| Bridge.OnUartByte | example/Work_with_MOS/lr11xx/apps/lora/main.c:83-101 | below capacity, a byte is stored at the index, the index grows by one, and the ready flag is set by a line end or a full buffer; at capacity the byte is dropped and the flag is set; the index never exceeds capacity |
| Bridge.Feed | example/Work_with_MOS/lr11xx/apps/lora/main.c:83-101 | however many bytes arrive, the index never exceeds the buffer's capacity |
| Bridge.FeedStoresMessage | example/Work_with_MOS/lr11xx/apps/lora/main.c:83-101 | feeding a message into an empty buffer stores it at the front, keeps the rest, and raises the flag iff the message holds a line end or fills the buffer |
| Bridge.StrLen | example/Work_with_MOS/lr11xx/apps/lora/main.c:105 | `strlen` finds the first zero byte, or none exists |
| Bridge.Frame | example/Work_with_MOS/lr11xx/apps/lora/main.c:105-124 | the radio payload is the first `length` string bytes followed by zeros up to the payload length |
| Bridge.FrameRecoversMessage | example/Work_with_MOS/lr11xx/apps/lora/main.c:105-124 | a message without zero bytes and shorter than the payload is recovered by `strlen` from its frame |
| Bridge.SendStringAsWritten | example/Work_with_MOS/lr11xx/apps/lora/main.c:103-130 | as written, the result is `None` exactly when the buffer holds no zero byte, so that `strlen` reads past the array (undefined behaviour; the code still transmits); otherwise the frame is the bytes before the first zero, zero-padded |
| Bridge.SendMessage | example/Work_with_MOS/lr11xx/apps/lora/main.c:103-130 | as evidently intended, the payload is the received bytes followed by zeros |
| Bridge.Consume | example/Work_with_MOS/lr11xx/apps/lora/main.c:71-79 | a ready message is sent, and the index and the flag are reset; without one nothing happens |
| Bridge.ConsumeAsWritten | example/Work_with_MOS/lr11xx/apps/lora/main.c:71-79 | the main-loop step as written resets the index and flag but sends what `strlen` finds in the whole buffer |
| Bridge.LineIsTransmitted | example/Work_with_MOS/lr11xx/apps/lora/main.c:71-130 | a line ending in CR/LF or filling the buffer is transmitted exactly, padded with zeros |
| Bridge.LineStaysInBuffer | example/Work_with_MOS/lr11xx/apps/lora/main.c:71-79 | consuming resets the index but leaves the old bytes in the buffer |
| Bridge.StaleTailIsTransmitted | example/Work_with_MOS/lr11xx/apps/lora/main.c:75-78 | as written, "hi\n" after "hello\n" is transmitted as "hi\nlo\n" |
| Bridge.FullLineOverrunsBuffer | example/Work_with_MOS/lr11xx/apps/lora/main.c:105 | as written, a line that fills the buffer has no terminator, so `strlen` reads past the buffer |
| Bridge.PrintedAsWritten | example/Work_with_MOS/lr11xx/apps/lora/main.c:142-156 | as written, the print loop stays inside the buffer iff the packet fits, and then prints the packet |
| Bridge.OversizePacketReadsPastBuffer | example/Work_with_MOS/lr11xx/apps/lora/main.c:150-156 | a packet one byte longer than the buffer makes the print loop read past it |
| Bridge.Printed | example/Work_with_MOS/lr11xx/apps/lora/main.c:142-156 | the intended print shows the packet when it fits and nothing otherwise, never more than the buffer |
| Bridge.BridgeHandle | example/Work_with_MOS/lr11xx/apps/lora/main.c:132-179 | TX done and RX timeout re-arm receive with the same timeout; RX done, CRC and length errors do not |
| Bridge.BridgeRun | example/Work_with_MOS/lr11xx/apps/lora/main.c:132-179 | a sequence of callbacks re-arms receive iff it contains TX done or RX timeout |
| Bridge.BridgePassListens | example/Work_with_MOS/lr11xx/apps/lora/main.c:15-18 | with the bridge mask, a pass re-arms receive iff TX done or timeout is in the filtered word |
| Dht.ReadBit | example/LoRaWAN/BSP/dht11/dht11.c:41-68 | one pass of the bit loop always advances, and by at most two bounded waits and a sample; it times out iff the wait for the low phase to end, or the wait for the high phase that follows the sample to end, reaches 100 polls |
| Dht.ReadBitsBounded | example/LoRaWAN/BSP/dht11/dht11.c:41-69 | the remaining passes of the bit loop advance, each by at most one bit's worth of polls |
| Dht.ReadByteBounded | example/LoRaWAN/BSP/dht11/dht11.c:35-72 | a byte read always ends, after at most eight bounded bit passes |
| Dht.WaitFrom | example/LoRaWAN/BSP/dht11/dht11.c:45-50 | a wait loop never polls more than 100 times and advances one sample per poll |
| Dht.WaitFromReads | example/LoRaWAN/BSP/dht11/dht11.c:45-50 | the wait passes over samples at the waited level and, unless it times out, stops on the first sample at the other level |
| Dht.WaitTimesOut | example/LoRaWAN/BSP/dht11/dht11.c:45-50 | a wait reaches the 100-poll limit iff the line stays at the level for 100 samples |
| Dht.StuckLowReadsZero | example/LoRaWAN/BSP/dht11/dht11.c:45-50 | a line held low for 100 samples makes the byte read return 0 |
| Dht.SilentLineReadsZero | example/LoRaWAN/BSP/dht11/dht11.c:41-68 | a line that stays high from where the byte read starts, as the pulled-up bus does when no sensor answers, makes the read return 0: the first bit's high phase never ends |
| Dht.ReadBits | example/LoRaWAN/BSP/dht11/dht11.c:41-72 | the remaining passes of the bit loop: whatever has been shifted in so far, if any of them times out the byte read returns 0 and not the bits read before it |
| Dht.ReadByte | example/LoRaWAN/BSP/dht11/dht11.c:35-72 | `DHT_Read_Byte`: a byte read in which any of the eight bit passes times out, in either of its waits, returns 0 |
| Dht.CombineToBits | example/LoRaWAN/BSP/dht11/dht11.c:54-59 | shifting in the bits of v most-significant first gives v back |
| Dht.ReadOneBit | example/LoRaWAN/BSP/dht11/dht11.c:41-68 | the bit read from a DHT11 bit waveform is the sample after the low phase: high for 1, low for 0 |
| Dht.ReadByteDecodesWave | example/LoRaWAN/BSP/dht11/dht11.c:35-72 | whatever the length of each bit's low and high phase below the 100-poll limit, the byte read from the waveform of a byte is that byte, MSB first, and the read ends right after the waveform |
| Dht.ReadBytes | example/LoRaWAN/BSP/dht11/dht11.c:132-135 | n byte reads give n bytes |
| Dht.ReadBytesCombine | example/LoRaWAN/BSP/dht11/dht11.c:132-135 | a first byte and the bytes read from where it ended make up the whole read |
| Dht.ReadBytesDecodesWaves | example/LoRaWAN/BSP/dht11/dht11.c:132-135 | reading n bytes from the waveforms of n bytes, each bit with its own phase lengths, gives those bytes in order and ends right after the last waveform |
| Dht.Start | example/LoRaWAN/BSP/dht11/dht11.c:74-106 | the start sequence always ends, after at most three bounded waits |
| Dht.StartAfterResponse | example/LoRaWAN/BSP/dht11/dht11.c:86-106 | a sensor answer whose three phases each last below 100 polls is passed exactly, and the start sequence stops on the low that begins the data |
| Dht.FrameBytes | example/LoRaWAN/BSP/dht11/dht11.c:132-135 | the data are always five bytes |
| Dht.DhtRead | example/LoRaWAN/BSP/dht11/dht11.c:108-148 | with the line high after the start, the data are all zero and the flag is unchanged; otherwise five bytes are read and the flag is 1 iff the unwrapped sum of the first four equals the fifth, and 0 otherwise |
| Dht.LargeSumsNeverPass | example/LoRaWAN/BSP/dht11/dht11.c:138-147 | a frame whose first four bytes sum above 255 never passes the checksum |
| Dht.ReadingDecodesFrame | example/LoRaWAN/BSP/dht11/dht11.c:108-148 | a sensor that answers and sends a frame makes the read return exactly that frame, flagged 1 iff its checksum matches, whatever the lengths of the answer's three phases and of each bit's phases below the 100-poll limit |
| App.DhtReadFlag | example/LoRaWAN/BSP/dht11/dht11.c:108-148 | one read sets the flag to 1 iff the line answers and the checksum matches, and then returns the frame |
| App.FirstSuccessIsFirst | example/LoRaWAN/User/main.c:509-523 | the retry loop stops at the first successful attempt, and finds none only if all attempts fail |
| App.ReadDht11Data | example/LoRaWAN/User/main.c:507-538 | with the flag already 1 nothing is read. Otherwise up to 3 reads are tried: on success the data are the first successful frame, on failure the last read's data. A success resets the flag to 0 |
| App.Retries | example/LoRaWAN/User/main.c:509-523 | the loop makes at most 3 attempts and stops at the first success, whose frame it keeps |
| App.Attempt | example/LoRaWAN/User/main.c:511-521 | one attempt succeeds iff the sensor answers with a matching checksum |
| App.SendFrame | example/LoRaWAN/User/main.c:459-505 | a negative duty cycle returns OK without requesting. Otherwise one request is made on the given port and type. It carries the whole frame, or an empty frame exactly when the frame is empty or larger than the maximum payload. The request's code is returned |
| App.UplinkRequestDecodes | example/LoRaWAN/User/main.c:443-505 | the request made for an uplink frame never exceeds the maximum payload; when the duty cycle allows it and six bytes fit, the payload decodes to the counter (big-endian) and the first four sensor bytes; when they do not fit, it is empty. With SendUplinksCounterOnPort's contract this is what the network receives |
| App.UplinkFrame | example/LoRaWAN/User/main.c:447-453 | the uplink is six bytes: the counter big-endian, then the first four sensor bytes |
| App.UplinkFrameRoundTrip | example/LoRaWAN/User/main.c:447-453 | counter and sensor bytes can be read back from the uplink |
| App.SendUplinksCounterOnPort | example/LoRaWAN/User/main.c:443-457 | the sensor is read, leaving the sensor data and flag exactly as the retry loop does; the frame is sent confirmed on the port, then the counter is incremented and the sending flag set, whatever the send returned |
| App.OnTxDone | example/LoRaWAN/User/main.c:333-370 | the subtype is the high byte of the event data. NOT_SENT decrements the uplink counter and CONFIRMED increments the confirmed counter. The sending flag is cleared in every case |
| App.SendThenTxDone | example/LoRaWAN/User/main.c:333-370 | an uplink answered by NOT_SENT leaves both counters as they were; one answered by CONFIRMED advances both by one |
| App.HandleEvent | example/LoRaWAN/User/main.c:311-370 | ALARM and JOINED read the sensor as the retry loop does and send the pre-increment counter and the sensor bytes, confirmed, on port 101; they increment the counter, set the pending flag and leave the confirmed counter and the button state alone. TX_DONE does the TX-done bookkeeping; other events change nothing |
| App.ButtonStep | example/LoRaWAN/User/main.c:220-245 | a pending press is cleared and sends on port 102 iff the modem reports JOINED and no uplink is pending. The uplink is the pre-increment counter and the sensor bytes read as the retry loop does, sent confirmed; the counter is incremented, the pending flag set, and the confirmed counter and last press time kept. Without a send only the press is cleared |
| App.PendingUplinkBlocksButton | example/LoRaWAN/User/main.c:228-238 | while an uplink is pending, a button press sends nothing |
| App.PeriodicUplinkIgnoresPending | example/LoRaWAN/User/main.c:311-331 | ALARM and JOINED request an uplink even while one is pending, and leave it pending with the counter incremented |
| App.ButtonOnlyWhenIdleAppend | example/LoRaWAN/User/main.c:220-245 | adding a call to a trace keeps every button uplink right after a TX done (or first, with nothing pending at the start), provided a new button uplink itself comes right after one |
| App.RunSteps | example/LoRaWAN/User/main.c:220-370 | over any sequence of button presses and modem events, the pending flag is set exactly when the last uplink request came after the last TX done, and every button uplink is requested with nothing pending: right after a TX done, or as the first request with nothing pending at the start. Periodic uplinks from ALARM and JOINED may follow one another without a TX done |
| App.ToInt32 | example/LoRaWAN/User/main.c:436 | the signed cast maps a 32-bit word to the signed value with the same bits |
| App.OnButtonAsWritten | example/LoRaWAN/User/main.c:429-441 | as written, a press is accepted iff the wrapped difference is above 500 and below 2^31 |
| App.LongIdlePressIgnored | example/LoRaWAN/User/main.c:436 | as written, a press 2^31 ms after the last accepted one is ignored |
| App.OnButton | example/LoRaWAN/User/main.c:429-441 | the intended debounce accepts a press iff the unsigned wrapped difference is above 500 |
| App.DebounceMeasuresElapsedTime | example/LoRaWAN/User/main.c:436-440 | for every elapsed time below the clock period, a press is accepted iff more than 500 ms have passed, even across clock wrap-around |
| App.DebounceAcrossWrap | example/LoRaWAN/User/main.c:436-440 | a press 256 ms past the clock wrap, 512 ms after the last one, is accepted by both versions |
| Boot.WordsBe | example/LoRaWAN/lr1121/radio/Src/lr1121_bootloader.c:190-198 | the data section holds four bytes per word |
| Boot.WordsBeAt | example/LoRaWAN/lr1121/radio/Src/lr1121_bootloader.c:190-198 | word i is serialised big-endian at bytes 4i to 4i+3 |
| Boot.WordsRoundTrip | example/LoRaWAN/lr1121/radio/Src/lr1121_bootloader.c:190-198 | the data section determines the words |
| Boot.Encode | example/LoRaWAN/lr1121/radio/Src/lr1121_bootloader.c:137-276 | every command starts with its opcode; a flash write sends 4 bytes per word, at most 256 |
| Boot.Decode | example/LoRaWAN/lr1121/radio/Src/lr1121_bootloader.c:137-276 | whatever decodes is a well-formed command |
| Boot.EncodeRoundTrip | example/LoRaWAN/lr1121/radio/Src/lr1121_bootloader.c:137-276 | each command buffer decodes back to its command, so opcode, offset, words and reboot mode are all carried |
| Boot.RebootModeByte | example/LoRaWAN/lr1121/radio/Src/lr1121_bootloader.c:234-243 | the reboot parameter byte is 0x03 to stay in the bootloader and 0x00 to run the flash |
| Boot.GetVersionReply | example/LoRaWAN/lr1121/radio/Src/lr1121_bootloader.c:147-166 | on OK the version is hw = byte 0, type = byte 1, fw = bytes 2-3 big-endian; otherwise the caller's version is unchanged |
| Boot.VersionRoundTrip | example/LoRaWAN/lr1121/radio/Src/lr1121_bootloader.c:158-163 | each version is recovered from its reply |
| Boot.MinBlock | example/LoRaWAN/lr1121/radio/Src/lr1121_bootloader.c:283-293 | the block is the smaller of the operand and 64 |
| Boot.Chunks | example/LoRaWAN/lr1121/radio/Src/lr1121_bootloader.c:205-232 | every chunk is a well-formed flash write |
| Boot.ChunksLength | example/LoRaWAN/lr1121/radio/Src/lr1121_bootloader.c:205-232 | an image of n words gives ceil(n/64) chunks |
| Boot.ChunksCover | example/LoRaWAN/lr1121/radio/Src/lr1121_bootloader.c:208-229 | chunk k is written at offset + 256k (mod 2^32) and holds words 64k up to min(n, 64k+64) |
| Boot.ChunksReassemble | example/LoRaWAN/lr1121/radio/Src/lr1121_bootloader.c:208-229 | concatenating the chunks' words gives back exactly the image |
| Boot.FullWriteIsValidUpdate | example/LoRaWAN/lr1121/radio/Src/lr1121_bootloader.h:120-144 | erasing and then writing the chunks from offset 0 meets the documented update rules: erase first, in order from 0 with 256-byte strides, 64 words per chunk except a shorter last one |
| Boot.FirstFailure | example/LoRaWAN/lr1121/radio/Src/lr1121_bootloader.c:212-221 | a reported failure is a chunk at or after the start whose status is not OK |
| Boot.FirstFailureIsFirst | example/LoRaWAN/lr1121/radio/Src/lr1121_bootloader.c:212-221 | the first failure is preceded only by OK statuses, and there is none only if all are OK |
| Boot.WriteFlashEncryptedFull | example/LoRaWAN/lr1121/radio/Src/lr1121_bootloader.c:205-232 | the chunks of the first `length_in_word` words are sent in order up to and including the first failing one, whose status is returned; if none fails, all are sent and OK is returned; length 0 sends nothing |
| Utilities.PrintHexBuffer | example/LoRaWAN/User/apps_utilities.c:85-105 | the loop prints the hex dump of the buffer |
| Utilities.HexDump | example/LoRaWAN/User/apps_utilities.c:85-105 | the hex dump shows every byte in order: parsing it gives back the buffer |
| Utilities.HexDumpBlankLines | example/LoRaWAN/User/apps_utilities.c:89-104 | the dump has one blank-line separator before each new group of 16 bytes and one at the end, so a multiple of 16 gets no extra separator |
| Utilities.DashTail | example/LoRaWAN/User/apps_utilities.c:120-145 | each further byte adds a dash and two hex digits |
| Utilities.Dashed | example/LoRaWAN/User/apps_utilities.c:120-145 | n bytes print as n two-digit groups joined by n-1 dashes |
| Utilities.DashedRoundTrip | example/LoRaWAN/User/apps_utilities.c:120-145 | the dash-separated text determines the bytes |
| Utilities.CredentialLines | example/LoRaWAN/User/apps_utilities.c:126-145 | the three labelled lines always take 103 characters, whatever the bytes |
| Utilities.Credentials | example/LoRaWAN/User/apps_utilities.c:117-146 | DevEUI, JoinEUI, PIN and the internal/custom choice can all be read back from the printout |
| Utilities.HeaderIdentifiesSource | example/LoRaWAN/User/apps_utilities.c:120-124 | the header alone tells internal from custom credentials |
| Utilities.StatusWordsRoundTrip | example/LoRaWAN/User/apps_utilities.c:152-167 | CRASH, JOINED, SUSPEND and JOINING are printed in that order, each exactly when its bit is set |
| Utilities.StatusLine | example/LoRaWAN/User/apps_utilities.c:148-170 | the status line determines the four reported status bits |
| Utilities.RegionLine | example/LoRaWAN/User/apps_utilities.c:194-258 | each region is recovered from its line; the error line is printed exactly for a region without a name |
| Utilities.RegionLineInjective | example/LoRaWAN/User/apps_utilities.c:194-258 | no two regions print the same line |
| Utilities.GetAndPrintRegionAsWritten | example/LoRaWAN/User/apps_utilities.c:172-192 | as written, with a valid pointer the region is stored and printed, and a failure reports the code; a success with a NULL pointer dereferences it |
| Utilities.NullOutputDereferenced | example/LoRaWAN/User/apps_utilities.c:185 | a successful query with a NULL output pointer dereferences it |
| Utilities.GetAndPrintRegion | example/LoRaWAN/User/apps_utilities.c:172-192 | the corrected query never dereferences NULL and prints the modem's region iff the modem answered. It leaves the caller's variable alone on failure, and it matches the code as written for a valid pointer |

## Left out

- Hardware access is not modelled: GPIO and SPI, shield and pin setup, LEDs and the LNA, calibration, and radio parameter programming. These are vendor HAL calls with no logic of their own.
- The board file, the delay helpers and the DHT11 header are not modelled. They hold pin context, timers and busy-waits.
- `DHT11_Start` is not modelled as timing. Its pin direction changes and microsecond delays are replaced by the point `Dht.Start` on an abstract line of samples. Each poll of a wait loop reads one sample. Samples past the end of the line read high, because the line is pulled up.
- Interrupt and main-loop interleaving is not modelled. Each interrupt service routine and each main-loop step is one atomic transition.
- Trace printing outside the formatters is not modelled, because it has no effect on state.
- The DOWN_DATA, RESET and other modem events are modelled only as "no change". Their handlers print, join or set timers through the modem.
- LoRaWAN MAC, join and session behaviour is not modelled. The driver calls are oracles whose replies are parameters of the model.
- The interrupt bit positions, the LoRaWAN status bits, the TX-done subtypes and the region list are defined in the vendor driver headers (lr11xx_system_types.h, the modem API headers), which this model does not cover. The values used are those headers' values. The properties only depend on each interrupt and status flag being a single distinct bit.
- PAYLOAD_LENGTH is defined in a header that is not part of this model. It is the parameter `pl`, with 1 ≤ pl ≤ 255 because it is used as a `uint8_t`.
- The commented-out code is not modelled: the bootloader get_status, and the NB_FRAME end of the PER test.
- The time-on-air computation is not modelled, because it is a vendor library.
- The region-to-frequency switch of the board file is not modelled, because it is buried in I/O.
- The `tx_max_payload` value after a failed query is not modelled, because C leaves it uninitialised. It is a free parameter of the modem replies.
- The reads of the chip's PIN, chip EUI and join EUI in the bootloader are modelled only as their command buffers. Their replies are copied without interpretation.
- Undefined behaviour of the code as written is modelled as a marker, not as what the chip would do: `None` for `strlen` reading past the UART buffer (Bridge.SendStringAsWritten) and for the print loop reading past the receive buffer (Bridge.PrintedAsWritten), and `NullDereference` for the region read through a NULL pointer (Utilities.GetAndPrintRegionAsWritten). What would be transmitted or printed then is not modelled.
- Per.ReceiverHandle: handles RX done with the size-checked Per.OnRxDoneChecked, not with `on_rx_done` as written (Per.OnRxDone). So the receiver's runs do not count the stale buffer that the code as written counts for an oversize or short packet; that behaviour is modelled by Per.OnRxDone and exhibited by Per.StaleBufferCountedAsValid.
- Irq.ProcessCallsExactlyTable: states the correspondence through `Dispatch`, whose own contract relates it to the firing conditions.
- Dht.ReadBit: states how far a bit pass advances and when it times out, not the bit it reads. The bit is stated by Dht.ReadOneBit.
- Dht.ReadBits: states the timeout case only, not the byte assembled from bits that were all read. That byte is stated by Dht.ReadByteDecodesWave, through Dht.ReadOneBit and Dht.CombineToBits.
- Dht.ReadByte: states the timeout case only, for the same reason. The decoded byte is stated by Dht.ReadByteDecodesWave and the reach by Dht.ReadByteBounded.
- Dht.ReadBytes: states only the length. The decoded bytes are stated by Dht.ReadBytesDecodesWaves.
- Dht.Start: states only how far the start sequence reaches. Where it stops on an answer is stated by Dht.StartAfterResponse.
- Dht.FrameBytes: states only the length. The bytes are stated by Dht.ReadingDecodesFrame.
- Bridge.Feed: states only the bound on the index. What is stored is stated by Bridge.FeedStoresMessage.
- Boot.FirstFailure: states only that a reported chunk failed. That it is the first is stated by Boot.FirstFailureIsFirst.

## Findings

| source | as written | input that shows it | evidently intended | confidence | as-written member | corrected member |
|---|---|---|---|---|---|---|
| example/LoRa/lr11xx/apps/lora/main_per.c:171-173 | `on_rx_done` ignores the size reported by the receive helper and compares whatever the buffer holds with the template | After packet 5 is counted, an oversize packet leaves packet 5 in the buffer and is counted again. A one-byte packet `[7]` overwrites only byte 0 and is counted as packet 7 | count only packets of the configured length whose tail matches | not executed; medium | Per.StaleBufferCountedAsValid | Per.OnRxDoneChecked |
| example/Work_with_MOS/lr11xx/apps/lora/main.c:75-78, 105 | `strlen` runs on the UART buffer, which is never terminated and not cleared between lines | After "hello\n", the line "hi\n" is sent as "hi\nlo\n" | send exactly the bytes received since the last send | not executed; high | Bridge.StaleTailIsTransmitted | Bridge.LineIsTransmitted |
| example/Work_with_MOS/lr11xx/apps/lora/main.c:105 | a line that fills the buffer leaves no zero byte for `strlen` | eight bytes 'a' into an 8-byte buffer | stop at the received length | not executed; high | Bridge.FullLineOverrunsBuffer | Bridge.Consume |
| example/Work_with_MOS/lr11xx/apps/lora/main.c:150-156 | the print loop runs to the reported size even when the receive helper refused an oversize packet | a 5-byte packet with a 4-byte buffer | print nothing when nothing was copied | not executed; medium | Bridge.OversizePacketReadsPastBuffer | Bridge.Printed |
| example/LoRaWAN/User/apps_utilities.c:185 | the region is read through the output pointer even when it is NULL | a successful query with a NULL pointer | print the region the modem returned | not executed; high | Utilities.NullOutputDereferenced | Utilities.GetAndPrintRegion |
| example/LoRaWAN/User/main.c:436 | the elapsed time is compared as a signed 32-bit value | a press 2^31 ms (about 24.9 days) after the last accepted one is ignored | accept any press more than 500 ms after the last, whatever the idle time | not executed; low | App.LongIdlePressIgnored | App.DebounceMeasuresElapsedTime |

=== FILE: app.dfy ===
/**
  The LoRaWAN sensor application: periodic and button-triggered uplinks that
  carry a 16-bit uplink counter and the DHT11 reading, the `send_frame`
  decision, the modem event handler's bookkeeping, the button debounce and the
  sensor retry loop. Every modem call is an oracle: its replies are parameters.
*/
module App {
  import opened Bytes
  import Dht

  /** Modem response codes; only the distinction between OK and the others matters here. */
  datatype ResponseCode = Ok | Failed(code: nat)

  /** LoRaWAN status bits of the modem (`lr1121_modem_lorawan_status_t`). */
  const STATUS_CRASH: bv8 := 0x02
  const STATUS_JOINED: bv8 := 0x08
  const STATUS_SUSPEND: bv8 := 0x10
  const STATUS_JOINING: bv8 := 0x40

  /** TX-done sub-types, carried in the high byte of the event data. */
  const TX_NOT_SENT: nat := 0
  const TX_UNCONFIRMED: nat := 1
  const TX_CONFIRMED: nat := 2

  const PORT_PERIODIC: byte := 101
  const PORT_BUTTON: byte := 102

  /** Minimum spacing of two accepted button presses, in milliseconds. */
  const DEBOUNCE_MS: int := 500

  const MAX_RETRIES: nat := 3

  // ---------------------------------------------------------------------------
  // Sensor retry loop.

  /** A sensor line on which an attempt succeeds: the line check passes and the checksum matches. */
  predicate Succeeds(line: seq<bool>) {
    !Dht.Sample(line, Dht.Start(line)) && Dht.ChecksumMatches(Dht.FrameBytes(line))
  }

  /** With `flag` not already 1, one `DHT_Read` sets it to 1 exactly on a line that succeeds. */
  lemma DhtReadFlag(line: seq<bool>, flag: int)
    requires flag != 1
    ensures Dht.DhtRead(line, flag).flag == 1 <==> Succeeds(line)
    ensures Succeeds(line) ==> Dht.DhtRead(line, flag).data == Dht.FrameBytes(line)
    ensures !Succeeds(line) ==> Dht.DhtRead(line, flag).flag == flag || Dht.DhtRead(line, flag).flag == 0
  {
  }

  /** The line the `k`-th attempt sees; a sensor that no longer answers leaves the line idle. */
  function LineFor(lines: seq<seq<bool>>, k: nat): seq<bool> {
    if k < |lines| then lines[k] else []
  }

  /** Whether each of the allowed attempts would succeed on its line. */
  function Outcomes(lines: seq<seq<bool>>): (o: seq<bool>)
    ensures |o| == MAX_RETRIES
  {
    [Succeeds(LineFor(lines, 0)), Succeeds(LineFor(lines, 1)), Succeeds(LineFor(lines, 2))]
  }

  /** The first attempt, from the `from`-th on, that succeeds. */
  function FirstSuccess(outcomes: seq<bool>, from: nat): (r: Option<nat>)
    requires from <= |outcomes|
    ensures r.Some? ==> from <= r.value < |outcomes|
    decreases |outcomes| - from
  {
    if from == |outcomes| then None
    else if outcomes[from] then Some(from)
    else FirstSuccess(outcomes, from + 1)
  }

  /** `FirstSuccess` finds a success with only failures before it, or reports that all fail. */
  lemma {:induction false} FirstSuccessIsFirst(outcomes: seq<bool>, from: nat)
    requires from <= |outcomes|
    ensures var r := FirstSuccess(outcomes, from);
            && (r.Some? ==> outcomes[r.value] && forall k :: from <= k < r.value ==> !outcomes[k])
            && (r.None? <==> forall k :: from <= k < |outcomes| ==> !outcomes[k])
    decreases |outcomes| - from
  {
    if from < |outcomes| && !outcomes[from] {
      FirstSuccessIsFirst(outcomes, from + 1);
    }
  }

  datatype SensorOutcome = SensorOutcome(data: seq<byte>, flag: int, attempts: nat, ok: bool)

  /**
    What `read_DHT11_data` leaves in `Data` and `flag`: nothing is read when
    `flag` is already 1. Otherwise `Data` holds the first successful frame,
    or the last failed read when all three attempts fail. A success resets
    `flag` to 0.
  */
  predicate SensorResult(data: seq<byte>, flag: int, lines: seq<seq<bool>>, d: seq<byte>, f: int) {
    if flag == 1 then d == data && f == 0
    else
      && (forall k :: 0 <= k < MAX_RETRIES && FirstSuccess(Outcomes(lines), 0) == Some(k) ==> d == Dht.FrameBytes(LineFor(lines, k)) && f == 0)
      && (FirstSuccess(Outcomes(lines), 0).None? ==> d == FailedData(LineFor(lines, MAX_RETRIES - 1)) && (f == flag || f == 0))
  }

  /**
    `read_DHT11_data`: call `DHT_Read` while fewer than three attempts have
    failed and `flag` is not 1, then reset `flag` to 0 after a success. The data
    bytes are those of the last attempt, even when every attempt failed.
  */
  method ReadDht11Data(data: seq<byte>, flag: int, lines: seq<seq<bool>>) returns (r: SensorOutcome)
    requires |data| == 5
    ensures |r.data| == 5
    ensures SensorResult(data, flag, lines, r.data, r.flag)
    ensures flag == 1 ==> r == SensorOutcome(data, 0, 0, true)
    ensures flag != 1 ==>
              match FirstSuccess(Outcomes(lines), 0)
              case Some(k) =>
                r.ok && r.attempts == k + 1 && r.flag == 0 && r.data == Dht.FrameBytes(LineFor(lines, k))
              case None =>
                && !r.ok && r.attempts == MAX_RETRIES
                && r.data == FailedData(LineFor(lines, MAX_RETRIES - 1))
                && (r.flag == flag || r.flag == 0)
    ensures flag == 0 || flag == 1 ==> r.flag == 0
  {
    if flag == 1 {
      // The loop condition fails at once; only the reset of the flag remains.
      r := SensorOutcome(data, 0, 0, true);
    } else {
      var d, f, retry := Retries(data, flag, lines);
      if f == 1 {
        r := SensorOutcome(d, 0, retry + 1, true);
      } else {
        r := SensorOutcome(d, f, retry, false);
      }
    }
  }

  /** The retry loop itself, entered with `flag` not yet 1. */
  method Retries(data: seq<byte>, flag: int, lines: seq<seq<bool>>) returns (d: seq<byte>, f: int, retry: nat)
    requires |data| == 5 && flag != 1
    ensures |d| == 5
    ensures f == 1 ==> FirstSuccess(Outcomes(lines), 0) == Some(retry) && d == Dht.FrameBytes(LineFor(lines, retry))
    ensures f != 1 ==>
              && FirstSuccess(Outcomes(lines), 0) == None && retry == MAX_RETRIES
              && d == FailedData(LineFor(lines, MAX_RETRIES - 1))
              && (f == flag || f == 0)
  {
    retry := 0;
    d := data;
    f := flag;
    var last: seq<bool> := [];
    while retry < MAX_RETRIES && f != 1
      invariant 0 <= retry <= MAX_RETRIES && |d| == 5
      invariant FirstSuccess(Outcomes(lines), 0) == FirstSuccess(Outcomes(lines), retry)
      invariant f != 1 ==>
                  && (retry > 0 ==> last == LineFor(lines, retry - 1) && d == FailedData(last))
                  && (f == flag || f == 0)
      invariant f == 1 ==>
                  && retry < MAX_RETRIES
                  && Outcomes(lines)[retry] && d == Dht.FrameBytes(LineFor(lines, retry))
      decreases MAX_RETRIES - retry, if f == 1 then 0 else 1
    {
      last := LineFor(lines, retry);
      d, f := Attempt(last, f);
      OutcomeAt(lines, retry);
      if f != 1 {
        SkipFailure(Outcomes(lines), retry);
        retry := retry + 1;
      }
    }
    if f == 1 {
      FoundHere(Outcomes(lines), retry);
    }
  }

  lemma OutcomeAt(lines: seq<seq<bool>>, k: nat)
    requires k < MAX_RETRIES
    ensures Outcomes(lines)[k] == Succeeds(LineFor(lines, k))
  {
  }

  lemma SkipFailure(outcomes: seq<bool>, from: nat)
    requires from < |outcomes| && !outcomes[from]
    ensures FirstSuccess(outcomes, from) == FirstSuccess(outcomes, from + 1)
  {
  }

  lemma FoundHere(outcomes: seq<bool>, from: nat)
    requires from < |outcomes| && outcomes[from]
    ensures FirstSuccess(outcomes, from) == Some(from)
  {
  }

  /** The data bytes a failed attempt leaves behind: zeros, or the five bytes read with a bad checksum. */
  function FailedData(line: seq<bool>): (d: seq<byte>)
    ensures |d| == 5
  {
    Dht.DhtRead(line, 0).data
  }

  /** One `DHT_Read` call: the flag becomes 1 exactly on a line that succeeds. */
  method Attempt(line: seq<bool>, flag: int) returns (data: seq<byte>, next: int)
    requires flag != 1
    ensures |data| == 5
    ensures next == 1 <==> Succeeds(line)
    ensures next == 1 ==> data == Dht.FrameBytes(line)
    ensures next != 1 ==> data == FailedData(line) && (next == flag || next == 0)
  {
    DhtReadFlag(line, flag);
    var reading := Dht.DhtRead(line, flag);
    data, next := reading.data, reading.flag;
  }

  // ---------------------------------------------------------------------------
  // Sending.

  /** What the modem answers during one `send_frame` call. */
  datatype SendReplies = SendReplies(dutyCycle: int, maxPayloadRc: ResponseCode, maxPayload: byte, requestTxRc: ResponseCode)

  datatype TxRequest = TxRequest(port: byte, confirmed: bool, payload: seq<byte>)

  datatype SendResult = SendResult(rc: ResponseCode, request: Option<TxRequest>)

  /**
    `send_frame`: with the duty-cycle budget exhausted (a negative status) it
    returns OK without asking for a transmission; otherwise it asks for the
    frame, or for an empty frame when the frame exceeds the modem's next
    maximum payload, and returns the request's code. A failing maximum-payload
    query is only logged; the value then compared is whatever the modem left.
    A frame is thus never truncated: a transmission carries the whole frame or
    nothing, and carries nothing exactly when the frame does not fit.
  */
  function SendFrame(frame: seq<byte>, port: byte, confirmed: bool, replies: SendReplies): (r: SendResult)
    requires |frame| < 256
    ensures r.request.None? <==> replies.dutyCycle < 0
    ensures r.request.None? ==> r.rc == Ok
    ensures r.request.Some? ==>
              && r.request.value.port == port && r.request.value.confirmed == confirmed
              && r.rc == replies.requestTxRc
              && (r.request.value.payload == frame || r.request.value.payload == [])
              && (r.request.value.payload == [] <==> frame == [] || |frame| > replies.maxPayload as int)
  {
    if replies.dutyCycle < 0 then SendResult(Ok, None)
    else if |frame| > replies.maxPayload as int then
      SendResult(replies.requestTxRc, Some(TxRequest(port, confirmed, [])))
    else
      SendResult(replies.requestTxRc, Some(TxRequest(port, confirmed, frame)))
  }

  /** The application's globals. */
  datatype AppState = AppState(
    uplinkCounter: uint16,
    confirmedCounter: uint16,
    uplinkSending: bool,
    sensorData: seq<byte>,
    sensorFlag: int,
    buttonPressed: bool,
    lastPressMs: uint32)

  predicate AppValid(s: AppState) {
    |s.sensorData| == 5
  }

  /** The uplink frame: the counter big-endian, then humidity and temperature, integer and decimal parts. */
  function UplinkFrame(counter: uint16, data: seq<byte>): (f: seq<byte>)
    requires |data| == 5
    ensures |f| == 6
    ensures f[0] as int * 256 + f[1] as int == counter as int
    ensures f[2..] == data[..4]
  {
    Be16(counter) + data[..4]
  }

  /** Decoding an uplink frame on the network side gives the counter and the four sensor bytes back. */
  lemma UplinkFrameRoundTrip(counter: uint16, data: seq<byte>)
    requires |data| == 5
    ensures var f := UplinkFrame(counter, data);
            FromBe16(f[0], f[1]) == counter && f[2..6] == data[..4]
  {
    Be16RoundTrip(counter);
  }

  /**
    What the network receives from an uplink request. No request exceeds the
    modem's maximum payload. When the duty cycle allows a transmission and six
    bytes fit, the request carries the whole frame, which decodes to the counter
    and the four sensor bytes; when they do not fit, it carries an empty frame.
  */
  lemma UplinkRequestDecodes(counter: uint16, data: seq<byte>, port: byte, replies: SendReplies)
    requires |data| == 5
    ensures var r := SendFrame(UplinkFrame(counter, data), port, true, replies);
            && (r.request.Some? ==> |r.request.value.payload| <= replies.maxPayload as int)
            && (replies.dutyCycle >= 0 && replies.maxPayload as int >= 6 ==>
                  && r.request.Some? && |r.request.value.payload| == 6
                  && FromBe16(r.request.value.payload[0], r.request.value.payload[1]) == counter
                  && r.request.value.payload[2..] == data[..4])
            && (replies.dutyCycle >= 0 && replies.maxPayload as int < 6 ==>
                  r.request.Some? && r.request.value.payload == [])
  {
    UplinkFrameRoundTrip(counter, data);
  }

  datatype Uplink = Uplink(next: AppState, sent: SendResult)

  /**
    `send_uplinks_counter_on_port`: read the sensor, send the counter and the
    four data bytes as a confirmed uplink, then count the uplink and mark it
    pending, whatever the send returned.
  */
  method SendUplinksCounterOnPort(s: AppState, port: byte, lines: seq<seq<bool>>, replies: SendReplies)
    returns (u: Uplink)
    requires AppValid(s)
    ensures AppValid(u.next)
    ensures u.next.uplinkCounter as int == (s.uplinkCounter as int + 1) % 65536
    ensures u.next.uplinkSending
    ensures u.next.confirmedCounter == s.confirmedCounter
    ensures u.next.buttonPressed == s.buttonPressed && u.next.lastPressMs == s.lastPressMs
    ensures SensorResult(s.sensorData, s.sensorFlag, lines, u.next.sensorData, u.next.sensorFlag)
    ensures u.sent == SendFrame(UplinkFrame(s.uplinkCounter, u.next.sensorData), port, true, replies)
  {
    var sensor := ReadDht11Data(s.sensorData, s.sensorFlag, lines);
    var frame := UplinkFrame(s.uplinkCounter, sensor.data);
    var sent := SendFrame(frame, port, true, replies);
    var next := s.(uplinkCounter := Wrap16(s.uplinkCounter as int + 1), uplinkSending := true,
                   sensorData := sensor.data, sensorFlag := sensor.flag);
    u := Uplink(next, sent);
  }

  // ---------------------------------------------------------------------------
  // Modem events.

  /** TX done: the sub-type in the high byte of the event data adjusts the counters; the pending flag is cleared. */
  function OnTxDone(s: AppState, eventData: uint16): (r: AppState)
    ensures !r.uplinkSending
    ensures eventData as int / 256 == TX_NOT_SENT ==>
              r.uplinkCounter as int == (s.uplinkCounter as int - 1) % 65536 && r.confirmedCounter == s.confirmedCounter
    ensures eventData as int / 256 == TX_CONFIRMED ==>
              r.confirmedCounter as int == (s.confirmedCounter as int + 1) % 65536 && r.uplinkCounter == s.uplinkCounter
    ensures eventData as int / 256 != TX_NOT_SENT && eventData as int / 256 != TX_CONFIRMED ==>
              r.uplinkCounter == s.uplinkCounter && r.confirmedCounter == s.confirmedCounter
    ensures r.sensorData == s.sensorData && r.sensorFlag == s.sensorFlag
    ensures r.buttonPressed == s.buttonPressed && r.lastPressMs == s.lastPressMs
  {
    var subtype := eventData as int / 256;
    var t :=
      if subtype == TX_NOT_SENT then s.(uplinkCounter := Wrap16(s.uplinkCounter as int - 1))
      else if subtype == TX_CONFIRMED then s.(confirmedCounter := Wrap16(s.confirmedCounter as int + 1))
      else s;
    t.(uplinkSending := false)
  }

  /**
    An uplink the modem reports as not sent is not counted: sending and then
    receiving a not-sent TX done restores the counter and clears the pending
    flag; a confirmed one keeps the count and adds a confirmation.
  */
  method SendThenTxDone(s: AppState, port: byte, lines: seq<seq<bool>>, replies: SendReplies, eventData: uint16)
    returns (r: AppState)
    requires AppValid(s)
    ensures !r.uplinkSending
    ensures eventData as int / 256 == TX_NOT_SENT ==>
              r.uplinkCounter == s.uplinkCounter && r.confirmedCounter == s.confirmedCounter
    ensures eventData as int / 256 == TX_CONFIRMED ==>
              r.uplinkCounter as int == (s.uplinkCounter as int + 1) % 65536
              && r.confirmedCounter as int == (s.confirmedCounter as int + 1) % 65536
  {
    var u := SendUplinksCounterOnPort(s, port, lines, replies);
    r := OnTxDone(u.next, eventData);
  }

  datatype ModemEvent = Reset | Alarm | Joined | TxDone(data: uint16) | DownData | JoinFail | OtherEvent

  /**
    One event of `event_process`: ALARM and JOINED send the periodic uplink on
    port 101, TX done updates the counters, and the others change no
    application state.
  */
  method HandleEvent(s: AppState, ev: ModemEvent, lines: seq<seq<bool>>, replies: SendReplies)
    returns (r: AppState, sent: Option<SendResult>)
    requires AppValid(s)
    ensures AppValid(r)
    ensures ev.Alarm? || ev.Joined? ==>
              sent.Some? && r.uplinkSending && r.uplinkCounter as int == (s.uplinkCounter as int + 1) % 65536
              && (sent.value.request.Some? ==> sent.value.request.value.port == PORT_PERIODIC)
    ensures ev.Alarm? || ev.Joined? ==>
              && r.confirmedCounter == s.confirmedCounter
              && r.buttonPressed == s.buttonPressed && r.lastPressMs == s.lastPressMs
              && SensorResult(s.sensorData, s.sensorFlag, lines, r.sensorData, r.sensorFlag)
              && sent.value == SendFrame(UplinkFrame(s.uplinkCounter, r.sensorData), PORT_PERIODIC, true, replies)
    ensures ev.TxDone? ==> sent.None? && r == OnTxDone(s, ev.data)
    ensures !(ev.Alarm? || ev.Joined? || ev.TxDone?) ==> sent.None? && r == s
  {
    match ev {
      case Alarm =>
        var u := SendUplinksCounterOnPort(s, PORT_PERIODIC, lines, replies);
        r, sent := u.next, Some(u.sent);
      case Joined =>
        var u := SendUplinksCounterOnPort(s, PORT_PERIODIC, lines, replies);
        r, sent := u.next, Some(u.sent);
      case TxDone(data) =>
        r, sent := OnTxDone(s, data), None;
      case _ =>
        r, sent := s, None;
    }
  }

  // ---------------------------------------------------------------------------
  // Button.

  /**
    The button branch of the main loop: consume the press, and send on port 102
    only when the modem status has the JOINED bit and no uplink is pending.
  */
  method ButtonStep(s: AppState, status: bv8, lines: seq<seq<bool>>, replies: SendReplies)
    returns (r: AppState, sent: Option<SendResult>)
    requires AppValid(s)
    ensures AppValid(r)
    ensures !s.buttonPressed ==> r == s && sent.None?
    ensures s.buttonPressed ==> !r.buttonPressed
    ensures sent.Some? <==> s.buttonPressed && status & STATUS_JOINED == STATUS_JOINED && !s.uplinkSending
    ensures sent.Some? ==>
              && r.uplinkSending && r.uplinkCounter as int == (s.uplinkCounter as int + 1) % 65536
              && (sent.value.request.Some? ==> sent.value.request.value.port == PORT_BUTTON)
    ensures sent.Some? ==>
              && r.confirmedCounter == s.confirmedCounter && r.lastPressMs == s.lastPressMs
              && SensorResult(s.sensorData, s.sensorFlag, lines, r.sensorData, r.sensorFlag)
              && sent.value == SendFrame(UplinkFrame(s.uplinkCounter, r.sensorData), PORT_BUTTON, true, replies)
    ensures sent.None? ==> r.uplinkCounter == s.uplinkCounter && r.uplinkSending == s.uplinkSending
    ensures sent.None? && s.buttonPressed ==> r == s.(buttonPressed := false)
  {
    if !s.buttonPressed {
      return s, None;
    }
    var t := s.(buttonPressed := false);
    if status & STATUS_JOINED == STATUS_JOINED && !t.uplinkSending {
      var u := SendUplinksCounterOnPort(t, PORT_BUTTON, lines, replies);
      r, sent := u.next, Some(u.sent);
    } else {
      r, sent := t, None;
    }
  }

  /** A press while an uplink is pending is dropped: no second uplink can be requested before TX done. */
  method PendingUplinkBlocksButton(s: AppState, status: bv8, lines: seq<seq<bool>>, replies: SendReplies)
    returns (sent: Option<SendResult>)
    requires AppValid(s) && s.uplinkSending
    ensures sent.None?
  {
    var r;
    r, sent := ButtonStep(s, status, lines, replies);
  }

  /**
    The periodic path does not look at the pending flag: an ALARM or JOINED
    event requests an uplink even while one is pending.
  */
  method PeriodicUplinkIgnoresPending(s: AppState, ev: ModemEvent, lines: seq<seq<bool>>, replies: SendReplies)
    returns (r: AppState, sent: Option<SendResult>)
    requires AppValid(s) && s.uplinkSending && (ev.Alarm? || ev.Joined?)
    ensures sent.Some? && r.uplinkSending
    ensures r.uplinkCounter as int == (s.uplinkCounter as int + 1) % 65536
  {
    r, sent := HandleEvent(s, ev, lines, replies);
  }

  /** One input of the main loop: a button press seen with a modem status, or a modem event. */
  datatype Step =
    | Press(status: bv8, lines: seq<seq<bool>>, replies: SendReplies)
    | Event(ev: ModemEvent, lines: seq<seq<bool>>, replies: SendReplies)

  /** What a step did: requested an uplink from the button or the periodic path, or took a TX done. */
  datatype Call = ButtonUplink | PeriodicUplink | Done

  /**
    Every button uplink in `log` was requested with nothing pending: the call
    before it is a TX done, or it is the first call and nothing was pending at
    the start.
  */
  predicate ButtonOnlyWhenIdle(pendingAtStart: bool, log: seq<Call>) {
    forall i :: 0 <= i < |log| && log[i] == ButtonUplink ==>
      (i == 0 ==> !pendingAtStart) && (i > 0 ==> log[i - 1] == Done)
  }

  lemma ButtonOnlyWhenIdleAppend(pendingAtStart: bool, log: seq<Call>, c: Call)
    requires ButtonOnlyWhenIdle(pendingAtStart, log)
    requires c == ButtonUplink ==> if log == [] then !pendingAtStart else log[|log| - 1] == Done
    ensures ButtonOnlyWhenIdle(pendingAtStart, log + [c])
  {
    var l := log + [c];
    forall i | 0 <= i < |l| && l[i] == ButtonUplink
      ensures (i == 0 ==> !pendingAtStart) && (i > 0 ==> l[i - 1] == Done)
    {
      if i < |log| {
        assert log[i] == ButtonUplink;
        if i > 0 { assert l[i - 1] == log[i - 1]; }
      } else {
        assert c == ButtonUplink;
        if i > 0 { assert l[i - 1] == log[|log| - 1]; }
      }
    }
  }

  /**
    Any sequence of button presses and modem events. The pending flag is set
    exactly when the last uplink request came after the last TX done. A button
    uplink is only ever requested with no uplink pending: it is the first
    request since the last TX done (or since the start, when nothing was
    pending then).
  */
  method RunSteps(s: AppState, steps: seq<Step>) returns (r: AppState, log: seq<Call>)
    requires AppValid(s)
    ensures AppValid(r)
    ensures r.uplinkSending == (if log == [] then s.uplinkSending else log[|log| - 1] != Done)
    ensures ButtonOnlyWhenIdle(s.uplinkSending, log)
  {
    r, log := s, [];
    var k := 0;
    while k < |steps|
      invariant 0 <= k <= |steps| && AppValid(r)
      invariant r.uplinkSending == (if log == [] then s.uplinkSending else log[|log| - 1] != Done)
      invariant ButtonOnlyWhenIdle(s.uplinkSending, log)
    {
      var sent: Option<SendResult>;
      match steps[k] {
        case Press(status, lines, replies) =>
          r, sent := ButtonStep(r, status, lines, replies);
          if sent.Some? {
            ButtonOnlyWhenIdleAppend(s.uplinkSending, log, ButtonUplink);
            log := log + [ButtonUplink];
          }
        case Event(ev, lines, replies) =>
          r, sent := HandleEvent(r, ev, lines, replies);
          if sent.Some? {
            ButtonOnlyWhenIdleAppend(s.uplinkSending, log, PeriodicUplink);
            log := log + [PeriodicUplink];
          } else if ev.TxDone? {
            ButtonOnlyWhenIdleAppend(s.uplinkSending, log, Done);
            log := log + [Done];
          }
      }
      k := k + 1;
    }
  }

  // ---------------------------------------------------------------------------
  // Debounce.

  /** `(int32_t)` of a 32-bit unsigned value: two's complement reinterpretation. */
  function ToInt32(x: uint32): (v: int)
    ensures -0x8000_0000 <= v < 0x8000_0000
    ensures Wrap32(v) == x
  {
    if x as int < 0x8000_0000 then x as int else x as int - 0x1_0000_0000
  }

  /**
    `user_button_callback` as written: the press is accepted when the RTC time
    minus the last accepted time, as a signed 32-bit value, exceeds 500 ms. The
    new timestamp is a second RTC reading, `nowAgain`.
  */
  function OnButtonAsWritten(s: AppState, now: uint32, nowAgain: uint32): (r: AppState)
    ensures var elapsed := Wrap32(now as int - s.lastPressMs as int) as int;
            (elapsed > DEBOUNCE_MS && elapsed < 0x8000_0000) ==> r == s.(lastPressMs := nowAgain, buttonPressed := true)
    ensures var elapsed := Wrap32(now as int - s.lastPressMs as int) as int;
            !(elapsed > DEBOUNCE_MS && elapsed < 0x8000_0000) ==> r == s
  {
    if ToInt32(Wrap32(now as int - s.lastPressMs as int)) > DEBOUNCE_MS then
      s.(lastPressMs := nowAgain, buttonPressed := true)
    else s
  }

  /**
    The signed difference turns long idle periods into negative ones: a press
    made between 2^31 and 2^32 ms (about 24.9 to 49.7 days) after the last
    accepted one is ignored, and so is every press in that window.
  */
  lemma LongIdlePressIgnored(s: AppState)
    requires s.lastPressMs == 0
    ensures OnButtonAsWritten(s, 0x8000_0000, 0x8000_0000) == s
  {
  }

  /** The debounce as evidently intended: accept when more than 500 ms have elapsed on the wrapping clock. */
  function OnButton(s: AppState, now: uint32, nowAgain: uint32): (r: AppState)
    ensures Wrap32(now as int - s.lastPressMs as int) as int > DEBOUNCE_MS ==>
              r == s.(lastPressMs := nowAgain, buttonPressed := true)
    ensures Wrap32(now as int - s.lastPressMs as int) as int <= DEBOUNCE_MS ==> r == s
  {
    if Wrap32(now as int - s.lastPressMs as int) as int > DEBOUNCE_MS then
      s.(lastPressMs := nowAgain, buttonPressed := true)
    else s
  }

  /**
    For any real elapsed time below the clock's 2^32 ms period, the corrected
    debounce accepts exactly the presses more than 500 ms after the last one,
    across clock wrap-around.
  */
  lemma DebounceMeasuresElapsedTime(s: AppState, elapsed: int, nowAgain: uint32)
    requires 0 <= elapsed < 0x1_0000_0000
    ensures var now := Wrap32(s.lastPressMs as int + elapsed);
            OnButton(s, now, nowAgain).buttonPressed == (elapsed > DEBOUNCE_MS || s.buttonPressed)
  {
    var now := Wrap32(s.lastPressMs as int + elapsed);
    assert Wrap32(now as int - s.lastPressMs as int) as int == elapsed;
  }

  /** Across the clock's wrap-around, a press 512 ms after the last one is accepted by both versions. */
  lemma DebounceAcrossWrap(s: AppState)
    requires s.lastPressMs == 0xFFFF_FF00 && !s.buttonPressed
    ensures OnButtonAsWritten(s, 0x100, 0x100).buttonPressed
    ensures OnButton(s, 0x100, 0x100).buttonPressed
  {
  }
}

=== FILE: boot.dfy ===
/**
  The LR1121 bootloader command layer: every command is a 16-bit opcode sent
  most significant byte first, optionally followed by parameters and a data
  phase; `write_flash_encrypted_full` splits a firmware image into 64-word
  chunks written at consecutive 256-byte offsets. The SPI transport is an
  oracle: the model produces the transfers and takes the chip's status codes
  as parameters.
*/
module Boot {
  import opened Bytes

  /** Status returned by every transfer (`lr1121_status_t`). */
  datatype Status = Ok | Unsupported | Error

  const GET_STATUS_OC: uint16 := 0x0100
  const GET_VERSION_OC: uint16 := 0x0101
  const ERASE_FLASH_OC: uint16 := 0x8000
  const WRITE_FLASH_ENCRYPTED_OC: uint16 := 0x8003
  const REBOOT_OC: uint16 := 0x8005
  const GET_PIN_OC: uint16 := 0x800B
  const READ_CHIP_EUI_OC: uint16 := 0x800C
  const READ_JOIN_EUI_OC: uint16 := 0x800D

  /** Largest chunk of one flash write, in words and in bytes. */
  const FLASH_DATA_MAX_LENGTH_UINT32: nat := 64
  const FLASH_DATA_MAX_LENGTH_UINT8: nat := 256

  /** Reply lengths of the read commands. */
  const VERSION_LENGTH: nat := 4
  const PIN_LENGTH: nat := 4
  const EUI_LENGTH: nat := 8

  /** The reboot parameter: stay in the bootloader, or run the flash code. */
  const REBOOT_STAY: byte := 0x03
  const REBOOT_RUN: byte := 0x00

  /** The bootloader commands this driver issues. */
  datatype Command =
    | ClearResetStatus
    | GetVersion
    | EraseFlash
    | WriteFlashEncrypted(offset: uint32, words: seq<uint32>)
    | Reboot(stayInBootloader: bool)
    | ReadPin
    | ReadChipEui
    | ReadJoinEui

  /** A command is well-formed when a flash write carries at most one chunk. */
  predicate WellFormed(c: Command) {
    c.WriteFlashEncrypted? ==> |c.words| <= FLASH_DATA_MAX_LENGTH_UINT32
  }

  /**
    One SPI exchange: a write sends a command buffer then a data buffer; a read
    sends a command buffer and then clocks in `replyLength` bytes.
  */
  datatype Transfer =
    | Write(command: seq<byte>, data: seq<byte>)
    | Read(command: seq<byte>, replyLength: nat)

  /** Each word as four bytes, most significant first, in order. */
  function WordsBe(ws: seq<uint32>): (r: seq<byte>)
    ensures |r| == 4 * |ws|
  {
    if ws == [] then [] else Be32(ws[0]) + WordsBe(ws[1..])
  }

  /** Word `i` occupies bytes `[4i, 4i+4)` of the data phase. */
  lemma {:induction false} WordsBeAt(ws: seq<uint32>, i: nat)
    requires i < |ws|
    ensures WordsBe(ws)[4 * i .. 4 * i + 4] == Be32(ws[i])
  {
    if i > 0 {
      WordsBeAt(ws[1..], i - 1);
      assert WordsBe(ws) == Be32(ws[0]) + WordsBe(ws[1..]);
      assert WordsBe(ws)[4 * i .. 4 * i + 4] == WordsBe(ws[1..])[4 * (i - 1) .. 4 * (i - 1) + 4];
    }
  }

  /** The inverse of `WordsBe`, on data phases whose length is a multiple of four. */
  function WordsFromBe(b: seq<byte>): (ws: seq<uint32>)
    requires |b| % 4 == 0
    ensures |ws| == |b| / 4
  {
    if b == [] then [] else [FromBe32(b[..4])] + WordsFromBe(b[4..])
  }

  lemma {:induction false} WordsRoundTrip(ws: seq<uint32>)
    ensures WordsFromBe(WordsBe(ws)) == ws
  {
    if ws != [] {
      var b := WordsBe(ws);
      assert b[..4] == Be32(ws[0]);
      assert b[4..] == WordsBe(ws[1..]);
      Be32RoundTrip(ws[0]);
      WordsRoundTrip(ws[1..]);
    }
  }

  /**
    The exchange each driver function performs: the opcode big-endian, then
    the parameters (a flash write's byte offset big-endian, the reboot mode
    byte) and, for a flash write, the words big-endian as the data phase.
  */
  function Encode(c: Command): (t: Transfer)
    requires WellFormed(c)
    ensures |t.command| >= 2
    ensures c.WriteFlashEncrypted? ==> t.Write? && |t.data| == 4 * |c.words| <= FLASH_DATA_MAX_LENGTH_UINT8
  {
    match c
    case ClearResetStatus => Write(Be16(GET_STATUS_OC), [])
    case GetVersion => Read(Be16(GET_VERSION_OC), VERSION_LENGTH)
    case EraseFlash => Write(Be16(ERASE_FLASH_OC), [])
    case WriteFlashEncrypted(offset, words) =>
      Write(Be16(WRITE_FLASH_ENCRYPTED_OC) + Be32(offset), WordsBe(words))
    case Reboot(stay) => Write(Be16(REBOOT_OC) + [if stay then REBOOT_STAY else REBOOT_RUN], [])
    case ReadPin => Read(Be16(GET_PIN_OC), PIN_LENGTH)
    case ReadChipEui => Read(Be16(READ_CHIP_EUI_OC), EUI_LENGTH)
    case ReadJoinEui => Read(Be16(READ_JOIN_EUI_OC), EUI_LENGTH)
  }

  /** What the chip sees: the command an exchange carries, if it is one of the above. */
  function Decode(t: Transfer): (c: Option<Command>)
    ensures c.Some? ==> WellFormed(c.value)
  {
    if |t.command| < 2 then None
    else
      var op := FromBe16(t.command[0], t.command[1]);
      var params := t.command[2..];
      match t
      case Write(_, data) =>
        if op == GET_STATUS_OC && params == [] && data == [] then Some(ClearResetStatus)
        else if op == ERASE_FLASH_OC && params == [] && data == [] then Some(EraseFlash)
        else if op == WRITE_FLASH_ENCRYPTED_OC && |params| == 4 && |data| % 4 == 0
                && |data| <= FLASH_DATA_MAX_LENGTH_UINT8 then
          Some(WriteFlashEncrypted(FromBe32(params), WordsFromBe(data)))
        else if op == REBOOT_OC && |params| == 1 && data == [] && params[0] == REBOOT_STAY then Some(Reboot(true))
        else if op == REBOOT_OC && |params| == 1 && data == [] && params[0] == REBOOT_RUN then Some(Reboot(false))
        else None
      case Read(_, n) =>
        if params != [] then None
        else if op == GET_VERSION_OC && n == VERSION_LENGTH then Some(GetVersion)
        else if op == GET_PIN_OC && n == PIN_LENGTH then Some(ReadPin)
        else if op == READ_CHIP_EUI_OC && n == EUI_LENGTH then Some(ReadChipEui)
        else if op == READ_JOIN_EUI_OC && n == EUI_LENGTH then Some(ReadJoinEui)
        else None
  }

  /** Every command is recovered from its exchange: opcodes, offsets, words and the reboot mode are all distinct on the wire. */
  lemma EncodeRoundTrip(c: Command)
    requires WellFormed(c)
    ensures Decode(Encode(c)) == Some(c)
  {
    var t := Encode(c);
    assert t.command[..2] == Be16(FromBe16(t.command[0], t.command[1]));
    match c {
      case WriteFlashEncrypted(offset, words) =>
        assert t.command[2..] == Be32(offset);
        Be32RoundTrip(offset);
        WordsRoundTrip(words);
      case _ =>
    }
  }

  /** The reboot mode byte: 0x03 keeps the chip in the bootloader, 0x00 runs the flash. */
  lemma RebootModeByte(stay: bool)
    ensures Encode(Reboot(stay)).command == Be16(REBOOT_OC) + [if stay then 0x03 else 0x00]
    ensures Decode(Encode(Reboot(stay))) == Some(Reboot(stay))
  {
    EncodeRoundTrip(Reboot(stay));
  }

  // ---------------------------------------------------------------------------
  // Version.

  datatype Version = Version(hw: byte, kind: byte, fw: uint16)

  /** `get_version`: the reply fills the version only when the transfer succeeded. */
  function GetVersionReply(status: Status, reply: seq<byte>, previous: Version): (v: Version)
    requires |reply| == VERSION_LENGTH
    ensures status != Ok ==> v == previous
    ensures status == Ok ==> v.hw == reply[0] && v.kind == reply[1] && Be16(v.fw) == reply[2..4]
  {
    if status == Ok then Version(reply[0], reply[1], FromBe16(reply[2], reply[3])) else previous
  }

  /** The reply a chip reporting `v` sends back. */
  function VersionReply(v: Version): (reply: seq<byte>)
    ensures |reply| == VERSION_LENGTH
  {
    [v.hw, v.kind] + Be16(v.fw)
  }

  lemma VersionRoundTrip(v: Version, previous: Version)
    ensures GetVersionReply(Ok, VersionReply(v), previous) == v
  {
    Be16RoundTrip(v.fw);
  }

  // ---------------------------------------------------------------------------
  // Chunked flash writing.

  /** `get_min_from_operand_and_max_block_size`: the size of the next chunk. */
  function MinBlock(operand: uint32): (r: byte)
    ensures r as int <= FLASH_DATA_MAX_LENGTH_UINT32 && r as int <= operand as int
    ensures r as int == FLASH_DATA_MAX_LENGTH_UINT32 || r as int == operand as int
  {
    if operand as int > FLASH_DATA_MAX_LENGTH_UINT32 then FLASH_DATA_MAX_LENGTH_UINT32 as byte
    else operand as byte
  }

  function Min(a: nat, b: nat): nat { if a <= b then a else b }

  /**
    The reference split of an image into chunks: 64 words at a time, the last
    possibly shorter, each at the previous chunk's offset plus 256 bytes, on the
    32-bit offset the driver keeps.
  */
  function Chunks(offset: uint32, image: seq<uint32>): (cs: seq<Command>)
    ensures forall i :: 0 <= i < |cs| ==> cs[i].WriteFlashEncrypted? && WellFormed(cs[i])
    decreases |image|
  {
    if image == [] then []
    else
      var n := Min(|image|, FLASH_DATA_MAX_LENGTH_UINT32);
      [WriteFlashEncrypted(offset, image[..n])] + Chunks(Wrap32(offset as int + FLASH_DATA_MAX_LENGTH_UINT8), image[n..])
  }

  /** Number of chunks of an image of `n` words. */
  function ChunkCount(n: nat): nat {
    (n + FLASH_DATA_MAX_LENGTH_UINT32 - 1) / FLASH_DATA_MAX_LENGTH_UINT32
  }

  lemma SmallOffset(x: int)
    requires 0 <= x < 0x1_0000_0000
    ensures (0 + x) % 0x1_0000_0000 == x
  {
  }

  /** Chunk `k` of an `n`-word image starts inside it, and every chunk but the last is full. */
  lemma ChunkCountBounds(n: nat, k: nat)
    requires k < ChunkCount(n)
    ensures 64 * k < n
    ensures k + 1 < ChunkCount(n) ==> 64 * k + 64 < n
  {
    var c := ChunkCount(n);
    assert 64 * c <= n + 63;
    assert 64 * (k + 1) <= 64 * c;
    if k + 1 < c {
      assert 64 * (k + 2) <= 64 * c;
    }
  }

  lemma {:induction false} ChunksLength(offset: uint32, image: seq<uint32>)
    ensures |Chunks(offset, image)| == ChunkCount(|image|)
    decreases |image|
  {
    if image != [] {
      var n := Min(|image|, 64);
      ChunksLength(Wrap32(offset as int + 256), image[n..]);
    }
  }

  /** Adding after a reduction modulo 2^32 is the same as adding before it. */
  lemma WrapAdd(a: int, b: int)
    ensures (Wrap32(a) as int + b) % 0x1_0000_0000 == (a + b) % 0x1_0000_0000
  {
    var m := 0x1_0000_0000;
    var q := a / m;
    assert a == q * m + Wrap32(a) as int;
    assert a + b == (Wrap32(a) as int + b) + q * m;
  }

  /** The reference split unfolded once, on an image longer than one chunk. */
  lemma ChunksUnfold(offset: uint32, image: seq<uint32>)
    requires |image| > 64
    ensures Chunks(offset, image) ==
              [WriteFlashEncrypted(offset, image[..64])] + Chunks(Wrap32(offset as int + 256), image[64..])
  {
  }

  /** Chunk `k` is written at `offset + 256k`, on the driver's wrapping 32-bit offset. */
  lemma {:induction false} ChunkOffset(offset: uint32, image: seq<uint32>, k: nat)
    requires k < ChunkCount(|image|)
    ensures |Chunks(offset, image)| == ChunkCount(|image|)
    ensures Chunks(offset, image)[k].offset as int == (offset as int + 256 * k) % 0x1_0000_0000
    decreases |image|
  {
    ChunksLength(offset, image);
    ChunkCountBounds(|image|, k);
    if k > 0 {
      var next := Wrap32(offset as int + 256);
      ChunksUnfold(offset, image);
      ChunkOffset(next, image[64..], k - 1);
      WrapAdd(offset as int + 256, 256 * (k - 1));
    }
  }

  /** Chunk `k` holds words `[64k, 64k+64)` of the image, clipped to its end. */
  lemma {:induction false} ChunkWords(offset: uint32, image: seq<uint32>, k: nat)
    requires k < ChunkCount(|image|)
    ensures |Chunks(offset, image)| == ChunkCount(|image|)
    ensures Chunks(offset, image)[k].words == image[64 * k .. Min(|image|, 64 * k + 64)]
    decreases |image|
  {
    ChunksLength(offset, image);
    ChunkCountBounds(|image|, k);
    if k > 0 {
      var next := Wrap32(offset as int + 256);
      var rest := image[64..];
      ChunksUnfold(offset, image);
      ChunkWords(next, rest, k - 1);
      WindowShift(image, rest, k);
    }
  }

  /** Window `k` of the image is window `k - 1` of what follows its first chunk. */
  lemma WindowShift(image: seq<uint32>, rest: seq<uint32>, k: nat)
    requires 0 < k && 64 * k < |image| && rest == image[64..]
    ensures image[64 * k .. Min(|image|, 64 * k + 64)] == rest[64 * (k - 1) .. Min(|rest|, 64 * (k - 1) + 64)]
  {
    var lo := 64 * k;
    var hi := Min(|image|, lo + 64);
    assert 64 * (k - 1) == lo - 64;
    assert Min(|rest|, 64 * (k - 1) + 64) == hi - 64;
    assert forall i :: lo <= i < hi ==> image[i] == rest[i - 64];
  }

  /**
    The chunks cover the image exactly: there are ceil(n/64) of them, chunk `k`
    is written at `offset + 256k` (mod 2^32) and holds words `[64k, 64k+64)`
    clipped to the image, so only the last may be shorter than 64 words.
  */
  lemma ChunksCover(offset: uint32, image: seq<uint32>, k: nat)
    requires k < ChunkCount(|image|)
    ensures |Chunks(offset, image)| == ChunkCount(|image|)
    ensures var c := Chunks(offset, image)[k];
            && c.offset as int == (offset as int + 256 * k) % 0x1_0000_0000
            && c.words == image[64 * k .. Min(|image|, 64 * k + 64)]
  {
    ChunkOffset(offset, image, k);
    ChunkWords(offset, image, k);
  }

  /** The words the chunks carry, in order. */
  function Reassemble(cs: seq<Command>): seq<uint32>
    requires forall i :: 0 <= i < |cs| ==> cs[i].WriteFlashEncrypted?
  {
    if cs == [] then [] else cs[0].words + Reassemble(cs[1..])
  }

  /** Writing the chunks one after the other rebuilds the image word for word. */
  lemma {:induction false} ChunksReassemble(offset: uint32, image: seq<uint32>)
    ensures Reassemble(Chunks(offset, image)) == image
    decreases |image|
  {
    if image != [] {
      var n := Min(|image|, 64);
      var cs := Chunks(offset, image);
      assert cs[1..] == Chunks(Wrap32(offset as int + 256), image[n..]);
      ChunksReassemble(Wrap32(offset as int + 256), image[n..]);
      assert image == image[..n] + image[n..];
    }
  }

  /**
    A firmware update as the bootloader requires it: the flash is erased first,
    then the image is written in order from offset 0, in chunks of 64 words
    except the last, each at the byte offset where the previous one ended.
  */
  predicate ValidUpdate(cmds: seq<Command>) {
    && |cmds| > 0 && cmds[0] == EraseFlash
    && forall i :: 1 <= i < |cmds| ==>
         && cmds[i].WriteFlashEncrypted?
         && cmds[i].offset as int == 256 * (i - 1)
         && 0 < |cmds[i].words| <= 64
         && (i < |cmds| - 1 ==> |cmds[i].words| == 64)
  }

  /**
    Erasing and then writing an image with `write_flash_encrypted_full` from
    offset 0 is a valid update, for any image that fits the 32-bit byte offsets.
  */
  lemma FullWriteIsValidUpdate(image: seq<uint32>)
    requires 4 * |image| <= 0x1_0000_0000
    ensures ValidUpdate([EraseFlash] + Chunks(0, image))
    ensures Reassemble(Chunks(0, image)) == image
  {
    ChunksReassemble(0, image);
    ChunksLength(0, image);
    var cmds := [EraseFlash] + Chunks(0, image);
    forall i | 1 <= i < |cmds|
      ensures cmds[i].WriteFlashEncrypted? && cmds[i].offset as int == 256 * (i - 1)
      ensures 0 < |cmds[i].words| <= 64 && (i < |cmds| - 1 ==> |cmds[i].words| == 64)
    {
      UpdateCommand(image, cmds, i);
    }
  }

  /** Command `i` after the erase is chunk `i - 1`. */
  lemma UpdateCommand(image: seq<uint32>, cmds: seq<Command>, i: nat)
    requires 4 * |image| <= 0x1_0000_0000
    requires cmds == [EraseFlash] + Chunks(0, image) && 1 <= i < |cmds|
    ensures cmds[i].WriteFlashEncrypted? && cmds[i].offset as int == 256 * (i - 1)
    ensures 0 < |cmds[i].words| <= 64 && (i < |cmds| - 1 ==> |cmds[i].words| == 64)
  {
    ChunksLength(0, image);
    assert cmds[i] == Chunks(0, image)[i - 1];
    UpdateChunk(image, i - 1);
  }

  /** Chunk `j` of an image written from offset 0: at byte `256j`, non-empty, and full unless it is the last. */
  lemma UpdateChunk(image: seq<uint32>, j: nat)
    requires 4 * |image| <= 0x1_0000_0000
    requires j < ChunkCount(|image|)
    ensures var cs := Chunks(0, image);
            && |cs| == ChunkCount(|image|)
            && cs[j].offset as int == 256 * j
            && 0 < |cs[j].words| <= 64
            && (j < |cs| - 1 ==> |cs[j].words| == 64)
  {
    ChunksCover(0, image, j);
    ChunkCountBounds(|image|, j);
    assert 256 * j == 4 * (64 * j);
    SmallOffset(256 * j);
  }

  /** The first chunk whose write fails, if any. */
  function FirstFailure(statuses: seq<Status>, from: nat): (r: Option<nat>)
    requires from <= |statuses|
    ensures r.Some? ==> from <= r.value < |statuses| && statuses[r.value] != Ok
    decreases |statuses| - from
  {
    if from == |statuses| then None
    else if statuses[from] != Ok then Some(from)
    else FirstFailure(statuses, from + 1)
  }

  lemma {:induction false} FirstFailureIsFirst(statuses: seq<Status>, from: nat)
    requires from <= |statuses|
    ensures var r := FirstFailure(statuses, from);
            && (r.Some? ==> forall k :: from <= k < r.value ==> statuses[k] == Ok)
            && (r.None? <==> forall k :: from <= k < |statuses| ==> statuses[k] == Ok)
    decreases |statuses| - from
  {
    if from < |statuses| && statuses[from] == Ok {
      FirstFailureIsFirst(statuses, from + 1);
    }
  }

  /**
    `write_flash_encrypted_full`: write the first `lengthInWord` words of
    `buffer` chunk by chunk, stopping at the first chunk the chip rejects and
    returning its status; `replies[k]` is the chip's status for chunk `k` (a
    chip that answers fewer chunks answers OK to the rest).
  */
  method WriteFlashEncryptedFull(offset: uint32, buffer: seq<uint32>, lengthInWord: uint32, replies: seq<Status>)
    returns (status: Status, sent: seq<Command>)
    requires |buffer| >= lengthInWord as int
    ensures var all := Chunks(offset, buffer[..lengthInWord]);
            var statuses := Pad(replies, |all|);
            match FirstFailure(statuses, 0)
            case Some(k) => status == statuses[k] && sent == all[..k + 1]
            case None => status == Ok && sent == all
    ensures lengthInWord == 0 ==> status == Ok && sent == []
  {
    var image := buffer[..lengthInWord];
    ghost var all := Chunks(offset, image);
    ghost var statuses := Pad(replies, |all|);
    var remaining := lengthInWord;
    var localOffset := offset;
    var loop: nat := 0;
    sent := [];
    while remaining != 0
      invariant remaining as int == |image| - Min(64 * loop, |image|)
      invariant loop <= |all| && sent == all[..loop]
      invariant Chunks(localOffset, image[Min(64 * loop, |image|)..]) == all[loop..]
      invariant forall k :: 0 <= k < loop ==> statuses[k] == Ok
      decreases remaining
    {
      var n := MinBlock(remaining);
      var lo := 64 * loop;
      PassFollowsSplit(localOffset, image, all, loop, remaining as int, n as int);
      var chunk := WriteFlashEncrypted(localOffset, image[lo .. lo + n as int]);
      PrefixSnocCommand(all, loop, sent, chunk);
      sent := sent + [chunk];
      var st := Reply(replies, loop);
      assert st == statuses[loop];
      if st != Ok {
        StopsAtFailure(all, statuses, loop, sent, st);
        return st, sent;
      }
      assert forall k :: 0 <= k < loop + 1 ==> statuses[k] == Ok;
      localOffset := Wrap32(localOffset as int + FLASH_DATA_MAX_LENGTH_UINT8);
      remaining := if remaining as int < FLASH_DATA_MAX_LENGTH_UINT32 then 0 else remaining - 64;
      loop := loop + 1;
    }
    status := Ok;
    SentAll(all, statuses, loop, sent);
  }

  /** The arithmetic of one loop pass: the chunk starts at word `64 loop` and the remaining count drops by its size. */
  lemma RemainingStep(size: nat, loop: nat, remaining: int, n: int)
    requires remaining == size - Min(64 * loop, size) && remaining > 0
    requires n <= 64 && n <= remaining && (n == 64 || n == remaining)
    ensures 64 * loop < size && n == Min(size - 64 * loop, 64)
    ensures 64 * loop + n == Min(64 * (loop + 1), size)
    ensures (if remaining < 64 then 0 else remaining - 64) == size - Min(64 * (loop + 1), size)
  {
  }

  /**
    One pass of the driver's loop sends the next chunk of the reference split,
    and leaves the remaining count and the split of the rest as they should be.
  */
  lemma PassFollowsSplit(offset: uint32, image: seq<uint32>, all: seq<Command>, loop: nat, remaining: int, n: int)
    requires remaining == |image| - Min(64 * loop, |image|) && remaining > 0
    requires n <= 64 && n <= remaining && (n == 64 || n == remaining)
    requires loop <= |all| && Chunks(offset, image[Min(64 * loop, |image|)..]) == all[loop..]
    ensures 0 <= 64 * loop <= 64 * loop + n <= |image|
    ensures loop < |all| && all[loop] == WriteFlashEncrypted(offset, image[64 * loop .. 64 * loop + n])
    ensures (if remaining < 64 then 0 else remaining - 64) == |image| - Min(64 * (loop + 1), |image|)
    ensures Chunks(Wrap32(offset as int + FLASH_DATA_MAX_LENGTH_UINT8), image[Min(64 * (loop + 1), |image|)..]) == all[loop + 1..]
  {
    RemainingStep(|image|, loop, remaining, n);
    ChunksAdvance(offset, image, all, loop, 64 * loop, n);
    assert image[64 * loop + n..] == image[Min(64 * (loop + 1), |image|)..];
  }

  /** The loop's next chunk is the next chunk of the reference split, and the split of the rest follows it. */
  lemma ChunksAdvance(offset: uint32, image: seq<uint32>, all: seq<Command>, loop: nat, lo: nat, n: nat)
    requires lo < |image| && n == Min(|image| - lo, FLASH_DATA_MAX_LENGTH_UINT32)
    requires loop <= |all| && Chunks(offset, image[lo..]) == all[loop..]
    ensures loop < |all| && all[loop] == WriteFlashEncrypted(offset, image[lo .. lo + n])
    ensures Chunks(Wrap32(offset as int + FLASH_DATA_MAX_LENGTH_UINT8), image[lo + n..]) == all[loop + 1..]
  {
    ChunkStep(offset, image, lo, n);
    assert all[loop..][0] == all[loop];
    assert all[loop..][1..] == all[loop + 1..];
  }

  lemma PrefixSnocCommand(all: seq<Command>, k: nat, sent: seq<Command>, chunk: Command)
    requires k < |all| && sent == all[..k] && chunk == all[k]
    ensures sent + [chunk] == all[..k + 1]
  {
  }

  /** One step of the reference split, at word `lo` of the image. */
  lemma ChunkStep(offset: uint32, image: seq<uint32>, lo: nat, n: nat)
    requires lo < |image| && n == Min(|image| - lo, FLASH_DATA_MAX_LENGTH_UINT32)
    ensures Chunks(offset, image[lo..]) ==
              [WriteFlashEncrypted(offset, image[lo .. lo + n])] + Chunks(Wrap32(offset as int + 256), image[lo + n..])
  {
    var tail := image[lo..];
    assert tail[..n] == image[lo .. lo + n];
    assert tail[n..] == image[lo + n..];
  }

  /** A failure with only successes before it is the first failure. */
  lemma FirstFailureAt(statuses: seq<Status>, k: nat)
    requires k < |statuses| && statuses[k] != Ok
    requires forall j :: 0 <= j < k ==> statuses[j] == Ok
    ensures FirstFailure(statuses, 0) == Some(k)
  {
    FirstFailureIsFirst(statuses, 0);
  }

  /** A loop stopped by the chip's first rejection reports it, having sent the chunks up to it. */
  lemma StopsAtFailure(all: seq<Command>, statuses: seq<Status>, loop: nat, sent: seq<Command>, st: Status)
    requires |statuses| == |all| && loop < |all| && sent == all[..loop + 1]
    requires st == statuses[loop] && st != Ok
    requires forall k :: 0 <= k < loop ==> statuses[k] == Ok
    ensures match FirstFailure(statuses, 0)
            case Some(k) => st == statuses[k] && sent == all[..k + 1]
            case None => st == Ok && sent == all
  {
    FirstFailureAt(statuses, loop);
  }

  /** A loop that ran out of words with every chunk accepted has sent the whole split. */
  lemma SentAll(all: seq<Command>, statuses: seq<Status>, loop: nat, sent: seq<Command>)
    requires |statuses| == |all| && loop <= |all| && all[loop..] == [] && sent == all[..loop]
    requires forall k :: 0 <= k < loop ==> statuses[k] == Ok
    ensures FirstFailure(statuses, 0) == None && sent == all
  {
    FirstFailureIsFirst(statuses, 0);
  }

  /** The chip's status for chunk `k`. */
  function Reply(replies: seq<Status>, k: int): Status {
    if 0 <= k < |replies| then replies[k] else Ok
  }

  /** The statuses of the first `n` chunks. */
  function Pad(replies: seq<Status>, n: nat): (s: seq<Status>)
    ensures |s| == n && forall k :: 0 <= k < n ==> s[k] == Reply(replies, k)
  {
    seq(n, k => Reply(replies, k))
  }
}

=== FILE: bridge.dfy ===
/**
  The UART-to-LoRa bridge. Bytes arriving on the serial line are collected in a
  buffer of `pl` bytes until a line end arrives or the buffer is full; the main
  loop then sends the collected string as a zero-padded radio frame, and the
  radio handlers switch between transmitting and listening.
*/
module Bridge {
  import opened Bytes
  import opened Irq

  const CR: byte := 13
  const LF: byte := 10

  /** Interrupts the bridge subscribes to (the same set as the packet-error-rate example). */
  const BRIDGE_IRQ_MASK: bv32 :=
    IRQ_TX_DONE | IRQ_RX_DONE | IRQ_TIMEOUT | IRQ_PREAMBLE_DETECTED | IRQ_HEADER_ERROR
    | IRQ_FSK_LEN_ERROR | IRQ_CRC_ERROR

  predicate IsLineEnd(b: byte) {
    b == CR || b == LF
  }

  function Zeros(n: nat): (z: seq<byte>)
    ensures |z| == n && forall i :: 0 <= i < n ==> z[i] == 0
  {
    seq(n, _ => 0)
  }

  // ---------------------------------------------------------------------------
  // Serial reception.

  /** The UART receive state: a `pl`-byte buffer, the `uint8_t` write index and the ready flag. */
  datatype Uart = Uart(rxBuffer: seq<byte>, rxIndex: nat, dataReady: bool)

  predicate UartValid(u: Uart, pl: nat) {
    1 <= pl <= 255 && |u.rxBuffer| == pl && u.rxIndex <= pl
  }

  function UartInit(pl: nat): (u: Uart)
    requires 1 <= pl <= 255
    ensures UartValid(u, pl)
  {
    Uart(Zeros(pl), 0, false)
  }

  /**
    One received byte: stored at the write index while there is room, marking
    the data ready on a line end or when the buffer becomes full; with no room
    left the byte is dropped and the data is marked ready.
  */
  function OnUartByte(u: Uart, pl: nat, data: byte): (r: Uart)
    requires UartValid(u, pl)
    ensures UartValid(r, pl)
    ensures u.rxIndex < pl ==>
              && r.rxBuffer == u.rxBuffer[u.rxIndex := data] && r.rxIndex == u.rxIndex + 1
              && (r.dataReady <==> u.dataReady || IsLineEnd(data) || r.rxIndex == pl)
    ensures u.rxIndex == pl ==> r == u.(dataReady := true)
  {
    if u.rxIndex < pl then
      var i := u.rxIndex + 1;
      Uart(u.rxBuffer[u.rxIndex := data], i, u.dataReady || data == CR || data == LF || i >= pl)
    else
      u.(dataReady := true)
  }

  /** A sequence of bytes received one after the other. */
  function Feed(u: Uart, pl: nat, bytes: seq<byte>): (r: Uart)
    requires UartValid(u, pl)
    ensures UartValid(r, pl)
  {
    if bytes == [] then u else OnUartByte(Feed(u, pl, bytes[..|bytes| - 1]), pl, bytes[|bytes| - 1])
  }

  /**
    Feeding a message of at most `pl` bytes to a buffer whose index is at the
    start stores the message in front of the previous contents, leaves the index
    after it, and marks it ready exactly when it holds a line end or fills the
    buffer.
  */
  lemma {:induction false} FeedStoresMessage(u: Uart, pl: nat, msg: seq<byte>)
    requires UartValid(u, pl) && u.rxIndex == 0
    requires |msg| <= pl
    ensures var r := Feed(u, pl, msg);
            && r.rxIndex == |msg|
            && r.rxBuffer[..|msg|] == msg
            && r.rxBuffer[|msg|..] == u.rxBuffer[|msg|..]
            && (r.dataReady <==>
                  u.dataReady || (exists i :: 0 <= i < |msg| && IsLineEnd(msg[i])) || |msg| == pl)
  {
    if msg != [] {
      var init := msg[..|msg| - 1];
      var last := msg[|msg| - 1];
      FeedStoresMessage(u, pl, init);
      var p := Feed(u, pl, init);
      var r := Feed(u, pl, msg);
      assert r == OnUartByte(p, pl, last);
      assert r.rxBuffer[..|msg|] == p.rxBuffer[..|init|] + [last];
      assert r.rxBuffer[|msg|..] == p.rxBuffer[|msg|..];
      LineEndSnoc(msg, init, last);
    }
  }

  /** A message holds a line end when its last byte is one or the bytes before it hold one. */
  lemma LineEndSnoc(msg: seq<byte>, init: seq<byte>, last: byte)
    requires msg == init + [last]
    ensures (exists i :: 0 <= i < |msg| && IsLineEnd(msg[i]))
            <==> (exists i :: 0 <= i < |init| && IsLineEnd(init[i])) || IsLineEnd(last)
  {
    if exists i :: 0 <= i < |msg| && IsLineEnd(msg[i]) {
      var i :| 0 <= i < |msg| && IsLineEnd(msg[i]);
      if i < |init| {
        assert init[i] == msg[i];
      }
    }
    if exists i :: 0 <= i < |init| && IsLineEnd(init[i]) {
      var i :| 0 <= i < |init| && IsLineEnd(init[i]);
      assert msg[i] == init[i];
    }
    if IsLineEnd(last) {
      assert msg[|msg| - 1] == last;
    }
  }

  // ---------------------------------------------------------------------------
  // Building the radio frame.

  /** `strlen`: the index of the first zero byte, or nothing when the array holds none. */
  function StrLen(s: seq<byte>): (r: Option<nat>)
    ensures r.Some? ==> r.value < |s| && s[r.value] == 0 && forall i :: 0 <= i < r.value ==> s[i] != 0
    ensures r.None? ==> forall i :: 0 <= i < |s| ==> s[i] != 0
  {
    if s == [] then None
    else if s[0] == 0 then Some(0)
    else match StrLen(s[1..])
      case None => None
      case Some(n) => Some(n + 1)
  }

  /** The transmitted frame: the first `length` bytes of the string, then zeros up to `pl` bytes. */
  function Frame(str: seq<byte>, length: nat, pl: nat): (f: seq<byte>)
    requires length <= pl && length <= |str|
    ensures |f| == pl && f[..length] == str[..length]
    ensures forall i :: length <= i < pl ==> f[i] == 0
  {
    str[..length] + Zeros(pl - length)
  }

  /** A frame built from a message without zero bytes gives the message back through `strlen`. */
  lemma FrameRecoversMessage(msg: seq<byte>, pl: nat)
    requires |msg| < pl
    requires forall i :: 0 <= i < |msg| ==> msg[i] != 0
    ensures StrLen(Frame(msg, |msg|, pl)) == Some(|msg|)
  {
    var f := Frame(msg, |msg|, pl);
    assert f[|msg|] == 0;
    assert forall i :: 0 <= i < |msg| ==> f[i] == msg[i];
  }

  /**
    The string sender as written: the length is `strlen` of the UART buffer
    (stored in a `uint8_t`, capped at `pl`). The buffer is never cleared and no
    terminator is written after a message, so the length covers whatever stale
    bytes follow. With no zero byte in the array `strlen` reads past its end;
    the C code still transmits, but what it sends is undefined, so the model
    gives `None` there rather than a frame.
  */
  function SendStringAsWritten(str: seq<byte>, pl: nat): (f: Option<seq<byte>>)
    requires 1 <= pl <= 255 && |str| == pl
    ensures f.None? <==> StrLen(str).None?
    ensures f.Some? ==> Frame(str, StrLen(str).value, pl) == f.value
  {
    match StrLen(str)
    case None => None
    case Some(n) =>
      assert Wrap8(n) as int == n;
      var length := if Wrap8(n) as int > pl then pl else Wrap8(n) as int;
      Some(Frame(str, length, pl))
  }

  /** The message sender as evidently intended: exactly the bytes of the current message are sent. */
  function SendMessage(u: Uart, pl: nat): (f: seq<byte>)
    requires UartValid(u, pl)
    ensures |f| == pl && f[..u.rxIndex] == u.rxBuffer[..u.rxIndex]
    ensures forall i :: u.rxIndex <= i < pl ==> f[i] == 0
  {
    Frame(u.rxBuffer, u.rxIndex, pl)
  }

  /** The main loop's check: when data is ready, send it, then reset the index and flag (not the buffer). */
  function Consume(u: Uart, pl: nat): (r: (Uart, Option<seq<byte>>))
    requires UartValid(u, pl)
    ensures UartValid(r.0, pl)
    ensures !u.dataReady ==> r == (u, None)
    ensures u.dataReady ==>
              && r.0 == Uart(u.rxBuffer, 0, false)
              && r.1 == Some(SendMessage(u, pl))
  {
    if u.dataReady then (Uart(u.rxBuffer, 0, false), Some(SendMessage(u, pl))) else (u, None)
  }

  /** The same step with the string sender as written. */
  function ConsumeAsWritten(u: Uart, pl: nat): (r: (Uart, Option<Option<seq<byte>>>))
    requires UartValid(u, pl)
    ensures !u.dataReady ==> r == (u, None)
    ensures u.dataReady ==> r.0 == Uart(u.rxBuffer, 0, false) && r.1 == Some(SendStringAsWritten(u.rxBuffer, pl))
  {
    if u.dataReady then (Uart(u.rxBuffer, 0, false), Some(SendStringAsWritten(u.rxBuffer, pl))) else (u, None)
  }

  /**
    A typed line reaches the air unchanged: from any buffer contents, a message
    that ends in a line end (or fills the buffer) is transmitted as exactly its
    bytes followed by zero padding.
  */
  lemma LineIsTransmitted(u: Uart, pl: nat, msg: seq<byte>)
    requires UartValid(u, pl) && u.rxIndex == 0 && !u.dataReady
    requires 0 < |msg| <= pl
    requires IsLineEnd(msg[|msg| - 1]) || |msg| == pl
    ensures Consume(Feed(u, pl, msg), pl).1 == Some(msg + Zeros(pl - |msg|))
  {
    FeedStoresMessage(u, pl, msg);
  }

  /** Sending "hello\n" from a fresh buffer leaves it in the buffer after the index is reset. */
  lemma LineStaysInBuffer()
    ensures Consume(Feed(UartInit(8), 8, [104, 101, 108, 108, 111, 10]), 8).0
            == Uart([104, 101, 108, 108, 111, 10, 0, 0], 0, false)
  {
    var msg: seq<byte> := [104, 101, 108, 108, 111, 10];
    FeedStoresMessage(UartInit(8), 8, msg);
    var u := Feed(UartInit(8), 8, msg);
    assert u.rxBuffer == u.rxBuffer[..6] + u.rxBuffer[6..];
    assert u.dataReady by {
      assert IsLineEnd(msg[5]);
    }
  }

  /**
    As written, a shorter line after a longer one is sent with the longer
    line's tail: with "hello\n" left in the buffer, "hi\n" goes out as "hi\nlo\n".
  */
  lemma StaleTailIsTransmitted()
    ensures ConsumeAsWritten(Feed(Uart([104, 101, 108, 108, 111, 10, 0, 0], 0, false), 8, [104, 105, 10]), 8).1
            == Some(Some([104, 105, 10, 108, 111, 10, 0, 0]))
  {
    var msg: seq<byte> := [104, 105, 10];
    var start := Uart([104, 101, 108, 108, 111, 10, 0, 0], 0, false);
    var stale: seq<byte> := [104, 105, 10, 108, 111, 10, 0, 0];
    FeedOverwritesFront(start, 8, msg);
    assert msg + start.rxBuffer[3..] == stale;
    assert IsLineEnd(msg[2]);
    StaleStringIsSentWhole(stale);
  }

  /** A fed message overwrites the front of the buffer and keeps the rest. */
  lemma FeedOverwritesFront(u: Uart, pl: nat, msg: seq<byte>)
    requires UartValid(u, pl) && u.rxIndex == 0 && |msg| <= pl
    ensures Feed(u, pl, msg).rxBuffer == msg + u.rxBuffer[|msg|..]
    ensures (exists i :: 0 <= i < |msg| && IsLineEnd(msg[i])) ==> Feed(u, pl, msg).dataReady
  {
    FeedStoresMessage(u, pl, msg);
    var r := Feed(u, pl, msg);
    assert r.rxBuffer == r.rxBuffer[..|msg|] + r.rxBuffer[|msg|..];
  }

  /** The buffer left by "hi\n" over "hello\n" goes out whole, up to its first zero. */
  lemma StaleStringIsSentWhole(stale: seq<byte>)
    requires stale == [104, 105, 10, 108, 111, 10, 0, 0]
    ensures SendStringAsWritten(stale, 8) == Some(stale)
  {
    assert forall i :: 0 <= i < 6 ==> stale[i] != 0;
    assert stale[6] == 0;
    assert Frame(stale, 6, 8) == stale;
  }

  /** As written, a line that fills the buffer leaves no terminator for `strlen` to find. */
  lemma FullLineOverrunsBuffer()
    ensures ConsumeAsWritten(Feed(UartInit(8), 8, [97, 97, 97, 97, 97, 97, 97, 97]), 8).1 == Some(None)
  {
    var full: seq<byte> := [97, 97, 97, 97, 97, 97, 97, 97];
    FeedStoresMessage(UartInit(8), 8, full);
    var u := Feed(UartInit(8), 8, full);
    assert u.rxBuffer == full by {
      assert u.rxBuffer == u.rxBuffer[..8];
    }
  }

  // ---------------------------------------------------------------------------
  // Radio handlers.

  /** What the bridge prints for a received packet: `size` bytes read from the `pl`-byte buffer. */
  function PrintedAsWritten(buffer: seq<byte>, pl: nat, payload: seq<byte>): (r: Option<seq<byte>>)
    requires 1 <= pl <= 255 && |buffer| == pl && |payload| < 256
    ensures r.None? <==> |payload| > pl
    ensures r.Some? ==> r.value == payload
  {
    var rx := Receive(buffer, pl as byte, payload);
    if rx.size as int > pl then None else Some(rx.buffer[..rx.size])
  }

  /**
    An oversize packet makes the print loop index past the buffer: a packet of
    `pl + 1` bytes is reported here as an out-of-bounds read.
  */
  lemma OversizePacketReadsPastBuffer()
    ensures PrintedAsWritten([0, 0, 0, 0], 4, [1, 2, 3, 4, 5]).None?
  {
  }

  /** The print as evidently intended: the received bytes, or nothing when none were copied. */
  function Printed(buffer: seq<byte>, pl: nat, payload: seq<byte>): (r: seq<byte>)
    requires 1 <= pl <= 255 && |buffer| == pl && |payload| < 256
    ensures |payload| <= pl ==> r == payload
    ensures |payload| > pl ==> r == []
    ensures |r| <= pl
  {
    var rx := Receive(buffer, pl as byte, payload);
    if rx.size as int > pl then [] else rx.buffer[..rx.size]
  }

  /**
    The bridge's handlers: TX done and RX timeout listen again, RX done only
    prints and stays idle until the next line is sent, and CRC and length
    errors only print.
  */
  function BridgeHandle(c: Callback, rxTimeout: uint32): (cmd: Option<RadioCommand>)
    ensures cmd.Some? <==> c == TxDone || c == RxTimeout
    ensures cmd.Some? ==> cmd.value == SetRx(rxTimeout)
  {
    match c
    case TxDone => Some(SetRx(rxTimeout))
    case RxTimeout => Some(SetRx(rxTimeout))
    case _ => None
  }

  function BridgeRun(cbs: seq<Callback>, rxTimeout: uint32): (cmds: seq<RadioCommand>)
    ensures forall cmd :: cmd in cmds ==> cmd == SetRx(rxTimeout)
    ensures cmds != [] <==> exists i :: 0 <= i < |cbs| && (cbs[i] == TxDone || cbs[i] == RxTimeout)
  {
    if cbs == [] then []
    else
      assert forall i :: 1 <= i < |cbs| ==> cbs[i] == cbs[1..][i - 1];
      (match BridgeHandle(cbs[0], rxTimeout) case Some(cmd) => [cmd] case None => [])
      + BridgeRun(cbs[1..], rxTimeout)
  }

  /**
    A pass listens again exactly when the status reports a finished
    transmission or a reception timeout; a received packet, even a corrupted
    one, leaves the radio idle.
  */
  lemma BridgePassListens(regs: bv32, rxTimeout: uint32)
    ensures var cmds := BridgeRun(Dispatch(regs, BRIDGE_IRQ_MASK), rxTimeout);
            cmds != [] <==> Has(regs & BRIDGE_IRQ_MASK, IRQ_TX_DONE) || Has(regs & BRIDGE_IRQ_MASK, IRQ_TIMEOUT)
  {
    var f := regs & BRIDGE_IRQ_MASK;
    var cbs := Dispatch(regs, BRIDGE_IRQ_MASK);
    if Has(f, IRQ_TX_DONE) {
      assert TxDone in cbs;
    } else if Has(f, IRQ_TIMEOUT) {
      assert RxTimeout in cbs;
    } else {
      forall i | 0 <= i < |cbs| ensures cbs[i] != TxDone && cbs[i] != RxTimeout {
        assert cbs[i] in cbs;
      }
    }
  }
}

=== FILE: bytes.dfy ===
/**
  Byte-level helpers shared by every component: an optional value, big-endian
  serialisation of 16- and 32-bit words, and the `%02X` hexadecimal rendering
  used by the debug formatters.
*/
module Bytes {

  /** A value that may be absent (a C out-parameter that is not written, a NULL pointer). */
  datatype Option<T> = None | Some(value: T)

  /** C's `uint8_t`, `uint16_t` and `uint32_t`, as integer ranges. */
  newtype byte = x: int | 0 <= x < 0x100
  newtype uint16 = x: int | 0 <= x < 0x1_0000
  newtype uint32 = x: int | 0 <= x < 0x1_0000_0000

  /** Conversion to an unsigned C type: reduction modulo 2^8, 2^16 or 2^32. */
  function Wrap8(n: int): byte { (n % 0x100) as byte }
  function Wrap16(n: int): uint16 { (n % 0x1_0000) as uint16 }
  function Wrap32(n: int): uint32 { (n % 0x1_0000_0000) as uint32 }

  /** Most significant byte first: the order in which the radio expects multi-byte fields. */
  function Be16(x: uint16): (r: seq<byte>)
    ensures |r| == 2
    ensures r[0] as int * 0x100 + r[1] as int == x as int
  {
    [(x / 0x100) as byte, (x % 0x100) as byte]
  }

  function FromBe16(b0: byte, b1: byte): (x: uint16)
    ensures Be16(x) == [b0, b1]
  {
    (b0 as int * 0x100 + b1 as int) as uint16
  }

  lemma Be16RoundTrip(x: uint16)
    ensures FromBe16(Be16(x)[0], Be16(x)[1]) == x
  {
  }

  function Be32(x: uint32): (r: seq<byte>)
    ensures |r| == 4
    ensures r[0] as int == x as int / 0x100_0000 && r[3] as int == x as int % 0x100
  {
    [(x / 0x100_0000) as byte, (x / 0x1_0000 % 0x100) as byte, (x / 0x100 % 0x100) as byte, (x % 0x100) as byte]
  }

  function FromBe32(b: seq<byte>): uint32
    requires |b| == 4
  {
    (((b[0] as int * 0x100 + b[1] as int) * 0x100 + b[2] as int) * 0x100 + b[3] as int) as uint32
  }

  /** Euclidean division by 256, in both directions. */
  lemma DivMod256(n: int, q: int, r: int)
    requires 0 <= r < 0x100
    ensures n == q * 0x100 + r <==> n / 0x100 == q && n % 0x100 == r
  {
  }

  /** The three right shifts of a big-endian word, as repeated division by 256. */
  lemma Shifts(n: int, q1: int, q2: int, q3: int)
    requires 0 <= n && q1 == n / 0x100 && q2 == q1 / 0x100 && q3 == q2 / 0x100
    ensures n / 0x1_0000 == q2 && n / 0x100_0000 == q3
  {
    DivMod256(n, q1, n % 0x100);
    DivMod256(q1, q2, q1 % 0x100);
    DivMod256(q2, q3, q2 % 0x100);
    assert n == q2 * 0x1_0000 + (q1 % 0x100) * 0x100 + n % 0x100;
    assert n == q3 * 0x100_0000 + ((q2 % 0x100) * 0x100 + q1 % 0x100) * 0x100 + n % 0x100;
  }

  /** Reading back the four bytes gives the word that was written. */
  lemma Be32RoundTrip(x: uint32)
    ensures FromBe32(Be32(x)) == x
  {
    var n := x as int;
    var q1 := n / 0x100;
    var q2 := q1 / 0x100;
    var q3 := q2 / 0x100;
    Shifts(n, q1, q2, q3);
    DivMod256(n, q1, n % 0x100);
    DivMod256(q1, q2, q1 % 0x100);
    DivMod256(q2, q3, q2 % 0x100);
    assert Be32(x) == [q3 as byte, (q2 % 0x100) as byte, (q1 % 0x100) as byte, (n % 0x100) as byte];
  }

  /** Writing back a decoded word gives the four bytes that were read. */
  lemma FromBe32RoundTrip(b: seq<byte>)
    requires |b| == 4
    ensures Be32(FromBe32(b)) == b
  {
    var h2 := b[0] as int * 0x100 + b[1] as int;
    var h3 := h2 * 0x100 + b[2] as int;
    var n := h3 * 0x100 + b[3] as int;
    assert FromBe32(b) as int == n;
    DivMod256(n, h3, b[3] as int);
    DivMod256(h3, h2, b[2] as int);
    DivMod256(h2, b[0] as int, b[1] as int);
    Shifts(n, h3, h2, b[0] as int);
    assert Be32(FromBe32(b)) == [b[0], b[1], b[2], b[3]];
  }

  /** The digits `%X` prints, by value. */
  const HexChars: string := "0123456789ABCDEF"

  /** Value of an upper-case hexadecimal digit. */
  function DigitValue(c: char): Option<nat> {
    if '0' <= c <= '9' then Some(c as int - '0' as int)
    else if 'A' <= c <= 'F' then Some(c as int - 'A' as int + 10)
    else None
  }

  /** Upper-case hexadecimal digit of a nibble, as `%X` prints it. */
  function HexDigit(n: nat): (c: char)
    requires n < 16
    ensures DigitValue(c) == Some(n)
  {
    HexChars[n]
  }

  /** `%02X` of one byte: exactly two upper-case digits, high nibble first. */
  function Hex2(b: byte): (s: string)
    ensures |s| == 2
    ensures DigitValue(s[0]) == Some(b as int / 16) && DigitValue(s[1]) == Some(b as int % 16)
  {
    [HexDigit(b as int / 16), HexDigit(b as int % 16)]
  }

  function ParseHex2(s: string): Option<byte>
    requires |s| == 2
  {
    match (DigitValue(s[0]), DigitValue(s[1]))
    case (Some(hi), Some(lo)) => if hi < 16 && lo < 16 then Some((hi * 16 + lo) as byte) else None
    case _ => None
  }

  /** The two printed digits identify the byte: `%02X` loses nothing. */
  lemma Hex2RoundTrip(b: byte)
    ensures ParseHex2(Hex2(b)) == Some(b)
  {
    var s := Hex2(b);
    var n := b as int;
    assert (n / 16) * 16 + n % 16 == n;
  }

  lemma Hex2Injective(a: byte, b: byte)
    ensures Hex2(a) == Hex2(b) ==> a == b
  {
    Hex2RoundTrip(a);
    Hex2RoundTrip(b);
  }
}

=== FILE: dht.dfy ===
/**
  The DHT11 temperature and humidity sensor driver. The data line is modelled
  as the sequence of values the driver's successive pin reads return; the
  microsecond delays between reads are not modelled. Past the end of the
  sequence the line reads high, the level of the idle bus with its pull-up.
*/
module Dht {
  import opened Bytes

  /** Polls a wait loop makes before it gives up. */
  const WAIT_LIMIT: nat := 100

  /** The value of the `k`-th pin read. */
  function Sample(line: seq<bool>, k: nat): bool {
    if k < |line| then line[k] else true
  }

  /**
    A wait loop `while (pin == level && timeout < 100)`, entered with `t` polls
    already counted. The pin is read before the counter is compared, so the loop
    always consumes one read more than it counts. Returns the position after
    the last read and the final count.
  */
  function WaitFrom(line: seq<bool>, pos: nat, level: bool, t: nat): (r: (nat, nat))
    requires t <= WAIT_LIMIT
    ensures t <= r.1 <= WAIT_LIMIT && r.0 == pos + (r.1 - t) + 1
    decreases WAIT_LIMIT - t
  {
    if Sample(line, pos) == level && t < WAIT_LIMIT then WaitFrom(line, pos + 1, level, t + 1)
    else (pos + 1, t)
  }

  function Wait(line: seq<bool>, pos: nat, level: bool): (r: (nat, nat))
    ensures r.1 <= WAIT_LIMIT && r.0 == pos + r.1 + 1
  {
    WaitFrom(line, pos, level, 0)
  }

  /** Every counted poll saw `level`, and a wait that stops early stops on a read that did not. */
  lemma {:induction false} WaitFromReads(line: seq<bool>, pos: nat, level: bool, t: nat)
    requires t <= WAIT_LIMIT
    ensures var r := WaitFrom(line, pos, level, t);
            && (forall k :: pos <= k < r.0 - 1 ==> Sample(line, k) == level)
            && (r.1 < WAIT_LIMIT ==> Sample(line, r.0 - 1) != level)
    decreases WAIT_LIMIT - t
  {
    if Sample(line, pos) == level && t < WAIT_LIMIT {
      WaitFromReads(line, pos + 1, level, t + 1);
    }
  }

  /** A wait times out exactly when the line holds `level` for 100 consecutive reads. */
  lemma WaitTimesOut(line: seq<bool>, pos: nat, level: bool)
    ensures Wait(line, pos, level).1 == WAIT_LIMIT <==> forall k :: pos <= k < pos + WAIT_LIMIT ==> Sample(line, k) == level
  {
    WaitFromReads(line, pos, level, 0);
    var r := Wait(line, pos, level);
    if r.1 < WAIT_LIMIT {
      assert Sample(line, pos + r.1) != level;
    }
  }

  /** Most pin reads one bit takes: two full waits and the read of the bit between them. */
  const BIT_READS: nat := 2 * (WAIT_LIMIT + 1) + 1

  /** One bit: the sampled value, or nothing when a wait timed out; and the position after the reads. */
  datatype BitRead = BitRead(bit: Option<bool>, pos: nat)

  /**
    One pass of the bit loop: wait for the end of the low phase, sample the
    line (high is a 1), and wait for the end of the high phase.
  */
  function ReadBit(line: seq<bool>, pos: nat): (r: BitRead)
    ensures pos < r.pos <= pos + BIT_READS
    ensures r.bit.None? <==>
              Wait(line, pos, false).1 == WAIT_LIMIT || Wait(line, Wait(line, pos, false).0 + 1, true).1 == WAIT_LIMIT
  {
    var low := Wait(line, pos, false);
    if low.1 >= WAIT_LIMIT then BitRead(None, low.0)
    else
      var bit := Sample(line, low.0);
      var high := Wait(line, low.0 + 1, true);
      if high.1 >= WAIT_LIMIT then BitRead(None, high.0)
      else BitRead(Some(bit), high.0)
  }

  /** `ReadBit` on a given line, as a value: the step the byte loop repeats. */
  function Reader(line: seq<bool>): nat -> BitRead {
    (p: nat) => ReadBit(line, p)
  }

  /**
    Some bit from the `i`-th on has a wait that times out, every bit before it
    having been read.
  */
  predicate TimedOut(read: nat -> BitRead, pos: nat, i: nat)
    decreases 8 - i
  {
    i < 8 && (read(pos).bit.None? || TimedOut(read, read(pos).pos, i + 1))
  }

  /**
    The remaining `8 - i` bits of `DHT_Read_Byte`, with the byte assembled so
    far in `acc` and `read` reading one bit: each sampled bit is shifted in as
    the least significant bit; a timed-out wait in any remaining bit makes the
    whole byte 0, whatever was assembled before it.
  */
  function ReadBits(read: nat -> BitRead, pos: nat, acc: byte, i: nat): (r: (byte, nat))
    requires i <= 8
    ensures TimedOut(read, pos, i) ==> r.0 == 0
    decreases 8 - i
  {
    if i == 8 then (acc, pos)
    else
      var b := read(pos);
      match b.bit
      case None => (0, b.pos)
      case Some(bit) => ReadBits(read, b.pos, Wrap8(acc as int * 2 + (if bit then 1 else 0)), i + 1)
  }

  /** Each remaining bit read advances, and by no more than `BIT_READS`. */
  lemma {:induction false} ReadBitsBounded(line: seq<bool>, pos: nat, acc: byte, i: nat)
    requires i < 8
    ensures var r := ReadBits(Reader(line), pos, acc, i);
            pos < r.1 <= pos + (8 - i) * BIT_READS
    decreases 8 - i
  {
    var b := ReadBit(line, pos);
    assert Reader(line)(pos) == b;
    var r := ReadBits(Reader(line), pos, acc, i);
    assert (8 - i) * BIT_READS == BIT_READS + (8 - (i + 1)) * BIT_READS;
    if b.bit.Some? {
      var next := Wrap8(acc as int * 2 + (if b.bit.value then 1 else 0));
      assert r == ReadBits(Reader(line), b.pos, next, i + 1);
      if i + 1 < 8 {
        ReadBitsBounded(line, b.pos, next, i + 1);
      }
    }
  }

  /**
    `DHT_Read_Byte`: the byte and the position after the reads it made. It
    returns 0 as soon as either wait of any of its eight bits reaches 100 polls.
  */
  function ReadByte(line: seq<bool>, pos: nat): (r: (byte, nat))
    ensures TimedOut(Reader(line), pos, 0) ==> r.0 == 0
  {
    ReadBits(Reader(line), pos, 0, 0)
  }

  /**
    Every wait gives up after 100 polls, so a byte read always ends, after at
    most eight bit reads.
  */
  lemma ReadByteBounded(line: seq<bool>, pos: nat)
    ensures pos < ReadByte(line, pos).1 <= pos + 8 * BIT_READS
  {
    ReadBitsBounded(line, pos, 0, 0);
    assert ReadByte(line, pos).1 == ReadBits(Reader(line), pos, 0, 0).1;
  }

  /** A first low phase lasting 100 polls gives 0, whatever follows. */
  lemma StuckLowReadsZero(line: seq<bool>, pos: nat)
    requires forall k :: pos <= k < pos + WAIT_LIMIT ==> !Sample(line, k)
    ensures ReadByte(line, pos).0 == 0
  {
    WaitTimesOut(line, pos, false);
  }

  /**
    A line that stays high, as the pulled-up bus does with no sensor answering,
    gives 0: the first bit's high phase never ends.
  */
  lemma SilentLineReadsZero(line: seq<bool>, pos: nat)
    requires forall k :: pos <= k < pos + WAIT_LIMIT + 2 ==> Sample(line, k)
    ensures ReadByte(line, pos).0 == 0
  {
    assert Wait(line, pos, false) == (pos + 1, 0);
    WaitTimesOut(line, pos + 2, true);
    assert ReadBit(line, pos).bit == None;
  }

  // ---------------------------------------------------------------------------
  // The waveform a sensor sends, as the driver samples it.

  function Repeat(b: bool, n: nat): (s: seq<bool>)
    ensures |s| == n && forall k :: 0 <= k < n ==> s[k] == b
  {
    seq(n, _ => b)
  }

  /**
    One bit: `low` low samples, the first high sample ending the low wait, the
    sample that carries the bit, then for a 1 another `high` high samples, and
    the low sample that ends the high wait.
  */
  function BitWave(b: bool, low: nat, high: nat): seq<bool> {
    Repeat(false, low) + [true, b] + (if b then Repeat(true, high) else []) + [false]
  }

  /** How long the phases of one bit last: `low` polls low, then `high` polls high for a 1. */
  datatype Timing = Timing(low: nat, high: nat)

  /** Every phase ends before the driver's poll limit. */
  predicate WithinLimit(ts: seq<Timing>) {
    forall k :: 0 <= k < |ts| ==> ts[k].low < WAIT_LIMIT && ts[k].high < WAIT_LIMIT
  }

  /** The bits in order, each sent with its own timing (as many bits as there are timings). */
  function Wave(bits: seq<bool>, ts: seq<Timing>): seq<bool> {
    if bits == [] || ts == [] then [] else BitWave(bits[0], ts[0].low, ts[0].high) + Wave(bits[1..], ts[1..])
  }

  /** The eight bits of a byte, most significant first. */
  function ToBits(v: nat, n: nat): (bs: seq<bool>)
    ensures |bs| == n
  {
    if n == 0 then [] else ToBits(v / 2, n - 1) + [v % 2 == 1]
  }

  /** Shifting bits in one at a time, as the driver does. */
  function Combine(acc: byte, bits: seq<bool>): byte
    decreases |bits|
  {
    if bits == [] then acc else Combine(Wrap8(acc as int * 2 + (if bits[0] then 1 else 0)), bits[1..])
  }

  lemma {:induction false} CombineSnoc(acc: byte, bits: seq<bool>, b: bool)
    ensures Combine(acc, bits + [b]) == Wrap8(Combine(acc, bits) as int * 2 + (if b then 1 else 0))
    decreases |bits|
  {
    if bits != [] {
      assert (bits + [b])[1..] == bits[1..] + [b];
      CombineSnoc(Wrap8(acc as int * 2 + (if bits[0] then 1 else 0)), bits[1..], b);
    }
  }

  function Pow2(n: nat): (p: nat)
    ensures p >= 1
  {
    if n == 0 then 1 else 2 * Pow2(n - 1)
  }

  lemma Pow2Eight()
    ensures Pow2(8) == 256
  {
  }

  /** Shifting in the bits of a value that fits gives the value back. */
  lemma {:induction false} CombineToBits(v: nat, n: nat)
    requires v < Pow2(n) && v < 256
    ensures Combine(0, ToBits(v, n)) as int == v
  {
    if n > 0 {
      assert v / 2 < Pow2(n - 1);
      CombineToBits(v / 2, n - 1);
      CombineSnoc(0, ToBits(v / 2, n - 1), v % 2 == 1);
      assert (v / 2) * 2 + (if v % 2 == 1 then 1 else 0) == v;
    }
  }

  /** Waiting through a run of `n` samples at `level` ends on the first sample that differs. */
  lemma {:induction false} WaitThroughRun(line: seq<bool>, pos: nat, level: bool, n: nat, t: nat)
    requires t + n < WAIT_LIMIT
    requires forall k :: pos <= k < pos + n ==> Sample(line, k) == level
    requires Sample(line, pos + n) != level
    ensures WaitFrom(line, pos, level, t) == (pos + n + 1, t + n)
    decreases n
  {
    if n > 0 {
      WaitThroughRun(line, pos + 1, level, n - 1, t + 1);
    }
  }

  /** The line carries the samples `w` from position `pos` on. */
  predicate At(line: seq<bool>, pos: nat, w: seq<bool>) {
    forall k :: 0 <= k < |w| ==> Sample(line, pos + k) == w[k]
  }

  lemma AtSplit(line: seq<bool>, pos: nat, w: seq<bool>, w1: seq<bool>, w2: seq<bool>)
    requires w == w1 + w2 && At(line, pos, w)
    ensures At(line, pos, w1) && At(line, pos + |w1|, w2)
  {
    assert forall k :: 0 <= k < |w1| ==> w[k] == w1[k];
    assert forall k :: 0 <= k < |w2| ==> w[|w1| + k] == w2[k];
    forall k | 0 <= k < |w2| ensures Sample(line, pos + |w1| + k) == w2[k] {
      assert Sample(line, pos + (|w1| + k)) == w[|w1| + k];
    }
  }

  /** A line made of `a` then `b` carries `a` from the start and `b` right after it. */
  lemma AtConcat(a: seq<bool>, b: seq<bool>)
    ensures At(a + b, 0, a) && At(a + b, |a|, b)
  {
    var line := a + b;
    assert At(line, 0, line) by {
      forall k | 0 <= k < |line| ensures Sample(line, 0 + k) == line[k] { }
    }
    AtSplit(line, 0, line, a, b);
  }

  /** The shape of a bit wave, sample by sample. */
  lemma BitWaveShape(b: bool, low: nat, high: nat)
    ensures var w := BitWave(b, low, high);
            var h := if b then high else 0;
            && |w| == low + 3 + h
            && (forall k :: 0 <= k < low ==> !w[k])
            && w[low] && w[low + 1] == b
            && (forall k :: low + 2 <= k < low + 2 + h ==> w[k])
            && !w[low + 2 + h]
  {
  }

  /** The low phase of a bit wave: the first wait ends on the high sample after `low` polls. */
  lemma LowPhase(line: seq<bool>, pos: nat, b: bool, low: nat, high: nat)
    requires low < WAIT_LIMIT
    requires At(line, pos, BitWave(b, low, high))
    ensures Wait(line, pos, false) == (pos + low + 1, low)
    ensures Sample(line, pos + low + 1) == b
  {
    var w := BitWave(b, low, high);
    BitWaveShape(b, low, high);
    forall k | pos <= k < pos + low ensures !Sample(line, k) {
      assert Sample(line, pos + (k - pos)) == w[k - pos];
    }
    assert Sample(line, pos + low) == w[low];
    WaitThroughRun(line, pos, false, low, 0);
    assert Sample(line, pos + (low + 1)) == w[low + 1];
  }

  /** The high phase of a bit wave: the second wait ends after the bit's high samples. */
  lemma HighPhase(line: seq<bool>, pos: nat, b: bool, low: nat, high: nat)
    requires high < WAIT_LIMIT
    requires At(line, pos, BitWave(b, low, high))
    ensures var h := if b then high else 0;
            Wait(line, pos + low + 2, true) == (pos + low + 2 + h + 1, h)
  {
    var w := BitWave(b, low, high);
    var h := if b then high else 0;
    BitWaveShape(b, low, high);
    forall k | pos + low + 2 <= k < pos + low + 2 + h ensures Sample(line, k) {
      assert Sample(line, pos + (k - pos)) == w[k - pos];
    }
    assert Sample(line, pos + (low + 2 + h)) == w[low + 2 + h];
    WaitThroughRun(line, pos + low + 2, true, h, 0);
  }

  /** Reading one bit wave shifts in its bit and ends right after it. */
  lemma ReadOneBit(line: seq<bool>, pos: nat, b: bool, low: nat, high: nat)
    requires low < WAIT_LIMIT && high < WAIT_LIMIT
    requires At(line, pos, BitWave(b, low, high))
    ensures ReadBit(line, pos) == BitRead(Some(b), pos + |BitWave(b, low, high)|)
  {
    BitWaveShape(b, low, high);
    LowPhase(line, pos, b, low, high);
    HighPhase(line, pos, b, low, high);
  }

  /** `read` decodes every bit wave below the poll limit found on `line`, ending right after it. */
  ghost predicate ReadsBitWaves(read: nat -> BitRead, line: seq<bool>) {
    forall q: nat, b: bool, low: nat, high: nat {:trigger At(line, q, BitWave(b, low, high))} ::
      low < WAIT_LIMIT && high < WAIT_LIMIT && At(line, q, BitWave(b, low, high)) ==>
        read(q) == BitRead(Some(b), q + |BitWave(b, low, high)|)
  }

  /** Reading the wave of the remaining bits shifts them all in and ends right after the wave. */
  lemma {:induction false} ReadWave(read: nat -> BitRead, line: seq<bool>, pos: nat, bits: seq<bool>, ts: seq<Timing>, acc: byte, i: nat)
    requires i + |bits| == 8 && |ts| == |bits| && WithinLimit(ts) && ReadsBitWaves(read, line)
    requires At(line, pos, Wave(bits, ts))
    ensures ReadBits(read, pos, acc, i).0 == Combine(acc, bits)
    ensures ReadBits(read, pos, acc, i).1 == pos + |Wave(bits, ts)|
    decreases |bits|
  {
    if bits != [] {
      var w1 := BitWave(bits[0], ts[0].low, ts[0].high);
      var ws := Wave(bits[1..], ts[1..]);
      assert Wave(bits, ts) == w1 + ws;
      AtSplit(line, pos, Wave(bits, ts), w1, ws);
      assert ts[0].low < WAIT_LIMIT && ts[0].high < WAIT_LIMIT;
      assert read(pos) == BitRead(Some(bits[0]), pos + |w1|);
      assert WithinLimit(ts[1..]) by {
        forall k | 0 <= k < |ts[1..]| ensures ts[1..][k].low < WAIT_LIMIT && ts[1..][k].high < WAIT_LIMIT {
          assert ts[1..][k] == ts[k + 1];
        }
      }
      ReadWave(read, line, pos + |w1|, bits[1..], ts[1..], Wrap8(acc as int * 2 + (if bits[0] then 1 else 0)), i + 1);
    } else {
      assert Wave(bits, ts) == [];
    }
  }

  /** The driver's bit reader decodes every bit wave, whatever the phase lengths below the poll limit. */
  lemma ReaderReadsBitWaves(line: seq<bool>)
    ensures ReadsBitWaves(Reader(line), line)
  {
    forall q: nat, b: bool, low: nat, high: nat | low < WAIT_LIMIT && high < WAIT_LIMIT && At(line, q, BitWave(b, low, high))
      ensures Reader(line)(q) == BitRead(Some(b), q + |BitWave(b, low, high)|)
    {
      ReadOneBit(line, q, b, low, high);
    }
  }

  /** The waveform of a byte, most significant bit first, each bit with its own timing. */
  function ByteWave(v: byte, ts: seq<Timing>): seq<bool> {
    Wave(ToBits(v as int, 8), ts)
  }

  /**
    The decoder inverts the sensor's encoding: whatever the length of each
    phase of each bit (below the 100-poll limit), reading a byte's waveform
    gives the byte and ends right after the waveform.
  */
  lemma ReadByteDecodesWave(line: seq<bool>, pos: nat, v: byte, ts: seq<Timing>)
    requires |ts| == 8 && WithinLimit(ts)
    requires At(line, pos, ByteWave(v, ts))
    ensures ReadByte(line, pos).0 == v
    ensures ReadByte(line, pos).1 == pos + |ByteWave(v, ts)|
  {
    ReaderReadsBitWaves(line);
    ReadWave(Reader(line), line, pos, ToBits(v as int, 8), ts, 0, 0);
    Pow2Eight();
    CombineToBits(v as int, 8);
  }

  // ---------------------------------------------------------------------------
  // A whole reading.

  /** `DHT_Read_Byte` as a reader over positions, as `Reader` is for bits. */
  function ByteReader(line: seq<bool>): nat -> (byte, nat) {
    p => ReadByte(line, p)
  }

  /** `n` consecutive bytes from `read`, each read from where the previous one stopped. */
  function ReadBytesWith(read: nat -> (byte, nat), pos: nat, n: nat): (r: (seq<byte>, nat))
    ensures |r.0| == n
    decreases n
  {
    if n == 0 then ([], pos)
    else
      var first := read(pos);
      var rest := ReadBytesWith(read, first.1, n - 1);
      assert n - 1 < n;
      ([first.0] + rest.0, rest.1)
  }

  /** Consecutive bytes read from the line. */
  function ReadBytes(line: seq<bool>, pos: nat, n: nat): (r: (seq<byte>, nat))
    ensures |r.0| == n
  {
    ReadBytesWith(ByteReader(line), pos, n)
  }

  /**
    `DHT11_Start` after the host's start pulse: wait while the line is high,
    then while it is low, then while it is high, stopping at the first wait
    that times out. Returns the position of the next read.
  */
  function Start(line: seq<bool>): (r: nat)
    ensures 1 <= r <= 3 * (WAIT_LIMIT + 1)
  {
    var w1 := Wait(line, 0, true);
    if w1.1 >= WAIT_LIMIT then w1.0
    else
      var w2 := Wait(line, w1.0, false);
      if w2.1 >= WAIT_LIMIT then w2.0
      else Wait(line, w2.0, true).0
  }

  /** Bytes in one sensor frame: humidity, humidity decimal, temperature, temperature decimal, checksum. */
  const FRAME_BYTES: nat := 5

  datatype Reading = Reading(data: seq<byte>, flag: int)

  /** The checksum test, on `int` operands: no 8-bit wrap of the sum. */
  predicate ChecksumMatches(d: seq<byte>)
    requires |d| == 5
  {
    d[0] as int + d[1] as int + d[2] as int + d[3] as int == d[4] as int
  }

  /** The five bytes read after the start sequence and the line check. */
  function FrameBytes(line: seq<bool>): (d: seq<byte>)
    ensures |d| == FRAME_BYTES
  {
    ReadBytes(line, Start(line) + 1, FRAME_BYTES).0
  }

  /**
    `DHT_Read`: clear the five data bytes, run the start sequence, give up
    (keeping `flag`) if the line is then high, otherwise read five bytes and
    set `flag` to 1 when the checksum matches and to 0 when it does not.
  */
  function DhtRead(line: seq<bool>, flag: int): (r: Reading)
    ensures |r.data| == 5
    ensures Sample(line, Start(line)) ==> r == Reading([0, 0, 0, 0, 0], flag)
    ensures !Sample(line, Start(line)) ==>
              && r.data == FrameBytes(line)
              && (r.flag == 1 <==> ChecksumMatches(r.data))
              && (r.flag == 0 <==> !ChecksumMatches(r.data))
  {
    var cleared: seq<byte> := [0, 0, 0, 0, 0];
    var pos := Start(line);
    if Sample(line, pos) then Reading(cleared, flag)
    else
      var d := FrameBytes(line);
      Reading(d, if ChecksumMatches(d) then 1 else 0)
  }

  /** Since the sum is not reduced to 8 bits, a reading whose four data bytes add up to more than 255 always fails. */
  lemma LargeSumsNeverPass(line: seq<bool>, flag: int)
    requires !Sample(line, Start(line))
    requires var d := DhtRead(line, flag).data; d[0] as int + d[1] as int + d[2] as int + d[3] as int > 255
    ensures DhtRead(line, flag).flag == 0
  {
  }

  /**
    The sensor's answer to the start pulse, as sampled, phase by phase: `first`
    more high samples, `low` low samples, `high` high samples, each followed by
    the sample that ends its wait; then the low the driver checks before the
    first bit.
  */
  function Response(first: nat, low: nat, high: nat): seq<bool> {
    (Repeat(true, first) + [false]) + (Repeat(false, low) + [true]) + (Repeat(true, high) + [false]) + [false]
  }

  /** A wait over `n` samples at `level` followed by one that differs ends right after that one. */
  lemma WaitAt(line: seq<bool>, pos: nat, level: bool, n: nat)
    requires n < WAIT_LIMIT && At(line, pos, Repeat(level, n) + [!level])
    ensures Wait(line, pos, level) == (pos + n + 1, n)
  {
    var w := Repeat(level, n) + [!level];
    forall k | pos <= k < pos + n ensures Sample(line, k) == level {
      assert Sample(line, pos + (k - pos)) == w[k - pos];
    }
    assert Sample(line, pos + n) == w[n];
    WaitThroughRun(line, pos, level, n, 0);
  }

  /** An answer on the line carries each of its phases at its own position. */
  lemma ResponsePhases(line: seq<bool>, first: nat, low: nat, high: nat)
    requires At(line, 0, Response(first, low, high))
    ensures At(line, 0, Repeat(true, first) + [false])
    ensures At(line, first + 1, Repeat(false, low) + [true])
    ensures At(line, first + low + 2, Repeat(true, high) + [false])
    ensures !Sample(line, first + low + high + 3)
  {
    var p1 := Repeat(true, first) + [false];
    var p2 := Repeat(false, low) + [true];
    var p3 := Repeat(true, high) + [false];
    var end: seq<bool> := [false];
    var rest2 := p3 + end;
    var rest1 := p2 + rest2;
    assert Response(first, low, high) == p1 + rest1;
    AtSplit(line, 0, p1 + rest1, p1, rest1);
    AtSplit(line, |p1|, rest1, p2, rest2);
    AtSplit(line, |p1| + |p2|, rest2, p3, end);
    assert Sample(line, first + low + high + 3 + 0) == end[0];
  }

  /** The start sequence passes the three phases of an answer below the poll limit and stops on the low that follows them. */
  lemma StartAfterResponse(line: seq<bool>, first: nat, low: nat, high: nat)
    requires first < WAIT_LIMIT && low < WAIT_LIMIT && high < WAIT_LIMIT
    requires At(line, 0, Response(first, low, high))
    ensures Start(line) == first + low + high + 3 && !Sample(line, Start(line))
  {
    ResponsePhases(line, first, low, high);
    WaitAt(line, 0, true, first);
    WaitAt(line, first + 1, false, low);
    WaitAt(line, first + low + 2, true, high);
    StartThroughWaits(line, first, low, high);
  }

  /** Three waits that each end before the poll limit put the start sequence right after the third. */
  lemma StartThroughWaits(line: seq<bool>, first: nat, low: nat, high: nat)
    requires first < WAIT_LIMIT && low < WAIT_LIMIT && high < WAIT_LIMIT
    requires Wait(line, 0, true) == (first + 1, first)
    requires Wait(line, first + 1, false) == (first + low + 2, low)
    requires Wait(line, first + low + 2, true) == (first + low + high + 3, high)
    ensures Start(line) == first + low + high + 3
  {
  }

  /** Every byte has a timing for each of its eight bits, all below the poll limit. */
  predicate ByteTimings(ts: seq<seq<Timing>>) {
    forall k :: 0 <= k < |ts| ==> |ts[k]| == 8 && WithinLimit(ts[k])
  }

  lemma {:induction false} ReadBytesDecodesWaves(line: seq<bool>, pos: nat, d: seq<byte>, ts: seq<seq<Timing>>)
    requires |ts| == |d| && ByteTimings(ts)
    requires At(line, pos, WavesOf(d, ts))
    ensures ReadBytes(line, pos, |d|).0 == d
    ensures ReadBytes(line, pos, |d|).1 == pos + |WavesOf(d, ts)|
    decreases |d|
  {
    if d != [] {
      var p := pos + |ByteWave(d[0], ts[0])|;
      WavesOfFirst(line, pos, d, ts);
      ReadBytesDecodesWaves(line, p, d[1..], ts[1..]);
      ReadByteDecodesWave(line, pos, d[0], ts[0]);
      assert ByteReader(line)(pos) == ReadByte(line, pos);
      ReadBytesCombine(ByteReader(line), pos, d, p, ReadBytes(line, p, |d| - 1).1);
    }
  }

  /** A first byte read and the bytes read after it make up the whole read. */
  lemma ReadBytesCombine(read: nat -> (byte, nat), pos: nat, d: seq<byte>, p: nat, q: nat)
    requires d != [] && read(pos).0 == d[0] && read(pos).1 == p
    requires ReadBytesWith(read, p, |d| - 1).0 == d[1..] && ReadBytesWith(read, p, |d| - 1).1 == q
    ensures ReadBytesWith(read, pos, |d|).0 == d && ReadBytesWith(read, pos, |d|).1 == q
  {
    assert [d[0]] + d[1..] == d;
  }

  /** The waveforms of several bytes start with the first byte's, and the rest follow it. */
  lemma WavesOfFirst(line: seq<bool>, pos: nat, d: seq<byte>, ts: seq<seq<Timing>>)
    requires d != [] && |ts| == |d| && ByteTimings(ts)
    requires At(line, pos, WavesOf(d, ts))
    ensures |ts[0]| == 8 && WithinLimit(ts[0]) && ByteTimings(ts[1..])
    ensures At(line, pos, ByteWave(d[0], ts[0]))
    ensures At(line, pos + |ByteWave(d[0], ts[0])|, WavesOf(d[1..], ts[1..]))
    ensures |WavesOf(d, ts)| == |ByteWave(d[0], ts[0])| + |WavesOf(d[1..], ts[1..])|
  {
    var w := ByteWave(d[0], ts[0]);
    var ws := WavesOf(d[1..], ts[1..]);
    assert WavesOf(d, ts) == w + ws;
    AtSplit(line, pos, w + ws, w, ws);
    assert ByteTimings(ts[1..]) by {
      forall k | 0 <= k < |ts[1..]| ensures |ts[1..][k]| == 8 && WithinLimit(ts[1..][k]) {
        assert ts[1..][k] == ts[k + 1];
      }
    }
  }

  /** The waveforms of the bytes in order, each byte with its own bit timings. */
  function WavesOf(d: seq<byte>, ts: seq<seq<Timing>>): seq<bool>
    decreases |d|
  {
    if d == [] || ts == [] then [] else ByteWave(d[0], ts[0]) + WavesOf(d[1..], ts[1..])
  }

  /**
    End to end: a sensor that answers the start pulse and sends five bytes is
    read back exactly, and the reading succeeds exactly when the checksum byte
    is the unreduced sum of the four data bytes. Each phase of the answer and
    of every bit may last any number of polls below the limit.
  */
  lemma ReadingDecodesFrame(d: seq<byte>, first: nat, low: nat, high: nat, ts: seq<seq<Timing>>, flag: int)
    requires |d| == 5 && first < WAIT_LIMIT && low < WAIT_LIMIT && high < WAIT_LIMIT
    requires |ts| == 5 && ByteTimings(ts)
    ensures var r := DhtRead(Response(first, low, high) + WavesOf(d, ts), flag);
            r.data == d && (r.flag == 1 <==> ChecksumMatches(d))
  {
    var answer := Response(first, low, high);
    var waves := WavesOf(d, ts);
    var line := answer + waves;
    AtConcat(answer, waves);
    StartAfterResponse(line, first, low, high);
    FrameAt(line, |answer|, d, ts);
    FrameAfterStart(line, |answer|, d);
  }

  /** The frame `DHT_Read` reads is the one right after the start sequence and its low check. */
  lemma FrameAfterStart(line: seq<bool>, pos: nat, d: seq<byte>)
    requires pos == Start(line) + 1 && ReadBytes(line, pos, FRAME_BYTES).0 == d
    ensures FrameBytes(line) == d
  {
    assert FrameBytes(line) == ReadBytes(line, Start(line) + 1, FRAME_BYTES).0;
  }

  /** Five byte waveforms are read as those five bytes. */
  lemma FrameAt(line: seq<bool>, pos: nat, d: seq<byte>, ts: seq<seq<Timing>>)
    requires |d| == FRAME_BYTES && |ts| == FRAME_BYTES && ByteTimings(ts)
    requires At(line, pos, WavesOf(d, ts))
    ensures ReadBytes(line, pos, FRAME_BYTES).0 == d
  {
    ReadBytesDecodesWaves(line, pos, d, ts);
  }
}

=== FILE: irq.dfy ===
/**
  The LR11xx interrupt path shared by the radio examples: the rising-edge latch
  set by the DIO interrupt, the dispatcher that reads-and-clears the chip's
  32-bit interrupt status, filters it with the application's subscription mask
  and calls the application's handlers in a fixed order, the size guard of the
  receive helper, and the DBPSK ramp selection of the radio set-up.
*/
module Irq {
  import opened Bytes

  // Interrupt bits of the chip's status word (single bits, positions as in the vendor driver).
  const IRQ_TX_DONE: bv32                := 0x0000_0004
  const IRQ_RX_DONE: bv32                := 0x0000_0008
  const IRQ_PREAMBLE_DETECTED: bv32      := 0x0000_0010
  const IRQ_SYNC_WORD_HEADER_VALID: bv32 := 0x0000_0020
  const IRQ_HEADER_ERROR: bv32           := 0x0000_0040
  const IRQ_CRC_ERROR: bv32              := 0x0000_0080
  const IRQ_CAD_DONE: bv32               := 0x0000_0100
  const IRQ_CAD_DETECTED: bv32           := 0x0000_0200
  const IRQ_TIMEOUT: bv32                := 0x0000_0400
  const IRQ_GNSS_SCAN_DONE: bv32         := 0x0008_0000
  const IRQ_WIFI_SCAN_DONE: bv32         := 0x0010_0000
  const IRQ_FSK_LEN_ERROR: bv32          := 0x0100_0000
  const IRQ_LORA_RX_TIMESTAMP: bv32      := 0x0800_0000

  /** The application handlers the dispatcher may call (the weak `on_*` functions). */
  datatype Callback =
    | TxDone
    | PreambleDetected
    | HeaderError
    | SyncwordHeaderValid
    | RxCrcError
    | FskLenError
    | RxDone
    | CadDoneDetected
    | CadDoneUndetected
    | RxTimeout
    | LoraRxTimestamp
    | WifiScanDone
    | GnssScanDone

  /** `(word & bit) == bit`: the test the dispatcher applies to each bit. */
  predicate Has(word: bv32, bit: bv32) {
    word & bit == bit
  }

  /** Number of tests the dispatcher makes, one per `if` at the top level of its body. */
  const TEST_COUNT: nat := 10

  /** Index of the top-level test of the dispatcher that may call a handler. */
  function TestIndex(c: Callback): nat
    ensures TestIndex(c) < TEST_COUNT
  {
    match c
    case TxDone => 0
    case PreambleDetected => 1
    case HeaderError => 2
    case SyncwordHeaderValid => 3
    case RxCrcError => 4
    case FskLenError => 4
    case RxDone => 4
    case CadDoneDetected => 5
    case CadDoneUndetected => 5
    case RxTimeout => 6
    case LoraRxTimestamp => 7
    case WifiScanDone => 8
    case GnssScanDone => 9
  }

  /** The status bits a handler needs in the filtered word. */
  function Trigger(c: Callback): bv32 {
    match c
    case TxDone => IRQ_TX_DONE
    case PreambleDetected => IRQ_PREAMBLE_DETECTED
    case HeaderError => IRQ_HEADER_ERROR
    case SyncwordHeaderValid => IRQ_SYNC_WORD_HEADER_VALID
    case RxCrcError => IRQ_RX_DONE | IRQ_CRC_ERROR
    case FskLenError => IRQ_RX_DONE | IRQ_FSK_LEN_ERROR
    case RxDone => IRQ_RX_DONE
    case CadDoneDetected => IRQ_CAD_DONE | IRQ_CAD_DETECTED
    case CadDoneUndetected => IRQ_CAD_DONE
    case RxTimeout => IRQ_TIMEOUT
    case LoraRxTimestamp => IRQ_LORA_RX_TIMESTAMP
    case WifiScanDone => IRQ_WIFI_SCAN_DONE
    case GnssScanDone => IRQ_GNSS_SCAN_DONE
  }

  /**
    Reference table: when a handler runs for a filtered status word. A completed
    reception is reported as a CRC error first, as an FSK length error second and
    as a plain reception otherwise; a finished CAD as detected or undetected;
    every other handler runs when its own bit is present.
  */
  predicate Fires(c: Callback, f: bv32) {
    match c
    case TxDone => Has(f, IRQ_TX_DONE)
    case PreambleDetected => Has(f, IRQ_PREAMBLE_DETECTED)
    case HeaderError => Has(f, IRQ_HEADER_ERROR)
    case SyncwordHeaderValid => Has(f, IRQ_SYNC_WORD_HEADER_VALID)
    case RxCrcError => Has(f, IRQ_RX_DONE) && Has(f, IRQ_CRC_ERROR)
    case FskLenError => Has(f, IRQ_RX_DONE) && !Has(f, IRQ_CRC_ERROR) && Has(f, IRQ_FSK_LEN_ERROR)
    case RxDone => Has(f, IRQ_RX_DONE) && !Has(f, IRQ_CRC_ERROR) && !Has(f, IRQ_FSK_LEN_ERROR)
    case CadDoneDetected => Has(f, IRQ_CAD_DONE) && Has(f, IRQ_CAD_DETECTED)
    case CadDoneUndetected => Has(f, IRQ_CAD_DONE) && !Has(f, IRQ_CAD_DETECTED)
    case RxTimeout => Has(f, IRQ_TIMEOUT)
    case LoraRxTimestamp => Has(f, IRQ_LORA_RX_TIMESTAMP)
    case WifiScanDone => Has(f, IRQ_WIFI_SCAN_DONE)
    case GnssScanDone => Has(f, IRQ_GNSS_SCAN_DONE)
  }

  /** A handler that fires has all of its trigger bits in the filtered word. */
  lemma FiresNeedsTrigger(c: Callback, f: bv32)
    requires Fires(c, f)
    ensures Has(f, Trigger(c))
  {
    BothBits(f);
  }

  /** Filtering keeps a bit exactly when it is both raised and subscribed. */
  lemma FilteredHas(regs: bv32, mask: bv32, t: bv32)
    ensures Has(regs & mask, t) <==> Has(regs, t) && Has(mask, t)
  {
    if Has(regs & mask, t) {
      FilteredHasLeft(regs, mask, t);
      assert regs & mask == mask & regs;
      FilteredHasLeft(mask, regs, t);
    }
    if Has(regs, t) && Has(mask, t) {
      calc {
        (regs & mask) & t;
        == regs & (mask & t);
        == regs & t;
      }
    }
  }

  lemma FilteredHasLeft(a: bv32, b: bv32, t: bv32)
    requires (a & b) & t == t
    ensures a & t == t
  {
  }

  /**
    Handlers listed in strictly increasing test order: the fixed order of the
    source, with at most one handler per test (so at most one of the RX group
    and one of the CAD group, and no handler twice).
  */
  predicate InOrder(cbs: seq<Callback>) {
    forall i, j :: 0 <= i < j < |cbs| ==> TestIndex(cbs[i]) < TestIndex(cbs[j])
  }

  function When(b: bool, c: Callback): seq<Callback> {
    if b then [c] else []
  }

  /** The handler called, if any, by test `k` of the dispatcher for the filtered word `f`. */
  function Test(f: bv32, k: nat): seq<Callback>
    requires k < TEST_COUNT
  {
    match k
    case 0 => When(Has(f, IRQ_TX_DONE), TxDone)
    case 1 => When(Has(f, IRQ_PREAMBLE_DETECTED), PreambleDetected)
    case 2 => When(Has(f, IRQ_HEADER_ERROR), HeaderError)
    case 3 => When(Has(f, IRQ_SYNC_WORD_HEADER_VALID), SyncwordHeaderValid)
    case 4 =>
      if Has(f, IRQ_RX_DONE) then
        if Has(f, IRQ_CRC_ERROR) then [RxCrcError]
        else if Has(f, IRQ_FSK_LEN_ERROR) then [FskLenError]
        else [RxDone]
      else []
    case 5 =>
      if Has(f, IRQ_CAD_DONE) then
        if Has(f, IRQ_CAD_DETECTED) then [CadDoneDetected] else [CadDoneUndetected]
      else []
    case 6 => When(Has(f, IRQ_TIMEOUT), RxTimeout)
    case 7 => When(Has(f, IRQ_LORA_RX_TIMESTAMP), LoraRxTimestamp)
    case 8 => When(Has(f, IRQ_WIFI_SCAN_DONE), WifiScanDone)
    case _ => When(Has(f, IRQ_GNSS_SCAN_DONE), GnssScanDone)
  }

  /** The handlers called by the first `n` tests, in the order the tests are made. */
  function Tests(f: bv32, n: nat): seq<Callback>
    requires n <= TEST_COUNT
  {
    if n == 0 then [] else Tests(f, n - 1) + Test(f, n - 1)
  }

  /** Test `k` calls at most one handler: the one the table selects among those of test `k`. */
  lemma TestMatchesTable(f: bv32, k: nat)
    requires k < TEST_COUNT
    ensures |Test(f, k)| <= 1
    ensures forall c :: c in Test(f, k) <==> Fires(c, f) && TestIndex(c) == k
  {
    forall c
      ensures c in Test(f, k) <==> Fires(c, f) && TestIndex(c) == k
    {
      TestMatchesTableAt(f, k, c);
    }
  }

  lemma TestMatchesTableAt(f: bv32, k: nat, c: Callback)
    requires k < TEST_COUNT
    ensures c in Test(f, k) <==> Fires(c, f) && TestIndex(c) == k
  {
    TestOnlyOwnHandlers(f, k, c);
    OwnTestMatchesTable(f, c);
  }

  /** A test only ever calls handlers of its own index. */
  lemma TestOnlyOwnHandlers(f: bv32, k: nat, c: Callback)
    requires k < TEST_COUNT
    ensures c in Test(f, k) ==> TestIndex(c) == k
  {
  }

  /** The test of a handler's own index calls it exactly when the table says it fires. */
  lemma OwnTestMatchesTable(f: bv32, c: Callback)
    ensures c in Test(f, TestIndex(c)) <==> Fires(c, f)
  {
    match c
    case RxCrcError =>
    case FskLenError =>
    case RxDone =>
    case CadDoneDetected =>
    case CadDoneUndetected =>
    case _ =>
  }

  /** A two-bit trigger is present exactly when both of its bits are. */
  lemma BothBits(f: bv32)
    ensures Has(f, IRQ_RX_DONE | IRQ_CRC_ERROR) <==> Has(f, IRQ_RX_DONE) && Has(f, IRQ_CRC_ERROR)
    ensures Has(f, IRQ_RX_DONE | IRQ_FSK_LEN_ERROR) <==> Has(f, IRQ_RX_DONE) && Has(f, IRQ_FSK_LEN_ERROR)
    ensures Has(f, IRQ_CAD_DONE | IRQ_CAD_DETECTED) <==> Has(f, IRQ_CAD_DONE) && Has(f, IRQ_CAD_DETECTED)
  {
  }

  lemma {:induction false} TestsMatchTable(f: bv32, n: nat)
    requires n <= TEST_COUNT
    ensures forall c :: c in Tests(f, n) <==> Fires(c, f) && TestIndex(c) < n
    ensures InOrder(Tests(f, n))
    ensures forall c :: c in Tests(f, n) ==> TestIndex(c) < n
  {
    if n > 0 {
      TestsMatchTable(f, n - 1);
      TestMatchesTable(f, n - 1);
      var a, b := Tests(f, n - 1), Test(f, n - 1);
      assert Tests(f, n) == a + b;
      forall i, j | 0 <= i < j < |a + b|
        ensures TestIndex((a + b)[i]) < TestIndex((a + b)[j])
      {
        if j < |a| {
        } else if i < |a| {
          assert (a + b)[i] in a;
          assert (a + b)[j] in b;
        }
      }
    }
  }

  /**
    Handlers called for a status word `regs` under the subscription `mask`:
    exactly those the reference table selects for `regs & mask`.
  */
  function Dispatch(regs: bv32, mask: bv32): (cbs: seq<Callback>)
    ensures forall c :: c in cbs <==> Fires(c, regs & mask)
  {
    TestsMatchTable(regs & mask, TEST_COUNT);
    Tests(regs & mask, TEST_COUNT)
  }

  /** The handlers run in the fixed order of the tests, at most one per test. */
  lemma DispatchInOrder(regs: bv32, mask: bv32)
    ensures InOrder(Dispatch(regs, mask))
  {
    TestsMatchTable(regs & mask, TEST_COUNT);
  }

  /** A handler only runs for bits that are both raised and subscribed. */
  lemma DispatchNeedsSubscription(regs: bv32, mask: bv32, c: Callback)
    requires c in Dispatch(regs, mask)
    ensures Has(regs, Trigger(c)) && Has(mask, Trigger(c))
  {
    FiresNeedsTrigger(c, regs & mask);
    FilteredHas(regs, mask, Trigger(c));
  }

  function Count(b: bool): nat {
    if b then 1 else 0
  }

  /** A completed reception in the filtered word yields exactly one RX-group handler, chosen CRC error first, FSK length error second. */
  lemma RxGroupExactlyOne(regs: bv32, mask: bv32)
    requires Has(regs & mask, IRQ_RX_DONE)
    ensures var cbs := Dispatch(regs, mask);
            Count(RxCrcError in cbs) + Count(FskLenError in cbs) + Count(RxDone in cbs) == 1
    ensures var cbs := Dispatch(regs, mask);
            && (RxCrcError in cbs <==> Has(regs & mask, IRQ_CRC_ERROR))
            && (FskLenError in cbs <==> !Has(regs & mask, IRQ_CRC_ERROR) && Has(regs & mask, IRQ_FSK_LEN_ERROR))
  {
  }

  /** Error bits without a completed reception, or CAD detection without CAD done, call nothing. */
  lemma SecondaryBitsAloneAreSilent(regs: bv32, mask: bv32)
    ensures !Has(regs & mask, IRQ_RX_DONE) ==>
              RxCrcError !in Dispatch(regs, mask) && FskLenError !in Dispatch(regs, mask) && RxDone !in Dispatch(regs, mask)
    ensures !Has(regs & mask, IRQ_CAD_DONE) ==>
              CadDoneDetected !in Dispatch(regs, mask) && CadDoneUndetected !in Dispatch(regs, mask)
  {
  }

  /** A finished CAD yields exactly one of detected or undetected. */
  lemma CadGroupExactlyOne(regs: bv32, mask: bv32)
    requires Has(regs & mask, IRQ_CAD_DONE)
    ensures var cbs := Dispatch(regs, mask);
            Count(CadDoneDetected in cbs) + Count(CadDoneUndetected in cbs) == 1
    ensures CadDoneDetected in Dispatch(regs, mask) <==> Has(regs & mask, IRQ_CAD_DETECTED)
  {
  }

  /**
    The coupling tests read the filtered word: a raised but unsubscribed CRC or
    FSK length error bit cannot turn a subscribed reception into an error.
  */
  lemma UnsubscribedErrorsDoNotSuppressRxDone(regs: bv32, mask: bv32)
    requires Has(regs, IRQ_RX_DONE) && Has(mask, IRQ_RX_DONE)
    requires mask & IRQ_CRC_ERROR == 0 && mask & IRQ_FSK_LEN_ERROR == 0
    ensures RxDone in Dispatch(regs, mask)
    ensures RxCrcError !in Dispatch(regs, mask) && FskLenError !in Dispatch(regs, mask)
  {
  }

  // ---------------------------------------------------------------------------
  // The interrupt latch and one pass of the dispatcher.

  /** The software latch `irq_fired` and the chip's OR-accumulating interrupt status. */
  datatype IrqState = IrqState(irqFired: bool, chipStatus: bv32)

  /** What one pass does, in order. */
  datatype Effect =
    | ClearLatch
    | GetAndClearStatus(regs: bv32)
    | Invoke(callback: Callback)

  datatype Pass = Pass(next: IrqState, effects: seq<Effect>)

  /** The chip raises status bits and drives its DIO line high. */
  function ChipRaise(s: IrqState, bits: bv32): (t: IrqState)
    ensures t.chipStatus == s.chipStatus | bits
    ensures t.irqFired == s.irqFired
  {
    IrqState(s.irqFired, s.chipStatus | bits)
  }

  /** The rising-edge interrupt routine: it only ever sets the latch. */
  function OnDioIrq(s: IrqState): (t: IrqState)
    ensures t.irqFired
    ensures t.chipStatus == s.chipStatus
  {
    s.(irqFired := true)
  }

  /** The handler calls of one pass: the `i`-th call invokes the `i`-th selected callback. */
  function Invocations(cbs: seq<Callback>): (es: seq<Effect>)
    ensures |es| == |cbs|
    ensures forall i :: 0 <= i < |cbs| ==> es[i] == Invoke(cbs[i])
  {
    if cbs == [] then [] else [Invoke(cbs[0])] + Invocations(cbs[1..])
  }

  /**
    One call of the dispatcher. With the latch clear it does nothing at all; with
    the latch set it first clears the latch, then reads and clears the chip's
    status (once), then calls the handlers for the filtered word.
  */
  function Process(s: IrqState, mask: bv32): (p: Pass)
    ensures !s.irqFired ==> p.next == s && p.effects == []
    ensures s.irqFired ==>
              && !p.next.irqFired
              && p.next.chipStatus == 0
              && |p.effects| >= 2
              && p.effects[0] == ClearLatch
              && p.effects[1] == GetAndClearStatus(s.chipStatus)
              && p.effects[2..] == Invocations(Dispatch(s.chipStatus, mask))
  {
    if s.irqFired then
      var cleared := s.(irqFired := false);
      var regs := cleared.chipStatus;
      var es := [ClearLatch, GetAndClearStatus(regs)] + Invocations(Dispatch(regs, mask));
      assert es[2..] == Invocations(Dispatch(regs, mask));
      Pass(IrqState(false, 0), es)
    else
      Pass(s, [])
  }

  /**
    A pass with the latch set calls exactly the handlers `Dispatch` selects for
    the status it read, that is, those the table selects for the filtered word.
  */
  lemma ProcessCallsExactlyTable(s: IrqState, mask: bv32, c: Callback)
    requires s.irqFired
    ensures Invoke(c) in Process(s, mask).effects <==> c in Dispatch(s.chipStatus, mask)
  {
    var cbs := Dispatch(s.chipStatus, mask);
    var es := Process(s, mask).effects;
    InTail(es, Invoke(c));
    InvocationsMembership(cbs, c);
  }

  /** Membership past the first two entries, when neither of them is the element. */
  lemma InTail(es: seq<Effect>, e: Effect)
    requires |es| >= 2 && es[0] != e && es[1] != e
    ensures e in es <==> e in es[2..]
  {
    if e in es {
      var i :| 0 <= i < |es| && es[i] == e;
      assert es[2..][i - 2] == e;
    }
  }

  lemma {:induction false} InvocationsMembership(cbs: seq<Callback>, c: Callback)
    ensures Invoke(c) in Invocations(cbs) <==> c in cbs
    decreases |cbs|
  {
    if cbs != [] {
      InvocationsMembership(cbs[1..], c);
      assert Invocations(cbs) == [Invoke(cbs[0])] + Invocations(cbs[1..]);
      assert cbs == [cbs[0]] + cbs[1..];
    }
  }

  /**
    Events raised after a pass has read the status are not lost: their edge sets
    the latch again and the next pass handles exactly them.
  */
  lemma LaterEventsAreHandledNextPass(s: IrqState, mask: bv32, bits: bv32)
    requires s.irqFired
    ensures var t := OnDioIrq(ChipRaise(Process(s, mask).next, bits));
            var q := Process(t, mask);
            q.effects[1] == GetAndClearStatus(bits)
  {
  }

  // ---------------------------------------------------------------------------
  // Radio commands the application handlers issue.

  /** `lr11xx_radio_set_rx(timeout)` or `lr11xx_radio_set_tx(0)`. */
  datatype RadioCommand = SetRx(timeoutMs: uint32) | SetTx

  // ---------------------------------------------------------------------------
  // The receive helper's size guard.

  datatype Received = Received(size: byte, buffer: seq<byte>)

  /**
    Copy of the chip's received payload into a caller buffer of `bufferLength`
    bytes. The reported size is always returned; a payload longer than the buffer
    leaves the buffer untouched; otherwise the payload overwrites the start of the
    buffer and the rest keeps its previous contents.
  */
  function Receive(buffer: seq<byte>, bufferLength: byte, payload: seq<byte>): (r: Received)
    requires |buffer| == bufferLength as int
    requires |payload| < 256
    ensures r.size as int == |payload|
    ensures |r.buffer| == |buffer|
    ensures |payload| > bufferLength as int ==> r.buffer == buffer
    ensures |payload| <= bufferLength as int ==>
              r.buffer[..|payload|] == payload && r.buffer[|payload|..] == buffer[|payload|..]
  {
    if |payload| > bufferLength as int then Received(|payload| as byte, buffer)
    else Received(|payload| as byte, payload + buffer[|payload|..])
  }

  /**
    The oversize guard leaves no trace: after a refused payload, the next one
    that arrives leaves the buffer exactly as if it had come alone. Receiving
    the same payload twice leaves what receiving it once leaves.
  */
  lemma RefusedPayloadLeavesNoTrace(buffer: seq<byte>, bufferLength: byte, big: seq<byte>, payload: seq<byte>)
    requires |buffer| == bufferLength as int && |big| < 256 && |payload| < 256
    ensures |big| > bufferLength as int ==>
              Receive(Receive(buffer, bufferLength, big).buffer, bufferLength, payload) == Receive(buffer, bufferLength, payload)
    ensures var once := Receive(buffer, bufferLength, payload);
            Receive(once.buffer, bufferLength, payload) == once
  {
    var once := Receive(buffer, bufferLength, payload);
    if |payload| <= bufferLength as int {
      assert once.buffer[|payload|..] == buffer[|payload|..];
    }
  }

  // ---------------------------------------------------------------------------
  // DBPSK ramp-time selection of the radio set-up.

  datatype DbpskRamp = Ramp100Bps | Ramp600Bps | RampDefault

  /** Ramp-up/ramp-down delays by bit rate: dedicated values at 100 and 600 bit/s, defaults otherwise. */
  function SelectDbpskRamp(bitrateBps: uint32): (r: DbpskRamp)
    ensures r == Ramp100Bps <==> bitrateBps == 100
    ensures r == Ramp600Bps <==> bitrateBps == 600
    ensures r == RampDefault <==> bitrateBps != 100 && bitrateBps != 600
  {
    if bitrateBps == 100 then Ramp100Bps
    else if bitrateBps == 600 then Ramp600Bps
    else RampDefault
  }
}

=== FILE: per.dfy ===
/**
  The packet-error-rate example. The transmitter sends a fixed payload whose
  first byte is an 8-bit rolling counter, incremented after every completed
  transmission. The receiver compares the rest of each payload with the same
  template, counts valid packets and the counter gaps between them, and counts
  timeouts, CRC errors and FSK length errors once the first valid packet has
  been seen. Every reception outcome re-arms reception with the same timeout.
*/
module Per {
  import opened Bytes
  import opened Irq

  /** Interrupts the example subscribes to. */
  const PER_IRQ_MASK: bv32 :=
    IRQ_TX_DONE | IRQ_RX_DONE | IRQ_TIMEOUT | IRQ_PREAMBLE_DETECTED | IRQ_HEADER_ERROR
    | IRQ_FSK_LEN_ERROR | IRQ_CRC_ERROR

  /** The payload length is passed around as a `uint8_t` and must leave room for the counter. */
  predicate ValidPayloadLength(pl: nat) {
    1 <= pl <= 255
  }

  /** The payload both roles start from: counter byte 0, then byte `i` holds `i`. */
  function InitialBuffer(pl: nat): (b: seq<byte>)
    requires ValidPayloadLength(pl)
    ensures |b| == pl && b[0] == 0
  {
    seq(pl, i requires 0 <= i < pl => i as byte)
  }

  /** The receiver's template: everything after the counter byte. */
  function Template(pl: nat): (t: seq<byte>)
    requires ValidPayloadLength(pl)
    ensures |t| == pl - 1
    ensures forall i :: 0 <= i < pl - 1 ==> t[i] as int == i + 1
  {
    InitialBuffer(pl)[1..]
  }

  // ---------------------------------------------------------------------------
  // Transmitter role.

  datatype Transmitter = Transmitter(buffer: seq<byte>)

  function TransmitterInit(pl: nat): Transmitter
    requires ValidPayloadLength(pl)
  {
    Transmitter(InitialBuffer(pl))
  }

  /**
    TX done: the counter byte goes up by one modulo 256, the rest of the payload
    is kept, the payload is written to the chip and transmission is started again.
  */
  function TransmitterOnTxDone(t: Transmitter): (r: (Transmitter, RadioCommand))
    requires |t.buffer| >= 1
    ensures |r.0.buffer| == |t.buffer|
    ensures r.0.buffer[0] as int == (t.buffer[0] as int + 1) % 256
    ensures r.0.buffer[1..] == t.buffer[1..]
    ensures r.1 == SetTx
  {
    (Transmitter(t.buffer[0 := Wrap8(t.buffer[0] as int + 1)]), SetTx)
  }

  /** The transmitter after `n` completed transmissions. */
  function TransmitterAfter(pl: nat, n: nat): (t: Transmitter)
    requires ValidPayloadLength(pl)
    ensures |t.buffer| == pl
  {
    if n == 0 then TransmitterInit(pl) else TransmitterOnTxDone(TransmitterAfter(pl, n - 1)).0
  }

  /** The `n`-th payload carries `n mod 256` and always matches the receiver's template. */
  lemma {:induction false} TransmittedPayloads(pl: nat, n: nat)
    requires ValidPayloadLength(pl)
    ensures TransmitterAfter(pl, n).buffer[0] as int == n % 256
    ensures TransmitterAfter(pl, n).buffer[1..] == Template(pl)
  {
    if n > 0 {
      TransmittedPayloads(pl, n - 1);
    }
  }

  // ---------------------------------------------------------------------------
  // Receiver role.

  /** The receiver's globals: counters are `uint16_t` (wrapping), the rolling counter `uint8_t`. */
  datatype Receiver = Receiver(
    buffer: seq<byte>,
    perMsg: seq<byte>,
    rollingCounter: byte,
    perIndex: uint16,
    nbOk: uint16,
    nbRxTimeout: uint16,
    nbRxError: uint16,
    nbFskLenError: uint16,
    firstPktFlag: bool)

  predicate ReceiverValid(s: Receiver, pl: nat) {
    ValidPayloadLength(pl) && |s.buffer| == pl && s.perMsg == Template(pl)
  }

  function ReceiverInit(pl: nat): (s: Receiver)
    requires ValidPayloadLength(pl)
    ensures ReceiverValid(s, pl) && !s.firstPktFlag
  {
    Receiver(InitialBuffer(pl), Template(pl), 0, 0, 0, 0, 0, 0, false)
  }

  /** Counters and flag: everything `on_rx_done` may change except the buffer. */
  predicate SameCounters(a: Receiver, b: Receiver) {
    && a.rollingCounter == b.rollingCounter && a.perIndex == b.perIndex && a.nbOk == b.nbOk
    && a.nbRxTimeout == b.nbRxTimeout && a.nbRxError == b.nbRxError
    && a.nbFskLenError == b.nbFskLenError && a.firstPktFlag == b.firstPktFlag
  }

  /** Counter gap `(uint8_t)(next - prev)`: the number of transmissions from `prev` to `next`. */
  function Gap(prev: byte, next: byte): (g: byte)
    ensures g as int == (next as int - prev as int) % 256
  {
    Wrap8(next as int - prev as int)
  }

  lemma GapAcrossWrap()
    ensures Gap(250, 3) == 9
  {
  }

  /** Outcome of one handler call: the next state, the command issued, and the "missed" warning if any. */
  datatype RxStep = RxStep(next: Receiver, command: Option<RadioCommand>, missed: Option<byte>)

  /**
    The counter update `on_rx_done` makes once the buffer holds the received
    bytes. A packet that does not match the template changes nothing. The
    first matching packet only synchronises on its counter; each later one
    counts as received, advances the PER index by the counter distance since
    the previous one (modulo 256), and warns of the packets missed in between.
  */
  function AcceptPacket(s: Receiver): (r: (Receiver, Option<byte>))
    requires |s.buffer| >= 1
    ensures r.0.buffer == s.buffer && r.0.perMsg == s.perMsg
    ensures r.0.nbRxTimeout == s.nbRxTimeout && r.0.nbRxError == s.nbRxError && r.0.nbFskLenError == s.nbFskLenError
    ensures s.buffer[1..] != s.perMsg ==> r == (s, None)
    ensures s.buffer[1..] == s.perMsg ==> r.0.firstPktFlag && r.0.rollingCounter == s.buffer[0]
    ensures s.buffer[1..] == s.perMsg && !s.firstPktFlag ==>
              r.0.nbOk == s.nbOk && r.0.perIndex == s.perIndex && r.1 == None
    ensures s.buffer[1..] == s.perMsg && s.firstPktFlag ==>
              var distance := (s.buffer[0] as int - s.rollingCounter as int) % 256;
              && r.0.nbOk as int == (s.nbOk as int + 1) % 65536
              && r.0.perIndex as int == (s.perIndex as int + distance) % 65536
              && (r.1.Some? <==> distance > 1)
              && (r.1.Some? ==> r.1.value as int == distance - 1)
  {
    if s.buffer[1..] == s.perMsg then
      if s.firstPktFlag then
        var gap := Gap(s.rollingCounter, s.buffer[0]);
        (s.(nbOk := Wrap16(s.nbOk as int + 1), perIndex := Wrap16(s.perIndex as int + gap as int), rollingCounter := s.buffer[0]),
         if gap > 1 then Some((gap - 1) as byte) else None)
      else
        (s.(firstPktFlag := true, rollingCounter := s.buffer[0]), None)
    else
      (s, None)
  }

  /**
    RX done, as written: the payload is fetched through the receive helper, whose
    size guard is not consulted here, then compared with the template; receive
    is re-armed in every case.
  */
  function OnRxDone(s: Receiver, pl: nat, payload: seq<byte>, rxTimeout: uint32): (r: RxStep)
    requires ReceiverValid(s, pl)
    requires |payload| < 256
    ensures ReceiverValid(r.next, pl)
    ensures r.command == Some(SetRx(rxTimeout))
    ensures r.next.buffer == Receive(s.buffer, pl as byte, payload).buffer
    ensures r.next.buffer[1..] != s.perMsg ==> SameCounters(r.next, s) && r.missed == None
    ensures r.next.buffer[1..] == s.perMsg && !s.firstPktFlag ==>
              && r.next.firstPktFlag && r.next.rollingCounter == r.next.buffer[0]
              && r.next.nbOk == s.nbOk && r.next.perIndex == s.perIndex
              && r.missed == None
    ensures r.next.buffer[1..] == s.perMsg && s.firstPktFlag ==>
              var gap := (r.next.buffer[0] as int - s.rollingCounter as int) % 256;
              && r.next.nbOk as int == (s.nbOk as int + 1) % 65536
              && r.next.perIndex as int == (s.perIndex as int + gap) % 65536
              && r.next.rollingCounter == r.next.buffer[0]
              && r.next.firstPktFlag
              && (r.missed.Some? <==> gap > 1)
              && (r.missed.Some? ==> r.missed.value as int == gap - 1)
    ensures r.next.nbRxTimeout == s.nbRxTimeout && r.next.nbRxError == s.nbRxError
    ensures r.next.nbFskLenError == s.nbFskLenError
  {
    var rx := Receive(s.buffer, pl as byte, payload);
    var (t, missed) := AcceptPacket(s.(buffer := rx.buffer));
    RxStep(t, Some(SetRx(rxTimeout)), missed)
  }

  /**
    As written, the handler never looks at the reported size: a packet that is
    too long leaves the previous packet in the buffer, and a short one
    overwrites only its own bytes. Either way a stale tail that matches the
    template makes the packet count as valid. Here the receiver has just
    counted packet 5; an oversize packet then adds a valid packet without
    advancing the index, and a one-byte packet `[7]` is counted as packet 7.
  */
  lemma StaleBufferCountedAsValid()
    ensures var s := Receiver([5, 1, 2, 3], Template(4), 5, 1, 1, 0, 0, 0, true);
            var long := OnRxDone(s, 4, [9, 9, 9, 9, 9], 1000);
            var short := OnRxDone(s, 4, [7], 1000);
            && ReceiverValid(s, 4)
            && long.next.nbOk == 2 && long.next.perIndex == 1
            && short.next.nbOk == 2 && short.next.perIndex == 3 && short.missed == Some(1)
  {
    var s := Receiver([5, 1, 2, 3], Template(4), 5, 1, 1, 0, 0, 0, true);
    assert Template(4) == [1, 2, 3];
    assert OnRxDone(s, 4, [9, 9, 9, 9, 9], 1000).next.buffer == [5, 1, 2, 3];
    assert OnRxDone(s, 4, [7], 1000).next.buffer == [7, 1, 2, 3];
  }

  /**
    RX done with the size check the statistics evidently rely on: only a packet
    of exactly the configured length whose tail matches the template is
    counted; any other reception is only re-armed.
  */
  function OnRxDoneChecked(s: Receiver, pl: nat, payload: seq<byte>, rxTimeout: uint32): (r: RxStep)
    requires ReceiverValid(s, pl)
    requires |payload| < 256
    ensures ReceiverValid(r.next, pl)
    ensures r.command == Some(SetRx(rxTimeout))
    ensures !(|payload| == pl && payload[1..] == Template(pl)) ==> SameCounters(r.next, s) && r.missed == None
    ensures |payload| == pl ==> r == OnRxDone(s, pl, payload, rxTimeout)
    ensures r.next.nbOk != s.nbOk || r.next.firstPktFlag != s.firstPktFlag ==>
              |payload| == pl && payload[1..] == Template(pl) && r.next.rollingCounter == payload[0]
  {
    if |payload| == pl then
      var r := OnRxDone(s, pl, payload, rxTimeout);
      assert r.next.buffer == payload;
      r
    else
      RxStep(s.(buffer := Receive(s.buffer, pl as byte, payload).buffer), Some(SetRx(rxTimeout)), None)
  }

  datatype Failure = Timeout | CrcError | LengthError

  /** Timeout, CRC error and FSK length error: count once synchronised, then re-arm receive. */
  function OnReceptionFailure(s: Receiver, kind: Failure, rxTimeout: uint32): (r: RxStep)
    ensures r.command == Some(SetRx(rxTimeout)) && r.missed == None
    ensures r.next.buffer == s.buffer && r.next.perMsg == s.perMsg
    ensures !s.firstPktFlag ==> r.next == s
    ensures s.firstPktFlag ==>
              && r.next.nbRxTimeout as int == (s.nbRxTimeout as int + (if kind == Timeout then 1 else 0)) % 65536
              && r.next.nbRxError as int == (s.nbRxError as int + (if kind == CrcError then 1 else 0)) % 65536
              && r.next.nbFskLenError as int == (s.nbFskLenError as int + (if kind == LengthError then 1 else 0)) % 65536
    ensures r.next.nbOk == s.nbOk && r.next.perIndex == s.perIndex
    ensures r.next.rollingCounter == s.rollingCounter && r.next.firstPktFlag == s.firstPktFlag
  {
    var t :=
      if !s.firstPktFlag then s
      else match kind
        case Timeout => s.(nbRxTimeout := Wrap16(s.nbRxTimeout as int + 1))
        case CrcError => s.(nbRxError := Wrap16(s.nbRxError as int + 1))
        case LengthError => s.(nbFskLenError := Wrap16(s.nbFskLenError as int + 1));
    RxStep(t, Some(SetRx(rxTimeout)), None)
  }

  /** The first valid packet only synchronises: it never counts and never warns, whatever its counter. */
  lemma FirstPacketOnlySynchronises(s: Receiver, pl: nat, payload: seq<byte>, rxTimeout: uint32)
    requires ReceiverValid(s, pl) && !s.firstPktFlag
    requires |payload| == pl && payload[1..] == Template(pl)
    ensures var r := OnRxDone(s, pl, payload, rxTimeout);
            && r.next.firstPktFlag && r.next.rollingCounter == payload[0]
            && r.next.nbOk == s.nbOk && r.next.perIndex == s.perIndex && r.missed == None
  {
    var r := OnRxDone(s, pl, payload, rxTimeout);
    assert r.next.buffer == payload;
  }

  /**
    End to end: when a synchronised receiver whose last counter was the
    transmitter's `m`-th payload receives its `m + k`-th payload (0 < k < 256),
    the index advances by `k`, one more packet is counted, and `k - 1` missed
    packets are reported exactly when packets were lost.
  */
  lemma {:induction false} ReceivingTransmitterStream(s: Receiver, pl: nat, m: nat, k: nat, rxTimeout: uint32)
    requires ReceiverValid(s, pl) && s.firstPktFlag
    requires s.rollingCounter as int == m % 256
    requires 0 < k < 256
    ensures var r := OnRxDone(s, pl, TransmitterAfter(pl, m + k).buffer, rxTimeout);
            && r.next.perIndex as int == (s.perIndex as int + k) % 65536
            && r.next.nbOk as int == (s.nbOk as int + 1) % 65536
            && r.next.rollingCounter as int == (m + k) % 256
            && (k == 1 ==> r.missed == None)
            && (k > 1 ==> r.missed == Some((k - 1) as byte))
  {
    var payload := TransmitterAfter(pl, m + k).buffer;
    TransmittedPayloads(pl, m + k);
    SynchronisedAccept(s, pl, payload, rxTimeout);
    CounterDistance(m, k);
  }

  /** A synchronised receiver given a full-length payload that matches the template counts it. */
  lemma SynchronisedAccept(s: Receiver, pl: nat, payload: seq<byte>, rxTimeout: uint32)
    requires ReceiverValid(s, pl) && s.firstPktFlag
    requires |payload| == pl && payload[1..] == Template(pl)
    ensures var r := OnRxDone(s, pl, payload, rxTimeout);
            var gap := (payload[0] as int - s.rollingCounter as int) % 256;
            && r.next.perIndex as int == (s.perIndex as int + gap) % 65536
            && r.next.nbOk as int == (s.nbOk as int + 1) % 65536
            && r.next.rollingCounter == payload[0]
            && (r.missed.Some? <==> gap > 1)
            && (r.missed.Some? ==> r.missed.value as int == gap - 1)
  {
    var r := OnRxDone(s, pl, payload, rxTimeout);
    assert r.next.buffer == payload;
  }

  /** Counters taken modulo 256 still measure a distance below 256 exactly. */
  lemma CounterDistance(m: nat, k: nat)
    requires 0 < k < 256
    ensures ((m + k) % 256 - m % 256) % 256 == k
  {
    var q, r := m / 256, m % 256;
    assert m + k == 256 * q + (r + k);
    if r + k < 256 {
      assert (m + k) % 256 == r + k;
    } else {
      assert m + k == 256 * (q + 1) + (r + k - 256);
      assert (m + k) % 256 == r + k - 256;
    }
  }

  // ---------------------------------------------------------------------------
  // One dispatcher pass of the receiver.

  /** Callbacks that report the end of a reception attempt. */
  predicate IsRxOutcome(c: Callback) {
    c == RxDone || c == RxTimeout || c == RxCrcError || c == FskLenError
  }

  /**
    The receiver's handlers. RX done is the size-checked `OnRxDoneChecked`.
    `on_tx_done` is compiled into the receiver too: a TX done bumps the counter
    byte of the receiver's buffer and starts a transmission. The other
    callbacks keep the default that only prints.
  */
  function ReceiverHandle(s: Receiver, pl: nat, c: Callback, payload: seq<byte>, rxTimeout: uint32): (r: RxStep)
    requires ReceiverValid(s, pl) && |payload| < 256
    ensures ReceiverValid(r.next, pl)
    ensures r.command == Some(SetRx(rxTimeout)) <==> IsRxOutcome(c)
    ensures r.command == Some(SetTx) <==> c == TxDone
    ensures c == TxDone ==>
              && SameCounters(r.next, s) && r.missed == None
              && r.next.buffer[0] as int == (s.buffer[0] as int + 1) % 256
              && r.next.buffer[1..] == s.buffer[1..]
    ensures !IsRxOutcome(c) && c != TxDone ==> r.next == s && r.command == None
  {
    match c
    case RxDone => OnRxDoneChecked(s, pl, payload, rxTimeout)
    case RxTimeout => OnReceptionFailure(s, Timeout, rxTimeout)
    case RxCrcError => OnReceptionFailure(s, CrcError, rxTimeout)
    case FskLenError => OnReceptionFailure(s, LengthError, rxTimeout)
    case TxDone =>
      var t := TransmitterOnTxDone(Transmitter(s.buffer));
      RxStep(s.(buffer := t.0.buffer), Some(t.1), None)
    case _ => RxStep(s, None, None)
  }

  /** Handlers of one pass applied in dispatch order, collecting the radio commands. */
  function ReceiverRun(s: Receiver, pl: nat, cbs: seq<Callback>, payload: seq<byte>, rxTimeout: uint32)
    : (r: (Receiver, seq<RadioCommand>))
    requires ReceiverValid(s, pl) && |payload| < 256
    ensures ReceiverValid(r.0, pl)
    ensures forall cmd :: cmd in r.1 ==> cmd == SetRx(rxTimeout) || cmd == SetTx
    ensures SetRx(rxTimeout) in r.1 <==> exists i :: 0 <= i < |cbs| && IsRxOutcome(cbs[i])
    ensures SetTx in r.1 <==> TxDone in cbs
    decreases |cbs|
  {
    if cbs == [] then (s, [])
    else
      var step := ReceiverHandle(s, pl, cbs[0], payload, rxTimeout);
      var rest := ReceiverRun(step.next, pl, cbs[1..], payload, rxTimeout);
      assert forall i :: 1 <= i < |cbs| ==> cbs[i] == cbs[1..][i - 1];
      assert cbs == [cbs[0]] + cbs[1..];
      (rest.0, (match step.command case Some(cmd) => [cmd] case None => []) + rest.1)
  }

  /**
    From `s` to `t`, a synchronised receiver has counted each timeout, CRC
    error and length error of `cbs` once, each in its own 16-bit counter, and
    kept everything else; an unsynchronised one has changed nothing.
  */
  predicate FailuresCounted(s: Receiver, t: Receiver, cbs: seq<Callback>) {
    && (!s.firstPktFlag ==> t == s)
    && t.buffer == s.buffer && t.perMsg == s.perMsg && t.firstPktFlag == s.firstPktFlag
    && t.nbOk == s.nbOk && t.perIndex == s.perIndex && t.rollingCounter == s.rollingCounter
    && (s.firstPktFlag ==>
          && t.nbRxTimeout as int == (s.nbRxTimeout as int + multiset(cbs)[RxTimeout]) % 65536
          && t.nbRxError as int == (s.nbRxError as int + multiset(cbs)[RxCrcError]) % 65536
          && t.nbFskLenError as int == (s.nbFskLenError as int + multiset(cbs)[FskLenError]) % 65536)
  }

  /**
    Over any run of callbacks without RX done or TX done, the receiver counts
    exactly the failures in it, and only once synchronised.
  */
  lemma {:induction false} FailureRunCounts(s: Receiver, pl: nat, cbs: seq<Callback>, payload: seq<byte>, rxTimeout: uint32)
    requires ReceiverValid(s, pl) && |payload| < 256
    requires RxDone !in cbs && TxDone !in cbs
    ensures FailuresCounted(s, ReceiverRun(s, pl, cbs, payload, rxTimeout).0, cbs)
    decreases |cbs|
  {
    if cbs == [] {
      assert ReceiverRun(s, pl, cbs, payload, rxTimeout).0 == s;
    } else {
      var next := ReceiverHandle(s, pl, cbs[0], payload, rxTimeout).next;
      FailureStep(s, pl, cbs[0], payload, rxTimeout);
      assert RxDone !in cbs[1..] && TxDone !in cbs[1..];
      FailureRunCounts(next, pl, cbs[1..], payload, rxTimeout);
      RunCons(s, pl, cbs, payload, rxTimeout);
      CountedThenCounted(s, next, ReceiverRun(next, pl, cbs[1..], payload, rxTimeout).0, cbs);
    }
  }

  /** One callback other than RX done and TX done counts at most its own failure. */
  lemma FailureStep(s: Receiver, pl: nat, c: Callback, payload: seq<byte>, rxTimeout: uint32)
    requires ReceiverValid(s, pl) && |payload| < 256 && c != RxDone && c != TxDone
    ensures ReceiverValid(ReceiverHandle(s, pl, c, payload, rxTimeout).next, pl)
    ensures FailuresCounted(s, ReceiverHandle(s, pl, c, payload, rxTimeout).next, [c])
  {
  }

  /** A run is its first callback's step followed by the run of the rest. */
  lemma RunCons(s: Receiver, pl: nat, cbs: seq<Callback>, payload: seq<byte>, rxTimeout: uint32)
    requires ReceiverValid(s, pl) && |payload| < 256 && cbs != []
    ensures ReceiverRun(s, pl, cbs, payload, rxTimeout).0
            == ReceiverRun(ReceiverHandle(s, pl, cbs[0], payload, rxTimeout).next, pl, cbs[1..], payload, rxTimeout).0
  {
  }

  /** Counting the first callback and then the rest is counting the whole run. */
  lemma CountedThenCounted(s: Receiver, next: Receiver, t: Receiver, cbs: seq<Callback>)
    requires cbs != [] && FailuresCounted(s, next, [cbs[0]]) && FailuresCounted(next, t, cbs[1..])
    ensures FailuresCounted(s, t, cbs)
  {
    if s.firstPktFlag {
      assert cbs == [cbs[0]] + cbs[1..];
      var first, rest := multiset([cbs[0]]), multiset(cbs[1..]);
      assert multiset(cbs) == first + rest;
      CountTwice(s.nbRxTimeout, next.nbRxTimeout, t.nbRxTimeout, first[RxTimeout], rest[RxTimeout]);
      CountTwice(s.nbRxError, next.nbRxError, t.nbRxError, first[RxCrcError], rest[RxCrcError]);
      CountTwice(s.nbFskLenError, next.nbFskLenError, t.nbFskLenError, first[FskLenError], rest[FskLenError]);
    }
  }

  /** Counting modulo 2^16 in two steps is counting once. */
  lemma CountTwice(a: uint16, b: uint16, c: uint16, x: int, y: int)
    requires b as int == (a as int + x) % 65536 && c as int == (b as int + y) % 65536
    ensures c as int == (a as int + (x + y)) % 65536
  {
  }

  /**
    Under the example's mask, a pass re-arms reception with the configured
    timeout exactly when its status holds a reception outcome (RX done, with
    or without an error, or a timeout), and starts a transmission exactly when
    it holds TX done; it issues no other command.
  */
  lemma ReceiverPassRearms(s: Receiver, pl: nat, regs: bv32, payload: seq<byte>, rxTimeout: uint32)
    requires ReceiverValid(s, pl) && |payload| < 256
    ensures var cmds := ReceiverRun(s, pl, Dispatch(regs, PER_IRQ_MASK), payload, rxTimeout).1;
            && (forall cmd :: cmd in cmds ==> cmd == SetRx(rxTimeout) || cmd == SetTx)
            && (SetRx(rxTimeout) in cmds <==> Has(regs & PER_IRQ_MASK, IRQ_RX_DONE) || Has(regs & PER_IRQ_MASK, IRQ_TIMEOUT))
            && (SetTx in cmds <==> Has(regs & PER_IRQ_MASK, IRQ_TX_DONE))
  {
    RxOutcomeDispatched(regs, PER_IRQ_MASK);
    OutcomeAtSomeIndex(Dispatch(regs, PER_IRQ_MASK));
    assert TxDone in Dispatch(regs, PER_IRQ_MASK) <==> Fires(TxDone, regs & PER_IRQ_MASK);
  }

  /** A reception outcome is dispatched exactly when RX done or the timeout is raised and subscribed. */
  lemma RxOutcomeDispatched(regs: bv32, mask: bv32)
    ensures (exists c :: c in Dispatch(regs, mask) && IsRxOutcome(c))
            <==> Has(regs & mask, IRQ_RX_DONE) || Has(regs & mask, IRQ_TIMEOUT)
  {
    var cbs := Dispatch(regs, mask);
    if Has(regs & mask, IRQ_RX_DONE) {
      RxGroupExactlyOne(regs, mask);
    } else if Has(regs & mask, IRQ_TIMEOUT) {
      assert RxTimeout in cbs;
    } else {
      SecondaryBitsAloneAreSilent(regs, mask);
      assert RxTimeout !in cbs;
    }
  }

  lemma OutcomeAtSomeIndex(cbs: seq<Callback>)
    ensures (exists i :: 0 <= i < |cbs| && IsRxOutcome(cbs[i])) <==> (exists c :: c in cbs && IsRxOutcome(c))
  {
    if exists c :: c in cbs && IsRxOutcome(c) {
      var c :| c in cbs && IsRxOutcome(c);
      var i :| 0 <= i < |cbs| && cbs[i] == c;
    }
  }
}

=== FILE: utilities.dfy ===
/**
  The debug formatters of the LoRaWAN application: the hexadecimal buffer
  dump, the credential banner, the modem status line and the region line, and
  the query that fetches the region before printing it. Each formatter is a
  function from its arguments to the text it sends to the trace port.
*/
module Utilities {
  import opened Bytes

  // ---------------------------------------------------------------------------
  // print_hex_buffer

  /** Bytes per line of a hexadecimal dump. */
  const DUMP_LINE: nat := 16
  const BLANK_LINE: string := "\n\n"

  /** The text printed for byte `i`: a blank line when it starts a new line of 16, then `%02X `. */
  function Item(buffer: seq<byte>, i: nat): (s: string)
    requires i < |buffer|
  {
    (if i > 0 && i % DUMP_LINE == 0 then BLANK_LINE else "") + Hex2(buffer[i]) + " "
  }

  /** The text printed for the first `k` bytes. */
  function ItemsUpTo(buffer: seq<byte>, k: nat): string
    requires k <= |buffer|
  {
    if k == 0 then [] else ItemsUpTo(buffer, k - 1) + Item(buffer, k - 1)
  }

  /** The whole dump: every byte, then one final blank line. It loses nothing: reading it back gives the buffer. */
  function HexDump(buffer: seq<byte>): (dump: string)
    ensures ParseDump(dump) == Some(buffer)
  {
    var text := ItemsUpTo(buffer, |buffer|) + BLANK_LINE;
    ParseItems(buffer, |buffer|, BLANK_LINE);
    var nl: string := "\n";
    assert BLANK_LINE[1..] == nl && nl[1..] == [];
    assert ParseDump(BLANK_LINE) == Some([]);
    assert buffer[..|buffer|] + [] == buffer;
    text
  }

  /**
    `print_hex_buffer`: print each byte as two upper-case digits and a space,
    put a blank line before a byte that follows a complete line of 16, and end
    with a blank line. `size` is a `uint8_t`, so at most 255 bytes are printed.
  */
  method PrintHexBuffer(buffer: seq<byte>) returns (out: string)
    requires |buffer| < 256
    ensures out == HexDump(buffer)
  {
    var newline := false;
    out := [];
    var i := 0;
    while i < |buffer|
      invariant 0 <= i <= |buffer|
      invariant newline <==> i > 0 && i % DUMP_LINE == 0
      invariant out == ItemsUpTo(buffer, i)
    {
      var line := [];
      if newline {
        line := BLANK_LINE;
        newline := false;
      }
      line := line + Hex2(buffer[i]) + " ";
      if (i + 1) % DUMP_LINE == 0 {
        newline := true;
      }
      out := out + line;
      i := i + 1;
    }
    out := out + BLANK_LINE;
  }

  function Prepend(p: seq<byte>, o: Option<seq<byte>>): Option<seq<byte>> {
    match o
    case Some(r) => Some(p + r)
    case None => None
  }

  /** Reading a dump back: skip line breaks, take each two-digit group followed by a space. */
  function ParseDump(s: string): Option<seq<byte>>
    decreases |s|
  {
    if s == [] then Some([])
    else if s[0] == '\n' then ParseDump(s[1..])
    else if |s| >= 3 && s[2] == ' ' then
      match ParseHex2(s[..2])
      case Some(b) => Prepend([b], ParseDump(s[3..]))
      case None => None
    else None
  }

  /** One byte's text is read back as that byte. */
  lemma ParseItem(buffer: seq<byte>, i: nat, t: string)
    requires i < |buffer|
    ensures ParseDump(Item(buffer, i) + t) == Prepend([buffer[i]], ParseDump(t))
  {
    var h := Hex2(buffer[i]) + " " + t;
    Hex2RoundTrip(buffer[i]);
    assert h[..2] == Hex2(buffer[i]) && h[2] == ' ' && h[3..] == t;
    assert h[0] != '\n';
    assert ParseDump(h) == Prepend([buffer[i]], ParseDump(t));
    if i > 0 && i % DUMP_LINE == 0 {
      var s := Item(buffer, i) + t;
      assert s == "\n\n" + h;
      assert s[1..] == "\n" + h;
      assert s[1..][1..] == h;
    } else {
      assert Item(buffer, i) + t == h;
    }
  }

  lemma {:induction false} ParseItems(buffer: seq<byte>, k: nat, t: string)
    requires k <= |buffer|
    ensures ParseDump(ItemsUpTo(buffer, k) + t) == Prepend(buffer[..k], ParseDump(t))
  {
    if k == 0 {
      assert ItemsUpTo(buffer, 0) + t == t;
      PrependNothing(buffer[..0], ParseDump(t));
    } else {
      var t' := Item(buffer, k - 1) + t;
      ParseItems(buffer, k - 1, t');
      ParseItemsStep(buffer, k, t, t');
    }
  }

  /** One more byte in front: from the dump of the first `k - 1` bytes to that of the first `k`. */
  lemma ParseItemsStep(buffer: seq<byte>, k: nat, t: string, t': string)
    requires 0 < k <= |buffer| && t' == Item(buffer, k - 1) + t
    requires ParseDump(ItemsUpTo(buffer, k - 1) + t') == Prepend(buffer[..k - 1], ParseDump(t'))
    ensures ParseDump(ItemsUpTo(buffer, k) + t) == Prepend(buffer[..k], ParseDump(t))
  {
    ItemsAppend(buffer, k, t);
    ParseItem(buffer, k - 1, t);
    PrependTwice(buffer, k, ParseDump(t));
  }

  lemma PrependNothing(p: seq<byte>, o: Option<seq<byte>>)
    requires p == []
    ensures Prepend(p, o) == o
  {
    if o.Some? {
      assert p + o.value == o.value;
    }
  }

  lemma ItemsAppend(buffer: seq<byte>, k: nat, t: string)
    requires 0 < k <= |buffer|
    ensures ItemsUpTo(buffer, k) + t == ItemsUpTo(buffer, k - 1) + (Item(buffer, k - 1) + t)
  {
  }

  lemma PrependTwice(buffer: seq<byte>, k: nat, o: Option<seq<byte>>)
    requires 0 < k <= |buffer|
    ensures Prepend(buffer[..k - 1], Prepend([buffer[k - 1]], o)) == Prepend(buffer[..k], o)
  {
    if o.Some? {
      assert buffer[..k] == buffer[..k - 1] + [buffer[k - 1]];
      assert buffer[..k - 1] + ([buffer[k - 1]] + o.value) == buffer[..k] + o.value;
    }
  }

  /** Number of occurrences of `c` in `s`. */
  function Count(c: char, s: string): nat {
    if s == [] then 0 else (if s[0] == c then 1 else 0) + Count(c, s[1..])
  }

  lemma {:induction false} CountAppend(c: char, a: string, b: string)
    ensures Count(c, a + b) == Count(c, a) + Count(c, b)
  {
    if a == [] {
      assert a + b == b;
    } else {
      assert (a + b)[0] == a[0];
      assert (a + b)[1..] == a[1..] + b;
      CountAppend(c, a[1..], b);
    }
  }

  lemma CountHex2(b: byte)
    ensures Count('\n', Hex2(b) + " ") == 0
  {
    var s := Hex2(b) + " ";
    assert s[0] != '\n' && s[1] != '\n';
    assert s[1..][1..] == " ";
    assert Count('\n', " ") == 0;
    assert Count('\n', s[1..]) == 0;
  }

  /** Number of lines of 16 needed for `n` bytes. */
  function Lines(n: nat): nat { (n + DUMP_LINE - 1) / DUMP_LINE }

  /** The dump of the first `k > 0` bytes holds one blank line per line of 16 after the first. */
  lemma {:induction false} ItemsNewlines(buffer: seq<byte>, k: nat)
    requires 0 < k <= |buffer|
    ensures Count('\n', ItemsUpTo(buffer, k)) == 2 * (Lines(k) - 1)
  {
    var i := k - 1;
    CountHex2(buffer[i]);
    var sep: string := if i > 0 && i % DUMP_LINE == 0 then BLANK_LINE else "";
    assert Item(buffer, i) == sep + (Hex2(buffer[i]) + " ");
    CountAppend('\n', sep, Hex2(buffer[i]) + " ");
    assert Count('\n', BLANK_LINE) == 2;
    if k == 1 {
      CountAppend('\n', [], Item(buffer, 0));
      assert ItemsUpTo(buffer, 1) == [] + Item(buffer, 0);
    } else {
      ItemsNewlines(buffer, k - 1);
      CountAppend('\n', ItemsUpTo(buffer, k - 1), Item(buffer, i));
      assert Lines(k) == Lines(k - 1) + (if i % DUMP_LINE == 0 then 1 else 0);
    }
  }

  /**
    Blank lines go only between lines of 16 and once at the end: a dump of `n`
    bytes has `ceil(n/16)` blank lines, so a size that is a multiple of 16
    gets no extra separator, and an empty dump is a single blank line.
  */
  lemma HexDumpBlankLines(buffer: seq<byte>)
    ensures Count('\n', HexDump(buffer)) == 2 * (if buffer == [] then 1 else Lines(|buffer|))
  {
    CountAppend('\n', ItemsUpTo(buffer, |buffer|), BLANK_LINE);
    assert Count('\n', BLANK_LINE) == 2;
    if buffer != [] {
      ItemsNewlines(buffer, |buffer|);
    }
  }

  // ---------------------------------------------------------------------------
  // print_lorawan_credentials

  const EUI_BYTES: nat := 8
  const PIN_BYTES: nat := 4

  const INTERNAL_HEADER: string := "---=== INTERNAL CREDENTIALS ===---\n\n"
  const CUSTOM_HEADER: string := "---=== CUSTOM CREDENTIALS ===---\n\n"
  const DEV_EUI_LABEL: string := "DevEui      : "
  const JOIN_EUI_LABEL: string := "JoinEui     : "
  const PIN_LABEL: string := "Pin         : "

  /** The bytes after the first, each as `-%02X`. */
  function DashTail(bs: seq<byte>): (s: string)
    ensures |s| == 3 * |bs|
  {
    if bs == [] then [] else "-" + Hex2(bs[0]) + DashTail(bs[1..])
  }

  /** `%02X` then `-%02X` for each further byte: `01-23-45-...`. */
  function Dashed(bs: seq<byte>): (s: string)
    requires |bs| > 0
    ensures |s| == 3 * |bs| - 1
  {
    Hex2(bs[0]) + DashTail(bs[1..])
  }

  function ParseDashTail(s: string): Option<seq<byte>>
    decreases |s|
  {
    if s == [] then Some([])
    else if |s| >= 3 && s[0] == '-' then
      match ParseHex2(s[1..3])
      case Some(b) => Prepend([b], ParseDashTail(s[3..]))
      case None => None
    else None
  }

  function ParseDashed(s: string): Option<seq<byte>> {
    if |s| < 2 then None
    else
      match ParseHex2(s[..2])
      case Some(b) => Prepend([b], ParseDashTail(s[2..]))
      case None => None
  }

  lemma {:induction false} DashTailRoundTrip(bs: seq<byte>)
    ensures ParseDashTail(DashTail(bs)) == Some(bs)
  {
    if bs != [] {
      var s := DashTail(bs);
      assert s[1..3] == Hex2(bs[0]);
      assert s[3..] == DashTail(bs[1..]);
      Hex2RoundTrip(bs[0]);
      DashTailRoundTrip(bs[1..]);
      assert [bs[0]] + bs[1..] == bs;
    }
  }

  /** A dash-separated identifier reads back as its bytes. */
  lemma DashedRoundTrip(bs: seq<byte>)
    requires |bs| > 0
    ensures ParseDashed(Dashed(bs)) == Some(bs)
  {
    var s := Dashed(bs);
    assert s[..2] == Hex2(bs[0]);
    assert s[2..] == DashTail(bs[1..]);
    Hex2RoundTrip(bs[0]);
    DashTailRoundTrip(bs[1..]);
    assert [bs[0]] + bs[1..] == bs;
  }

  /** The three labelled lines after the header. */
  function CredentialLines(devEui: seq<byte>, joinEui: seq<byte>, pin: seq<byte>): (s: string)
    requires |devEui| == EUI_BYTES && |joinEui| == EUI_BYTES && |pin| == PIN_BYTES
    ensures |s| == 103
  {
    DEV_EUI_LABEL + Dashed(devEui) + "\n" + JOIN_EUI_LABEL + Dashed(joinEui) + "\n" + PIN_LABEL + Dashed(pin) + "\n\n"
  }

  /**
    `print_lorawan_credentials`: a header naming the credential source, then
    the device EUI, the join EUI and the PIN, each dash-separated. The banner
    identifies the credentials and their source: all four can be read back.
  */
  function Credentials(devEui: seq<byte>, joinEui: seq<byte>, pin: seq<byte>, internal: bool): (text: string)
    requires |devEui| == EUI_BYTES && |joinEui| == EUI_BYTES && |pin| == PIN_BYTES
    ensures ReadCredentials(text) == Some(CredentialFields(devEui, joinEui, pin, internal))
  {
    var lines := CredentialLines(devEui, joinEui, pin);
    HeaderIdentifiesSource(internal, lines);
    CredentialLinesFields(devEui, joinEui, pin);
    DashedRoundTrip(devEui);
    DashedRoundTrip(joinEui);
    DashedRoundTrip(pin);
    (if internal then INTERNAL_HEADER else CUSTOM_HEADER) + lines
  }

  datatype CredentialFields = CredentialFields(devEui: seq<byte>, joinEui: seq<byte>, pin: seq<byte>, internal: bool)

  /** Reading the banner back: the header, then the three fields at their fixed columns. */
  function ReadCredentials(text: string): Option<CredentialFields> {
    var internal := |text| >= |INTERNAL_HEADER| && text[..|INTERNAL_HEADER|] == INTERNAL_HEADER;
    var h := if internal then |INTERNAL_HEADER| else |CUSTOM_HEADER|;
    if |text| != h + 103 then None else ReadCredentialLines(text[h..], internal)
  }

  /** The three fields of the labelled lines, at their fixed columns. */
  function ReadCredentialLines(lines: string, internal: bool): Option<CredentialFields>
    requires |lines| == 103
  {
    match (ParseDashed(lines[14..37]), ParseDashed(lines[52..75]), ParseDashed(lines[90..101]))
    case (Some(d), Some(j), Some(p)) => Some(CredentialFields(d, j, p, internal))
    case _ => None
  }

  lemma CredentialLinesFields(devEui: seq<byte>, joinEui: seq<byte>, pin: seq<byte>)
    requires |devEui| == EUI_BYTES && |joinEui| == EUI_BYTES && |pin| == PIN_BYTES
    ensures var s := CredentialLines(devEui, joinEui, pin);
            s[14..37] == Dashed(devEui) && s[52..75] == Dashed(joinEui) && s[90..101] == Dashed(pin)
  {
    LabelledFields(DEV_EUI_LABEL, Dashed(devEui), JOIN_EUI_LABEL, Dashed(joinEui), PIN_LABEL, Dashed(pin));
  }

  /** Where the three fields sit in the labelled lines, for labels of 14 characters. */
  lemma LabelledFields(l1: string, d: string, l2: string, j: string, l3: string, p: string)
    requires |l1| == 14 && |d| == 23 && |l2| == 14 && |j| == 23 && |l3| == 14 && |p| == 11
    ensures var s := l1 + d + "\n" + l2 + j + "\n" + l3 + p + "\n\n";
            s[14..37] == d && s[52..75] == j && s[90..101] == p
  {
  }

  /** The header tells the two credential sources apart, whatever lines follow it. */
  lemma HeaderIdentifiesSource(internal: bool, lines: string)
    requires |lines| == 103
    ensures ReadCredentials((if internal then INTERNAL_HEADER else CUSTOM_HEADER) + lines)
            == ReadCredentialLines(lines, internal)
  {
    var header := if internal then INTERNAL_HEADER else CUSTOM_HEADER;
    var text := header + lines;
    assert text[|header|..] == lines;
    if internal {
      assert text[..|INTERNAL_HEADER|] == INTERNAL_HEADER;
    } else {
      assert text[7] == 'C' && INTERNAL_HEADER[7] == 'I';
    }
  }

  // ---------------------------------------------------------------------------
  // modem_status_to_string

  /** LoRaWAN status bits (`lr1121_modem_lorawan_status_t`) the status line reports. */
  const LORAWAN_CRASH: bv8 := 0x02
  const LORAWAN_JOINED: bv8 := 0x08
  const LORAWAN_SUSPEND: bv8 := 0x10
  const LORAWAN_JOINING: bv8 := 0x40
  const REPORTED_BITS: bv8 := 0x5A

  const STATUS_PREFIX: string := "Modem status : "
  const STATUS_SUFFIX: string := "\n\n\n"

  /** The word printed for a flag, or nothing. */
  function Word(status: bv8, flag: bv8, name: string): string {
    if status & flag == flag then name else ""
  }

  function StatusWords(status: bv8): string {
    Word(status, LORAWAN_CRASH, "CRASH ") + Word(status, LORAWAN_JOINED, "JOINED ")
    + Word(status, LORAWAN_SUSPEND, "SUSPEND ") + Word(status, LORAWAN_JOINING, "JOINING ")
  }

  /**
    `modem_status_to_string`: the set flags by name, each followed by a space,
    in a fixed order. The line reports exactly the four named bits: reading it
    back gives the status masked to them.
  */
  function StatusLine(status: bv8): (line: string)
    ensures ReadStatusLine(line) == Some(status & REPORTED_BITS)
  {
    var words := StatusWords(status);
    var text := STATUS_PREFIX + words + STATUS_SUFFIX;
    assert text[..|STATUS_PREFIX|] == STATUS_PREFIX;
    assert text[|text| - |STATUS_SUFFIX|..] == STATUS_SUFFIX;
    assert text[|STATUS_PREFIX|..|text| - |STATUS_SUFFIX|] == words;
    StatusWordsRoundTrip(status);
    text
  }

  /** Consume `name` at the head of `s` if it is there, reporting `flag`. */
  function Take(s: string, name: string, flag: bv8): (r: (bv8, string))
    ensures |r.1| <= |s|
  {
    if |s| >= |name| && s[..|name|] == name then (flag, s[|name|..]) else (0, s)
  }

  /** Reading the flag words back, in the order they are printed. */
  function ReadStatusWords(words: string): Option<bv8> {
    var (c, r1) := Take(words, "CRASH ", LORAWAN_CRASH);
    var (j, r2) := Take(r1, "JOINED ", LORAWAN_JOINED);
    var (s, r3) := Take(r2, "SUSPEND ", LORAWAN_SUSPEND);
    var (g, r4) := Take(r3, "JOINING ", LORAWAN_JOINING);
    if r4 == [] then Some(c | j | s | g) else None
  }

  function ReadStatusLine(line: string): Option<bv8> {
    var p := |STATUS_PREFIX|;
    var q := |STATUS_SUFFIX|;
    if |line| < p + q || line[..p] != STATUS_PREFIX || line[|line| - q..] != STATUS_SUFFIX then None
    else ReadStatusWords(line[p..|line| - q])
  }

  /** Taking a word that is present consumes it; one that is absent leaves a text starting with another letter untouched. */
  lemma TakeWord(status: bv8, flag: bv8, name: string, rest: string)
    requires |name| > 0
    requires rest != [] ==> rest[0] != name[0] || (|rest| >= |name| && rest[..|name|] != name)
    requires flag == 0x02 || flag == 0x08 || flag == 0x10 || flag == 0x40
    ensures Take(Word(status, flag, name) + rest, name, flag).0 == status & flag
    ensures Take(Word(status, flag, name) + rest, name, flag).1 == rest
  {
    var t := Word(status, flag, name) + rest;
    if status & flag == flag {
      assert t[..|name|] == name && t[|name|..] == rest;
    } else {
      assert status & flag == 0;
      assert t == rest;
      if |rest| >= |name| && rest[0] == name[0] {
        assert rest[..|name|] != name;
      }
    }
  }

  lemma MaskSplit(status: bv8)
    ensures (status & 0x02) | (status & 0x08) | (status & 0x10) | (status & 0x40) == status & REPORTED_BITS
  {
  }

  /** The flag words read back as the status masked to the four named bits. */
  lemma StatusWordsRoundTrip(status: bv8)
    ensures ReadStatusWords(StatusWords(status)) == Some(status & REPORTED_BITS)
  {
    var w1 := Word(status, LORAWAN_CRASH, "CRASH ");
    var w2 := Word(status, LORAWAN_JOINED, "JOINED ");
    var w3 := Word(status, LORAWAN_SUSPEND, "SUSPEND ");
    var w4 := Word(status, LORAWAN_JOINING, "JOINING ");
    assert StatusWords(status) == w1 + (w2 + (w3 + w4));
    TakeLastWords(status, w3, w4);
    TakeFirstWords(status, w1, w2, w3 + w4);
    ReadStatusWordsSteps(w1 + (w2 + (w3 + w4)), status & 0x02, w2 + (w3 + w4), status & 0x08, w3 + w4,
      status & 0x10, w4, status & 0x40, []);
    MaskSplit(status);
  }

  /** Reading "SUSPEND " and "JOINING " back from the end of the words. */
  lemma TakeLastWords(status: bv8, w3: string, w4: string)
    requires w3 == Word(status, LORAWAN_SUSPEND, "SUSPEND ") && w4 == Word(status, LORAWAN_JOINING, "JOINING ")
    ensures Take(w3 + w4, "SUSPEND ", LORAWAN_SUSPEND).0 == status & 0x10
    ensures Take(w3 + w4, "SUSPEND ", LORAWAN_SUSPEND).1 == w4
    ensures Take(w4, "JOINING ", LORAWAN_JOINING).0 == status & 0x40
    ensures Take(w4, "JOINING ", LORAWAN_JOINING).1 == []
  {
    TakeWord(status, LORAWAN_JOINING, "JOINING ", []);
    assert w4 + [] == w4;
    TakeWord(status, LORAWAN_SUSPEND, "SUSPEND ", w4);
  }

  /** Reading "CRASH " and "JOINED " back from the start of the words. */
  lemma TakeFirstWords(status: bv8, w1: string, w2: string, rest: string)
    requires w1 == Word(status, LORAWAN_CRASH, "CRASH ") && w2 == Word(status, LORAWAN_JOINED, "JOINED ")
    requires rest == Word(status, LORAWAN_SUSPEND, "SUSPEND ") + Word(status, LORAWAN_JOINING, "JOINING ")
    ensures Take(w1 + (w2 + rest), "CRASH ", LORAWAN_CRASH).0 == status & 0x02
    ensures Take(w1 + (w2 + rest), "CRASH ", LORAWAN_CRASH).1 == w2 + rest
    ensures Take(w2 + rest, "JOINED ", LORAWAN_JOINED).0 == status & 0x08
    ensures Take(w2 + rest, "JOINED ", LORAWAN_JOINED).1 == rest
  {
    JoiningIsNotJoined(rest, Word(status, LORAWAN_SUSPEND, "SUSPEND "), Word(status, LORAWAN_JOINING, "JOINING "));
    TakeWord(status, LORAWAN_JOINED, "JOINED ", rest);
    TakeWord(status, LORAWAN_CRASH, "CRASH ", w2 + rest);
  }

  /** What follows the place of "JOINED " never starts with it, even when it is "JOINING ". */
  lemma JoiningIsNotJoined(rest: string, w3: string, w4: string)
    requires rest == w3 + w4 && (w3 == [] || w3 == "SUSPEND ") && (w4 == [] || w4 == "JOINING ")
    ensures rest != [] ==> rest[0] != 'J' || (|rest| >= 7 && rest[..7] != "JOINED ")
  {
    if w3 == [] && w4 != [] {
      assert rest[..7][5] != "JOINED "[5];
    }
  }

  /** `ReadStatusWords` in terms of the results of its four takes. */
  lemma ReadStatusWordsSteps(words: string, c: bv8, r1: string, j: bv8, r2: string, s: bv8, r3: string, g: bv8, r4: string)
    requires Take(words, "CRASH ", LORAWAN_CRASH).0 == c && Take(words, "CRASH ", LORAWAN_CRASH).1 == r1
    requires Take(r1, "JOINED ", LORAWAN_JOINED).0 == j && Take(r1, "JOINED ", LORAWAN_JOINED).1 == r2
    requires Take(r2, "SUSPEND ", LORAWAN_SUSPEND).0 == s && Take(r2, "SUSPEND ", LORAWAN_SUSPEND).1 == r3
    requires Take(r3, "JOINING ", LORAWAN_JOINING).0 == g && Take(r3, "JOINING ", LORAWAN_JOINING).1 == r4
    ensures ReadStatusWords(words) == if r4 == [] then Some(c | j | s | g) else None
  {
  }

  // ---------------------------------------------------------------------------
  // print_lorawan_region and get_and_print_lorawan_region_from_modem

  /** The regions the modem may report; `OtherRegion` stands for every value the printer does not support. */
  datatype Region =
    | EU868 | US915 | AU915 | AS923Grp1 | CN470 | AS923Grp2 | AS923Grp3 | AS923Grp4 | IN865 | KR920 | RU864
    | OtherRegion

  const REGION_LABEL: string := "REGION      : "
  const REGION_SUFFIX: string := "\n\n\n"
  const NO_REGION: string := "No supported region selected\n\n\n"

  /** The name printed for a supported region. */
  function RegionName(r: Region): Option<string> {
    match r
    case EU868 => Some("EU868")
    case US915 => Some("US915")
    case AU915 => Some("AU915")
    case AS923Grp1 => Some("AS923_GRP1")
    case CN470 => Some("CN470")
    case AS923Grp2 => Some("AS923_GRP2")
    case AS923Grp3 => Some("AS923_GRP3")
    case AS923Grp4 => Some("AS923_GRP4")
    case IN865 => Some("IN865")
    case KR920 => Some("KR920")
    case RU864 => Some("RU864")
    case OtherRegion => None
  }

  /**
    `print_lorawan_region`: the region's name on a labelled line, or an error
    line. Every region is printed under its own name, so the line identifies
    the region, and exactly the unsupported ones print the error line.
  */
  function RegionLine(region: Region): (line: string)
    ensures ReadRegionLine(line) == Some(region)
    ensures RegionName(region).None? <==> line == NO_REGION
  {
    match RegionName(region)
    case Some(name) =>
      var text := REGION_LABEL + name + REGION_SUFFIX;
      assert text[..|REGION_LABEL|] == REGION_LABEL;
      assert text[..|REGION_LABEL|][0] == 'R' && NO_REGION[0] == 'N';
      assert text[|text| - |REGION_SUFFIX|..] == REGION_SUFFIX;
      assert text[|REGION_LABEL|..|text| - |REGION_SUFFIX|] == name;
      text
    case None => NO_REGION
  }

  /** The region a name denotes. */
  function RegionNamed(name: string): Region {
    if name == "EU868" then EU868
    else if name == "US915" then US915
    else if name == "AU915" then AU915
    else if name == "AS923_GRP1" then AS923Grp1
    else if name == "CN470" then CN470
    else if name == "AS923_GRP2" then AS923Grp2
    else if name == "AS923_GRP3" then AS923Grp3
    else if name == "AS923_GRP4" then AS923Grp4
    else if name == "IN865" then IN865
    else if name == "KR920" then KR920
    else if name == "RU864" then RU864
    else OtherRegion
  }

  /** Reading a region line back. */
  function ReadRegionLine(line: string): Option<Region> {
    var p := |REGION_LABEL|;
    var q := |REGION_SUFFIX|;
    if line == NO_REGION then Some(OtherRegion)
    else if |line| < p + q || line[..p] != REGION_LABEL || line[|line| - q..] != REGION_SUFFIX then None
    else
      var r := RegionNamed(line[p..|line| - q]);
      if r == OtherRegion then None else Some(r)
  }

  /** Distinct regions print distinct lines. */
  lemma RegionLineInjective(a: Region, b: Region)
    ensures RegionLine(a) == RegionLine(b) ==> a == b
  {
  }

  /** The modem's answer to the region query: a response code and, on success, the region. */
  datatype RegionReply = RegionOk(region: Region) | RegionFailed(code: int)

  /**
    The result of fetching and printing the region: what the caller's region
    variable holds afterwards (`None` for a NULL pointer) and what was printed,
    or a dereference of the NULL pointer.
  */
  datatype RegionQuery =
    | Printed(out: Option<Region>, text: string)
    | ReportedError(out: Option<Region>, code: int)
    | NullDereference

  /**
    `get_and_print_lorawan_region_from_modem` as written: on success the region
    is stored through the pointer when it is not NULL, and then printed by
    reading it back through the pointer, NULL or not.
  */
  function GetAndPrintRegionAsWritten(reply: RegionReply, out: Option<Region>): (q: RegionQuery)
    ensures reply.RegionOk? && out.Some? ==> q == Printed(Some(reply.region), RegionLine(reply.region))
    ensures reply.RegionOk? && out.None? ==> q.NullDereference?
    ensures reply.RegionFailed? ==> q == ReportedError(out, reply.code)
  {
    match reply
    case RegionFailed(code) => ReportedError(out, code)
    case RegionOk(region) =>
      var stored := if out.Some? then Some(region) else out;
      match stored
      case Some(r) => Printed(stored, RegionLine(r))
      case None => NullDereference
  }

  /** A successful query with a NULL output pointer dereferences it. */
  lemma NullOutputDereferenced()
    ensures GetAndPrintRegionAsWritten(RegionOk(EU868), None) == NullDereference
  {
  }

  /**
    The query as evidently intended: print the region the modem returned, and
    store it only through a non-NULL pointer. It never dereferences NULL,
    prints the modem's region exactly when the modem answered, leaves the
    caller's variable alone on failure, and agrees with the code as written
    whenever the pointer is valid.
  */
  function GetAndPrintRegion(reply: RegionReply, out: Option<Region>): (q: RegionQuery)
    ensures !q.NullDereference?
    ensures q.Printed? <==> reply.RegionOk?
    ensures q.Printed? ==> ReadRegionLine(q.text) == Some(reply.region) && q.out.Some? == out.Some?
    ensures q.ReportedError? ==> q.out == out && q.code == reply.code
    ensures out.Some? ==> q == GetAndPrintRegionAsWritten(reply, out)
  {
    match reply
    case RegionFailed(code) => ReportedError(out, code)
    case RegionOk(region) => Printed(if out.Some? then Some(region) else None, RegionLine(region))
  }
}
